=== FILE: README.md ===
# CSExplainer learning-path core in Dafny

This project models the core of CSExplainer. It has two halves.

The first half is a reinforcement-learning engine that plans a path through a computer-science curriculum:
- the concept-prerequisite graph;
- the learner state and the reward function;
- the list-based curriculum environment;
- the tabular Q-learning agent with its epsilon-greedy choice and epsilon decay;
- the two replay buffers: a bounded deque and a ring;
- the replay-based training loop;
- the greedy learning-path rollout;
- the small stand-alone Q-learner with its placeholder environment.

The second half is the rule-based text helpers:
- concept lookup in the knowledge base;
- concept recognition in a user question;
- the Markdown explanation formatter;
- the parsing that the knowledge extractor applies to the language model's answers;
- the template-based scene describer.

Everything is pure functions on immutable datatypes, plus a few methods with loops. One Dafny module corresponds to one source file. Shared modules:
- `Wrappers`: `Option` and `Result`.
- `PyText`: the Python `str` operations the code uses.
- `QTable`: numpy zeros, index wrap-around, max and argmax.
- `Sampling`: selection without replacement from a stream of draws.
- `Environment`: the environment interface.
- `KnowledgeBase`: the parsed JSON concept objects.
- `SetIteration`: picking an element of a set in a method.

Python exceptions are `Err` values of a `Result`, so each error path is modelled as the branch that raises it. Randomness is an oracle argument: a `random.random()` draw, a `randint` draw, and the index draws behind `random.sample`. The `Sampling` lemmas show that the oracle can produce every outcome the library can. The model follows the code as written:
- `RLAgent.update` multiplies epsilon by the decay whenever epsilon is above the minimum, so one step can take it below the minimum (`RlAgent.EpsilonOvershootsMinimum`). The replay loop of train.py updates the Q-table inline and leaves epsilon unchanged.
- The reward is a base of 1/(difficulty + 0.1), or 1 for a concept without a difficulty, plus 2 for a visual learner and a visual concept, plus 0.2 per concept that lists the action, plus 10 when the next state is terminal. It is -5 instead when a listed prerequisite is unmastered. The base is computed first, so a difficulty of -0.1 raises even then.
- The knowledge frontier is every concept that is reached by an edge from a mastered concept and whose predecessors are all mastered, mastered concepts included.
- The curriculum environment's `step` returns the next state but never stores it, so every step starts from the same current state (`CsLearningEnv.StepsDoNotAccumulate`).
- The `sample` of experience_replay.py raises once anything has been pushed, as explained under Findings.

## Model

| member | source | states |
|---|---|---|
| KnowledgeGraph.BuildGraph | knowledge_graph.py:16-21 | every concept record becomes a node that carries the record; there is an edge p→c exactly when c's record lists p; a listed name without a record of its own is still a node, and only because it is listed |
| KnowledgeGraph.KnowledgeFrontier | knowledge_graph.py:28-35 | fails (networkx raises) exactly when a mastered name is not a node; otherwise c is in the frontier iff some mastered concept has an edge to c and every predecessor of c is mastered |
| KnowledgeGraph.ConceptDifficulty | knowledge_graph.py:37-46 | defined exactly for nodes; the stored difficulty (1 when absent) scaled by 0.8 for "intermediate", by 0.6 for "advanced", and unscaled for every other level |
| KnowledgeGraph.DifficultyDecreasesWithLevel | knowledge_graph.py:37-46 | for a non-negative base difficulty, advanced ≤ intermediate ≤ beginner, and an unknown level is treated exactly like "beginner" |
| KnowledgeGraph.MissingDifficultyIsOne | knowledge_graph.py:39 | a node without a difficulty attribute counts as 1 for a beginner and 0.6 for an advanced learner |
| KnowledgeGraph.GetPrerequisites | knowledge_graph.py:48-50 | defined exactly for nodes; p is returned iff there is an edge p→concept |
| KnowledgeGraph.GetDependentConcepts | knowledge_graph.py:52-54 | defined exactly for nodes; c is returned iff there is an edge concept→c |
| KnowledgeGraph.PrerequisitesDependentsDual | knowledge_graph.py:48-54 | a is a prerequisite of c iff c is a dependent of a |
| KnowledgeGraph.BuiltPrerequisitesAreListed | knowledge_graph.py:18-21 | in a built graph, the prerequisites of a concept with a record are exactly the names that record lists |
| StateRepresentation.BuildStateVector | state_representation.py:24-34 | one entry per curriculum concept: 1 at every in-range mastered id, 0 everywhere else; out-of-range ids are ignored |
| StateRepresentation.Init | state_representation.py:6-22 | the mastered set holds exactly the ids of the profile's list; the goal is the profile's; the vector agrees with the set |
| StateRepresentation.Update | state_representation.py:36-45 | an in-range id joins the mastered set and its entry becomes 1 while every other entry is kept; an out-of-range id changes nothing; the vector keeps agreeing with the set |
| StateRepresentation.UpdateIdempotent | state_representation.py:36-45 | mastering the same concept twice is the same as mastering it once |
| StateRepresentation.GetAvailableConcepts | state_representation.py:47-71 | raises ValueError iff some unmastered curriculum id's check reaches a non-numeral prerequisite before it can break; otherwise strictly increasing ids, with c listed iff it is a curriculum id, not mastered, and every listed prerequisite is a numeral naming a mastered id |
| StateRepresentation.CheckPrerequisites | state_representation.py:62-66 | for one id: `int()` raises exactly when the scan meets a non-numeral before an unmastered prerequisite; otherwise true iff every listed prerequisite is a numeral naming a mastered id |
| StateRepresentation.ScanPrerequisites | state_representation.py:62-66 | over parsed prerequisites: raises exactly when a non-numeral comes before any entry outside the mastered set; otherwise true iff every entry is a mastered id |
| StateRepresentation.ScanIds | state_representation.py:54-71 | over ids 0 .. n-1 for any parsing of the prerequisite lists: raises iff some unmastered id's scan raises; otherwise strictly increasing ids, with c listed iff it is in range, unmastered and all its entries are mastered ids |
| StateRepresentation.NoRaiseUnlessAllNumerals | state_representation.py:63-66 | a scan that stops at a numeral outside the mastered set, having seen only mastered ids, does not raise |
| StateRepresentation.RaisesInMeans | state_representation.py:63-66 | the scan raises iff some entry is a non-numeral and every entry before it is a mastered id |
| StateRepresentation.BreakSkipsLaterPrerequisites | state_representation.py:63-66 | with prerequisites ["0", "x"], nothing mastered breaks at "0" and never reads "x", while mastering 0 makes the same check raise |
| StateRepresentation.IsTerminal | state_representation.py:73-80 | without a goal, and with every mastered id in range, the state is terminal iff every curriculum concept is mastered |
| StateRepresentation.TerminalIffAllMastered | state_representation.py:73-77 | without a goal, and with every mastered id in range, the state is terminal iff every concept is mastered |
| StateRepresentation.TerminalCountsStrayIds | state_representation.py:75-77 | the count-based test is fooled by out-of-range ids: two concepts, mastered {0, 5}, concept 1 unmastered, and the state is terminal |
| StateRepresentation.UpdateGoalIsTerminal | state_representation.py:78-80 | mastering an in-range goal makes the state terminal |
| RewardFunction.BaseReward | reward_function.py:37-42 | fails exactly when the difficulty is -0.1 (division by zero); otherwise base × (difficulty + 0.1) = 1, and a concept without a difficulty gets 1 |
| RewardFunction.StyleBonus | reward_function.py:49-52 | the bonus is 2 exactly when the learning style is "visual" and the action is a visual concept, and 0 otherwise |
| RewardFunction.Dependents | reward_function.py:54-55 | c is counted iff its prerequisite list names the action |
| RewardFunction.CalculateReward | reward_function.py:25-65 | raises exactly when the base term divides by zero, even if the penalty would apply; with any listed prerequisite unmastered the reward is exactly -5 |
| RewardFunction.PenaltyIgnoresOtherTerms | reward_function.py:44-47 | an unmastered prerequisite gives -5 whatever the difficulties, the profile and the terminal flag |
| RewardFunction.RewardTerms | reward_function.py:49-59 | with the prerequisites met, the reward is the base term plus the style bonus plus 0.2 per dependent concept |
| RewardFunction.TerminalAddsCompletion | reward_function.py:61-63 | a terminal next state adds exactly 10 to that sum |
| RewardFunction.EfficiencyPerDependent | reward_function.py:54-56 | registering one more concept that lists the action raises the reward by exactly 0.2 |
| RewardFunction.RewardPositiveWhenMet | reward_function.py:37-59 | with the prerequisites met and a difficulty above -0.1 (or none), the reward exists and is strictly above 0 and so above the penalty |
| RewardFunction.NegativeDifficultyBelowPenalty | reward_function.py:38-40 | difficulty -0.2 gives reward -10: a concept whose prerequisites are met can score below the penalty |
| CsLearningEnv.AddMastered | cs_learning_env.py:32-34 | the new list holds exactly the old entries and the action; it grows by one exactly when the action was absent, and the old list is kept as a prefix |
| CsLearningEnv.IsCurriculumComplete | cs_learning_env.py:46-48 | for a duplicate-free mastered list of curriculum concepts over a duplicate-free curriculum, complete iff every concept is mastered |
| CsLearningEnv.StateIsTerminal | cs_learning_env.py:60-62 | the placeholder state is never terminal |
| CsLearningEnv.Step | cs_learning_env.py:27-40 | fails exactly when the base reward does; the next list is the current one with the action added; done iff it has as many entries as the graph has concepts; the reward is computed with a non-terminal next state |
| CsLearningEnv.StepKeepsNoDuplicates | cs_learning_env.py:32-36 | a duplicate-free mastered list stays duplicate-free and grows by at most one |
| CsLearningEnv.StepNeverPaysCompletion | cs_learning_env.py:29 | the step reward is the completion bonus short of the reward for a terminal next state, even on the step that completes the curriculum |
| CsLearningEnv.StepsDoNotAccumulate | cs_learning_env.py:27-40 | two steps from the same environment do not accumulate: the second one's list holds only its own action |
| CsLearningEnv.GetAvailableActions | cs_learning_env.py:42-44 | x is offered iff it is a graph concept not in the current list; the offers keep the graph's order |
| CsLearningEnv.FreshStartOffersEverything | cs_learning_env.py:42-44 | with a duplicate-free curriculum and nothing mastered, every concept is offered, in order |
| RlAgent.ParseEntry | rl_agent.py:44-46 | the key and each listed id go through `int()`, position by position |
| RlAgent.LoadKnowledgeRelationships | rl_agent.py:33-52 | a missing file gives the n×n zero matrix; otherwise it succeeds iff every entry converts and indexes within n; the result is n×n with a 1 exactly at each listed (concept, prerequisite) cell and 0 elsewhere |
| RlAgent.FillMatrix | rl_agent.py:39-49 | succeeds iff every converted entry is usable; cell (i, j) is 1 iff some entry names it |
| RlAgent.FillEntry | rl_agent.py:45-47 | the cells one entry names become 1 and all others keep their value; it fails iff a listed id, or the key when an id is listed, is out of range |
| RlAgent.EmptyListsGiveZeros | rl_agent.py:43-47 | entries that list nothing mark no cell, as a missing file would |
| RlAgent.OutOfRangeKeyNeedsAPrerequisite | rl_agent.py:44-47 | a numeric out-of-range key is accepted with an empty list and rejected as soon as it lists an id |
| RlAgent.NewAgent | rl_agent.py:6-31 | a negative size raises ValueError (from np.zeros); with non-negative sizes a missing file never fails; the agent has a state×action zero Q-table, a state×state prerequisite matrix, and exactly the given rates |
| RlAgent.SelectAction | rl_agent.py:54-69 | explores iff the draw is below epsilon, which succeeds iff there is an action; exploiting needs a readable row; the result is an action, and when exploiting it is the first action of maximal Q-value |
| RlAgent.ExploreReachesEveryAction | rl_agent.py:65-66 | when exploring, every action can be drawn |
| RlAgent.Target | rl_agent.py:83-85 | a done step's target is the reward; otherwise reward + gamma × max of the next row, missing when that row cannot be read |
| RlAgent.Update | rl_agent.py:71-91 | fails iff the target or an index is missing; entry [s][a] moves alpha of the way toward the target and every other entry is kept; epsilon is multiplied by the decay iff it is above the minimum; nothing else changes |
| RlAgent.UpdateBetweenOldAndTarget | rl_agent.py:87 | with alpha in [0, 1] the new value lies between the old value and the target |
| RlAgent.UpdateEpsilonStep | rl_agent.py:89-91 | one update never raises epsilon, leaves it alone at or below the minimum, and keeps the decay and the minimum |
| RlAgent.EpsilonNonIncreasing | rl_agent.py:89-91 | over any run of updates epsilon never grows, and once at or below the minimum it stays exactly there |
| RlAgent.EpsilonOvershootsMinimum | rl_agent.py:90-91 | without a clamp one decay takes 0.015 to 0.0075, below the minimum 0.01, where it then stays |
| ReplayBuffer.New | replay_buffer.py:8-15 | a negative capacity raises; otherwise the buffer is empty with that capacity |
| ReplayBuffer.Push | replay_buffer.py:17-29 | the length grows by one until it reaches the capacity and then stays there |
| ReplayBuffer.PushAppendsOrRotates | replay_buffer.py:28-29 | below capacity the experience is appended; at capacity the oldest is dropped first; capacity 0 keeps nothing |
| ReplayBuffer.PushAllKeepsNewest | replay_buffer.py:15-29 | after any number of pushes the buffer holds exactly the newest experiences that fit, oldest first |
| ReplayBuffer.Sample | replay_buffer.py:31-44 | a negative size raises; otherwise min(batch size, length) experiences from distinct positions of the buffer |
| ReplayBuffer.SampleCanReturnAny | replay_buffer.py:44 | every choice of distinct positions is a possible sample |
| Sampling.ChooseReachesEverySelection | replay_buffer.py:44 | every ordered selection of distinct elements is produced by some draws |
| ExperienceReplay.Init | experience_replay.py:4-7 | an empty buffer that keeps the given capacity, writing at slot 0 |
| ExperienceReplay.Push | experience_replay.py:9-14 | raises iff the capacity is not positive; the list grows by one until full; the experience lands at the write position and every other slot is kept; the position advances by one, wrapping to 0 |
| ExperienceReplay.NoRoomRejectsPush | experience_replay.py:11-13 | with no room, writing slot 0 of the empty list raises IndexError |
| ExperienceReplay.PushMatchesDeque | experience_replay.py:9-14 | one push on the ring, read from oldest to newest, is one append on the bounded deque |
| ExperienceReplay.PushAllRefinesDeque | experience_replay.py:9-14 | after any run of pushes the ring, read in order, holds what the bounded deque holds after the same appends |
| ExperienceReplay.PushAllCounts | experience_replay.py:11-14 | after n pushes the position has advanced by n modulo the capacity and the length by n, capped at the capacity |
| ExperienceReplay.FreshRingMatchesDeque | experience_replay.py:4-14 | from empty, the ring agrees with replay_buffer.py's deque after any pushes |
| ExperienceReplay.Sample | experience_replay.py:16-18 | as written: succeeds only on an empty buffer with batch size 0, returning nothing; ValueError otherwise |
| ExperienceReplay.SampleRejectsStoredExperiences | experience_replay.py:18 | after one push, `sample(1)` raises although the buffer holds the experience, while the intended draw returns it |
| ExperienceReplay.SampleIntended | experience_replay.py:16-18 | raises iff the size is negative or above the length; otherwise exactly that many experiences from distinct positions |
| ExperienceReplay.IntendedSampleIsDequeSample | experience_replay.py:16-18 | when the batch fits, the intended draw equals replay_buffer.py's sample of the same experiences with the same draws |
| Train.ReplayTarget | train.py:38-41 | raises exactly when `RLAgent.update` has no target, and otherwise is that target |
| Train.ReplayUpdate | train.py:38-42 | only the Q-table changes |
| Train.ReplayUpdateIsUpdateWithoutDecay | train.py:41-42 | the inline update raises exactly when `RLAgent.update` does, and otherwise is that update with epsilon left alone |
| Train.ReplayUpdateWrites | train.py:42 | with a target and both indices, entry [s][a] becomes the value moved alpha toward the target, and nothing else changes |
| Train.ReplayUpdateFails | train.py:41-42 | without a target or an index the replay raises |
| Train.ReplayAll | train.py:36-42 | replaying a batch changes only the Q-table |
| Train.TrainStep | train.py:21-42 | the action is the agent's epsilon-greedy choice from the step's draws; the outcome is the environment's answer; the experience is pushed; a batch is replayed iff the buffer then holds more than the batch size, and the new agent is the replay of the sampled batch, else the old agent |
| Train.ChainedStep | train.py:19-42 | in an episode, step j was chosen by stage j's agent, answered by stage j's environment, and changed the agent only through the replay of the batch sampled after the push |
| Train.RunEpisode | train.py:14-42 | 1 to 100 steps, stopping early only at a done step; the total is the sum of the step rewards; the steps are exactly those chained by `TrainStep` from the reset environment; the buffer holds min(steps so far, 10000) experiences; a failure is the error of the first `TrainStep` that raises, after a chained prefix under 100 steps with no done step |
| Train.Run | train.py:4-49 | one total per episode, each the sum of that episode's rewards; the run starts with an empty buffer that carries over between episodes, and each episode starts from the agent the previous one left; the trained agent is the last episode's, and only its Q-table has changed; a failure is the error of the first failing `TrainStep` of some episode, after the earlier episodes chained in full |
| PathGeneration.ValidActions | path_generation.py:29-35 | increasing Q-row indices; a is valid iff it indexes the row, is unvisited and is available |
| PathGeneration.BestAction | path_generation.py:42 | a valid action of maximal Q-value, the lowest index among ties |
| PathGeneration.RowOf | path_generation.py:26 | the Q-row can be read iff the state indexes the table, and has one entry per action |
| PathGeneration.GenerateLearningPath | path_generation.py:3-59 | raises only IndexError, and only when a greedy rollout under the budget, not ended by done, stands at a state that is not a row of the Q-table; otherwise the path starts at the start concept, never repeats one, each step is the greedy choice, at most max_steps steps are taken, and a rollout that stops early without done reached the target or had no valid action |
| PathGeneration.RolledStepsAreGreedy | path_generation.py:24-54 | every appended concept was available, unvisited and an action index, and no eligible action had a larger Q-value or an equal one at a lower index |
| PathGeneration.TargetAtStartTakesNoStep | path_generation.py:38-39 | a rollout whose target is its start returns just the start |
| LearningPathRl.New | src_ai/reinforcement_learning.py:4-7 | a negative dimension raises; otherwise a zero table of the given shape |
| LearningPathRl.Greedy | src_ai/reinforcement_learning.py:14 | fails with IndexError for an unreadable state and ValueError for an empty row; otherwise the first action of maximal Q-value |
| LearningPathRl.Learn | src_ai/reinforcement_learning.py:16 | only entry [s][a] changes; it moves 0.1 toward reward + 0.9 × max of the next row, whatever the done flag |
| LearningPathRl.GreedyIsExploitOnly | src_ai/reinforcement_learning.py:14 | the greedy choice is `RLAgent.select_action` with epsilon 0, for every draw |
| LearningPathRl.LearnIsUpdateNeverDone | src_ai/reinforcement_learning.py:16 | the update is `RLAgent.update`'s Q-rule for a step that is never done |
| LearningPathRl.TakeStep | src_ai/reinforcement_learning.py:13-17 | one pass chooses greedily and hands the environment's answer to that action back |
| LearningPathRl.Episode | src_ai/reinforcement_learning.py:11-17 | an episode that ends keeps the table's shape |
| LearningPathRl.NeverDoneExhaustsFuel | src_ai/reinforcement_learning.py:13-17 | against an environment that never reports done no step budget sees the episode end |
| LearningPathRl.StuckEpisodeNeverEnds | src_ai/reinforcement_learning.py:13 | the default learner's first episode against an always-not-done environment never ends, so neither does training |
| LearningPathRl.EpisodeCapped | src_ai/reinforcement_learning.py:13-17 | the episode with a step cap never runs out of budget |
| LearningPathRl.CappedAgreesWhenEpisodeEnds | src_ai/reinforcement_learning.py:13-17 | whenever the unbounded episode ends within the cap, the capped episode ends the same way |
| LearningPathRl.Train | src_ai/reinforcement_learning.py:9-17 | zero or fewer episodes leave the learner as it is; training keeps the table's shape |
| LearningPathRl.FirstEpisode | src_ai/reinforcement_learning.py:20-28 | the first placeholder episode tries action 0 with a penalty, then action 1, and ends |
| LearningPathRl.LaterEpisode | src_ai/reinforcement_learning.py:20-28 | every later placeholder episode takes action 1 at once and moves Q[0][1] a tenth of the way to 1 |
| LearningPathRl.PlaceholderTraining | src_ai/reinforcement_learning.py:9-28 | n ≥ 1 episodes against the placeholder leave Q[0][0] = -0.1, Q[0][1] = 1 - 0.9^n and zeros elsewhere |
| KnowledgeManager.GetConcept | src/knowledge_manager.py:22-30 | a missing or empty name finds nothing; otherwise something is found iff the lower-cased name is a key, and it is the object stored under that key |
| KnowledgeManager.GetConceptIgnoresCase | src/knowledge_manager.py:27 | lookup gives the same answer for a name, its lower case and its title case |
| KnowledgeManager.StoredConceptIsFound | src/knowledge_manager.py:27-29 | every stored non-empty lower-case key finds its own object |
| KnowledgeManager.GetAllConcepts | src/knowledge_manager.py:32-34 | the keys in key order |
| KnowledgeManager.GetRelatedConcepts | src/knowledge_manager.py:36-41 | the stored `related_concepts` of a found non-empty object that has that key, and the empty list otherwise |
| KnowledgeManager.RelatedOfStoredConcept | src/knowledge_manager.py:36-41 | a stored concept's related list is returned for its name; an unknown name has none |
| KnowledgeBase.Find | src/knowledge_manager.py:28-29 | found iff the key is present, and then the object stored beside it |
| KnowledgeBase.Put | llm_knowledge_extractor.py:30 | an existing key keeps its place; a new key is appended |
| KnowledgeBase.PutThenFindSame | llm_knowledge_extractor.py:30 | after the assignment the key reads the new object |
| KnowledgeBase.PutThenFindOther | llm_knowledge_extractor.py:30 | after the assignment every other key reads what it read before |
| QueryProcessor.Without | src/query_processor.py:45 | w is kept iff it is a word of the list and not a dropped word |
| QueryProcessor.WithoutKeepsOrder | src/query_processor.py:45 | the kept words are a subsequence of the words; each kept word keeps its multiplicity and a dropped word has none |
| QueryProcessor.ExtractKeywords | src/query_processor.py:40-46 | w is a keyword iff it is a whitespace-separated word of the query and not a common word |
| QueryProcessor.ExtractKeywordsKeepsOrder | src/query_processor.py:40-46 | the keywords are the query's words in order with their repetitions, less the common words |
| QueryProcessor.Recognise | src/query_processor.py:24-38 | if some concept occurs in the query, the first such concept in key order; otherwise the first concept that contains a keyword, and nothing iff none does |
| QueryProcessor.ProcessQuery | src/query_processor.py:8-38 | an empty or missing query finds nothing; any other is lower-cased, stripped and searched; the answer is always a stored concept |
| QueryProcessor.Clean | src/query_processor.py:22 | the cleaned question is no longer than the input, has no upper-case letter and no surrounding whitespace |
| QueryProcessor.CleanIgnoresLower | src/query_processor.py:22 | lower-casing a question first changes nothing |
| QueryProcessor.CleanIgnoresTitle | src/query_processor.py:22 | title-casing a question first changes nothing |
| QueryProcessor.CleanIgnoresStrip | src/query_processor.py:22 | stripping a question first changes nothing |
| QueryProcessor.SameCleanSameConcept | src/query_processor.py:18-38 | two non-empty questions that clean to the same text find the same concept |
| QueryProcessor.ProcessQueryNormalises | src/query_processor.py:18-22 | neither the letter case of the question nor whitespace around it changes the concept found |
| ResponseFormatter.Render | src/response_formatter.py:31-33 | a string prints as itself; exactly the levels object and the example list are not rendered |
| ResponseFormatter.ExplanationKey | src/response_formatter.py:22-26 | the level's key if present, else the intermediate key if present, else "definition" |
| ResponseFormatter.ExplanationOf | src/response_formatter.py:28 | the fallback sentence when the chosen key is absent; otherwise the stored text, failing iff it is not a string |
| ResponseFormatter.NameOf | src/response_formatter.py:31 | the stored name printed, or the title-cased name asked for |
| ResponseFormatter.DefaultNameDiffersOnlyInCase | src/response_formatter.py:31 | without a stored name, the header name is the asked-for name with only its letter case changed |
| ResponseFormatter.DefinitionOf | src/response_formatter.py:32 | the stored definition printed, or the empty string |
| ResponseFormatter.RelatedSuffix | src/response_formatter.py:36-38 | nothing for a missing or empty related value; a non-empty list gives the heading and the names joined by ", " |
| ResponseFormatter.FormatExplanation | src/response_formatter.py:5-40 | a missing or empty concept gives exactly the not-found sentence; otherwise the bold name, the definition, a blank line, the explanation and the related paragraph, failing iff one of them fails |
| ResponseFormatter.AnswersAreDistinguishable | src/response_formatter.py:16-33 | a found concept's answer starts with "**" and a missing one's with "I don't" |
| ResponseFormatter.MissingLevelFallsBackToIntermediate | src/response_formatter.py:22-33 | a concept explained at a level it lacks gives its intermediate explanation, and with nothing related that is the whole answer |
| LlmKnowledgeExtractor.NormalizeName | llm_knowledge_extractor.py:26 | same length, already lower case, and only upper-case letters change |
| LlmKnowledgeExtractor.FreshEntry | llm_knowledge_extractor.py:28-36 | exactly the five fields, each empty |
| LlmKnowledgeExtractor.ParseLines | llm_knowledge_extractor.py:52 | every item is non-empty, stripped, lower case and a single line |
| LlmKnowledgeExtractor.ParseLinesRoundTrip | llm_knowledge_extractor.py:50-53 | clean items written one per line parse back to the same items |
| LlmKnowledgeExtractor.ExampleName | llm_knowledge_extractor.py:77 | a header without a colon names itself; with a colon the name is strictly shorter |
| LlmKnowledgeExtractor.ClassifyOpens | llm_knowledge_extractor.py:69-77 | a line opens an example iff it is a header once stripped, and the example is named after it |
| LlmKnowledgeExtractor.ReadAllNames | llm_knowledge_extractor.py:69-83 | reading lines never renames an example; it adds one name per opening line |
| LlmKnowledgeExtractor.ParseExamples | llm_knowledge_extractor.py:65-86 | one example per header line of the answer, in order, the k-th named after the k-th header |
| LlmKnowledgeExtractor.ExamplesFollowHeaders | llm_knowledge_extractor.py:66-86 | one example per header line, in order, the k-th named after the k-th header |
| LlmKnowledgeExtractor.TextBeforeFirstHeaderIgnored | llm_knowledge_extractor.py:78 | text lines before the first header do not change the examples |
| LlmKnowledgeExtractor.TextJoins | llm_knowledge_extractor.py:78-82 | text lines after a header are joined with single spaces into its description |
| LlmKnowledgeExtractor.OneExample | llm_knowledge_extractor.py:74-86 | one header followed by text lines makes one example whose description is those lines joined by spaces |
| LlmKnowledgeExtractor.UpdateEntry | llm_knowledge_extractor.py:41-88 | KeyError without a levels field, TypeError when it is not an object; otherwise the five fields hold the answers, the levels object gains the three levels, and every other field is kept |
| LlmKnowledgeExtractor.WithLevelsStoresAnswers | llm_knowledge_extractor.py:44-47 | the three explanations are stored under their level names, and other levels are kept |
| LlmKnowledgeExtractor.StartEntry | llm_knowledge_extractor.py:28-36 | the stored object of a known concept, a fresh one otherwise |
| LlmKnowledgeExtractor.Enrich | llm_knowledge_extractor.py:24-93 | a concept not yet known is always enriched, with the five fields, the three answers as its levels and the answer's definition; on success the normalised key reads the new object and every other key is unchanged |
| LlmKnowledgeExtractor.EnrichWith | llm_knowledge_extractor.py:24-93 | fails iff writing into the start object fails, which needs a known concept; otherwise the normalised key reads the updated object, keeps its place or is appended, and every other key is unchanged |
| LlmKnowledgeExtractor.EnrichNewConcept | llm_knowledge_extractor.py:28-47 | a new concept always succeeds, with exactly the five fields and exactly the three levels |
| LlmKnowledgeExtractor.UpdateEntryIdempotent | llm_knowledge_extractor.py:41-88 | writing the same enrichment twice writes nothing new |
| LlmKnowledgeExtractor.EnrichTwice | llm_knowledge_extractor.py:24-93 | enriching twice with the same answers gives the same object and the same key order |
| TextGenerator.GetClassName | src/nlg/generation/text_generator.py:32-39 | either "unknown object" or the class of some object; an identifier without "_" is unknown |
| TextGenerator.ClassOfObjectId | src/nlg/generation/text_generator.py:34-39 | `prefix_i` names object i for 0 ≤ i, object -i from the end for i < 0, and is unknown outside the list |
| TextGenerator.DescribeObjects | src/nlg/generation/text_generator.py:41-47 | only person sentences, at most one per object |
| TextGenerator.DescribeObjectsCountsPersons | src/nlg/generation/text_generator.py:41-47 | exactly as many person sentences as person objects |
| TextGenerator.Verb | src/nlg/generation/text_generator.py:26-29 | only the holding and using relationships have a template |
| TextGenerator.PairSentences | src/nlg/generation/text_generator.py:64-69 | one sentence per pair, naming the classes of both objects |
| TextGenerator.RelationSentencesOfOneType | src/nlg/generation/text_generator.py:62-69 | a type without a template gives no sentence; one with a template gives its pair sentences |
| TextGenerator.UmbrellaIsNoRelation | src/nlg/generation/text_generator.py:58-69 | no relationship sentence is the umbrella sentence |
| TextGenerator.DescribeRelationships | src/nlg/generation/text_generator.py:49-71 | the umbrella sentence first iff a person and an umbrella are both present, then the relationship sentences |
| TextGenerator.UmbrellaSentenceOnce | src/nlg/generation/text_generator.py:55-69 | the umbrella sentence appears iff both are present, and then once, first |
| TextGenerator.Generate | src/nlg/generation/text_generator.py:73-105 | the description is empty iff there are no sentences, and otherwise starts with the first sentence |
| TextGenerator.GenerateEmptyExactly | src/nlg/generation/text_generator.py:73-92 | the description is empty iff there is no person and no holding or using pair |
| TextGenerator.PersonFirst | src/nlg/generation/text_generator.py:83-92 | a scene whose first object is a person opens with the person sentence |
| PyText.LowerTitle | src/response_formatter.py:31 | `title()` only changes letter case |
| PyText.WordsCoverText | src/query_processor.py:44 | `split()` keeps exactly the non-whitespace text, in order |
| PyText.SplitJoin | llm_knowledge_extractor.py:52 | splitting a join of separator-free pieces gives the pieces back |
| PyText.ParseNatToString | src/nlg/generation/text_generator.py:36 | `int(str(n)) == n` |
| QTable.ArgMax | rl_agent.py:69 | an index of the row's maximum, the first one |
| QTable.PyIndex | rl_agent.py:69 | indices in [-n, n) are accepted and a negative one counts from the end |

## Left out

- Floating point: numbers are Dafny reals. IEEE rounding, overflow and NaN are not modelled.
- Randomness: `random.random`, `random.randint`, `random.sample` and `np.random.choice` are oracle arguments. `Sampling.ChooseReachesEverySelection` and `ReplayBuffer.SampleCanReturnAny` show that every outcome the library can produce is reachable. The distribution is not modelled.
- `str(id)` keys: the learner state and the reward function look prerequisites up under `str(id)`. The model keys them by the integer id, which agrees whenever the file's keys are the decimal numerals of the ids.
- `RewardFunction.CalculateReward`: treats listed prerequisites and mastered concepts as the same kind of id. In the source, line 46 compares listed prerequisites with the mastered ids, and line 55 compares them with `str(action)`. With string entries, line 46 never finds a match. With integer entries, line 55 never does. The model assumes that both comparisons match as intended.
- `KnowledgeGraph.get_concept_centrality` (knowledge_graph.py:23-26): networkx's degree centrality is library code and is not part of this model.
- File and network I/O: `json.load`, the `open`/`os.path` checks, `_load_knowledge_base`, `_save_knowledge_base`, `_query_llm` (the HTTP request), `print` and the progress report of train.py:45-47 are not modelled. Loaded data and the model's answers are parameters.
- The environment of train.py and path_generation.py is a parameter (`Environment.TrainingEnv`, `Environment.PathEnv`). No class of the repository has the `reset`/`step`/`get_available_actions` signatures these callers use. The available actions may depend on both the environment's own state and the state passed in, but asking for them does not change the environment.
- `CSLearningEnvironment.__init__`, `reset` and `set_learner_profile` (cs_learning_env.py:10-25, 50-52) are not modelled. `__init__` reads `self.learner_profile` before `reset` sets it, and it calls `RewardFunction` with two of its three arguments, so it cannot complete. The model takes an environment value that holds a concept list, a reward function and a current state.
- `CsLearningEnv.Step`, `CsLearningEnv.GetAvailableActions`: as written, both methods raise AttributeError. They read `self.knowledge_graph.concepts` (cs_learning_env.py:44, and :48 through `_is_curriculum_complete`), but KnowledgeGraph (knowledge_graph.py:5-14) has only `cs_knowledge` and `graph`. `step` raises at line 38, after it has computed the reward. The model's `Env.concepts` list stands for the missing attribute: the curriculum's concept ids, in the order `get_available_actions` would iterate them. Both members model the methods as they would behave if that attribute existed.
- The `Valid` preconditions (Q-table shape, buffer length within capacity, state vector agreement) state invariants that the constructors establish. They are not checks the source makes.
- `PyText.Lower`, `PyText.Title`: case mapping covers ASCII letters only. Python also maps non-ASCII letters, so these results are weaker for non-ASCII text: `PyText.LowerTitle`, `KnowledgeManager.GetConceptIgnoresCase`, `QueryProcessor.CleanIgnoresTitle`, `QueryProcessor.ProcessQueryNormalises` and `ResponseFormatter.DefaultNameDiffersOnlyInCase` are proved for that ASCII mapping only.
- `PyText.ParseInt`: `int()` is modelled on ASCII decimal literals. Underscores between digits and non-ASCII digits, which Python also accepts, are treated as a `ValueError`.
- `ResponseFormatter.Render`: a name or definition that is a levels object or an example list prints in Python as the dict or list repr. The model gives `Unrendered` instead of spelling that repr out. `ResponseFormatter.RelatedSuffix` likewise gives `Unrendered` for a related value that is a levels object. Python's `", ".join(dict)` joins the dict's keys in insertion order, which a Dafny map does not keep. A list of names prints through `ListRepr` without Python's escaping of quotes inside items.
- `LearningPathRl.Episode`: the source's `while not done` has no bound, and the model gives each episode a step budget (`fuel`) with the error `OutOfFuel`. `OutOfFuel` stands for the non-termination of the source, so a run that ends in the model ends the same way in the source. `LearningPathRl.NeverDoneExhaustsFuel` and `LearningPathRl.StuckEpisodeNeverEnds` show the episodes that never end (see Findings).
- `LlmKnowledgeExtractor.EnrichWith`: the levels assignment can raise `KeyError` or `TypeError`, and only for a concept already stored, since a fresh entry always has an empty levels object. By then Python has already overwritten the stored object's definition (llm_knowledge_extractor.py:41), and that change stays in the extractor's knowledge base. The model returns only the error and does not keep this partial update.
- Scene data without an `objects`, `functional_relationships` or `class` key raises `KeyError` in the source. The model's scene datatype always has them. The spatial templates are never used by `_describe_relationships`, so they are not modelled.
- The tkinter, gradio and CLI front ends, the chatbot, the personalisation and visualisation modules, and the object detector are not part of this model.

## Findings

| source | as written | input that shows it | evidently intended | confidence | as-written member | corrected member |
|---|---|---|---|---|---|---|
| experience_replay.py:18 | `np.random.choice(self.buffer, batch_size, replace=False)` on a list of 5-tuples: numpy sees a two-dimensional array and raises `ValueError("a must be 1-dimensional")` | one `push`, then `sample(1)` | `batch_size` distinct stored experiences, as `random.sample` gives in replay_buffer.py | not executed | ExperienceReplay.SampleRejectsStoredExperiences | ExperienceReplay.SampleIntended |
| src_ai/reinforcement_learning.py:13 | `while not done:` with no step bound: an environment that never reports done makes `train` loop forever | an environment whose `step` always returns `(0, -1, False)` | episodes capped in length, as train.py caps them at 100 steps | not executed | LearningPathRl.StuckEpisodeNeverEnds | LearningPathRl.EpisodeCapped |

=== FILE: cs_learning_env.dfy ===
/** The list-based curriculum environment (cs_learning_env.py). The curriculum is the
    sequence of concept ids of the graph, the state is the list of mastered ids, and
    the reward comes from the reward function with the placeholder terminal test. */
module CsLearningEnv {
  import opened Wrappers
  import RF = RewardFunction

  /** The placeholder `State`: a list of mastered ids. */
  datatype EnvState = EnvState(mastered: seq<int>)

  datatype Env = Env(concepts: seq<int>, rewardFunction: RF.RewardFunction, current: EnvState)

  /** `step`'s 4-tuple without the empty info dict. */
  datatype StepResult = StepResult(next: EnvState, reward: real, done: bool)

  /** `State()`: nothing mastered. */
  function DefaultState(): (s: EnvState)
    ensures |s.mastered| == 0
  {
    EnvState([])
  }

  /** The placeholder `State.is_terminal`. */
  function StateIsTerminal(s: EnvState): (b: bool)
    ensures !b
  {
    false
  }

  /** `_is_curriculum_complete`: as many mastered entries as concepts. For a
      duplicate-free list of curriculum concepts over a duplicate-free curriculum, that
      count test means every concept is mastered. */
  predicate IsCurriculumComplete(env: Env, s: EnvState): (b: bool)
    ensures NoDuplicates(s.mastered) && NoDuplicates(env.concepts) && (forall x :: x in s.mastered ==> x in env.concepts) ==>
      (b <==> forall c :: c in env.concepts ==> c in s.mastered)
  {
    CountIffAllListed(s.mastered, env.concepts);
    |s.mastered| == |env.concepts|
  }

  /** A duplicate-free list has as many distinct elements as entries. */
  lemma {:induction false} DistinctCount(s: seq<int>)
    requires NoDuplicates(s)
    ensures |set x | x in s| == |s|
    decreases |s|
  {
    if s != [] {
      var init := s[..|s| - 1];
      DistinctCount(init);
      assert (set x | x in s) == (set x | x in init) + {s[|s| - 1]};
      assert s[|s| - 1] !in init;
    }
  }

  /** For duplicate-free lists `a` and `b` with `a`'s elements in `b`, equal lengths mean
      every element of `b` is in `a`. */
  lemma CountIffAllListed(a: seq<int>, b: seq<int>)
    ensures NoDuplicates(a) && NoDuplicates(b) && (forall x :: x in a ==> x in b) ==>
      (|a| == |b| <==> forall c :: c in b ==> c in a)
  {
    if NoDuplicates(a) && NoDuplicates(b) && (forall x :: x in a ==> x in b) {
      var sa, sb := set x | x in a, set x | x in b;
      DistinctCount(a);
      DistinctCount(b);
      assert sa <= sb;
      if |a| == |b| {
        assert |sb - sa| == |sb| - |sa| == 0;
        forall c | c in b ensures c in a {
          assert c in sb;
        }
      }
      if forall c :: c in b ==> c in a {
        assert sb <= sa;
        assert sa == sb;
      }
    }
  }

  /** The mastered list after choosing `action`: appended at the end only if absent. */
  function AddMastered(mastered: seq<int>, action: int): (r: seq<int>)
    ensures action in r
    ensures forall x :: x in r <==> x in mastered || x == action
    ensures |r| == if action in mastered then |mastered| else |mastered| + 1
    ensures r[..|mastered|] == mastered
  {
    if action in mastered then mastered else mastered + [action]
  }

  /** `step`. The reward is computed on the current state with the current state also
      standing for the next one, so its terminal test is the placeholder's `False`.
      The environment's own current state is not replaced: the result is returned only. */
  function Step(env: Env, action: int): (r: Result<StepResult, RF.RewardError>)
    ensures r.Err? <==> RF.BaseReward(env.rewardFunction, action).Err?
    ensures r.Ok? ==> r.value.next.mastered == AddMastered(env.current.mastered, action)
    ensures r.Ok? ==> (r.value.done <==> |AddMastered(env.current.mastered, action)| == |env.concepts|)
    ensures r.Ok? ==>
      r.value.reward == RF.CalculateReward(env.rewardFunction, env.current.mastered, action, false).value
  {
    var reward :- RF.CalculateReward(env.rewardFunction, env.current.mastered, action,
                                     StateIsTerminal(env.current));
    var next := EnvState(AddMastered(env.current.mastered, action));
    Ok(StepResult(next, reward, IsCurriculumComplete(env, next)))
  }

  predicate NoDuplicates(s: seq<int>) {
    forall i, j :: 0 <= i < j < |s| ==> s[i] != s[j]
  }

  /** A duplicate-free mastered list stays duplicate-free and grows by at most one. */
  lemma StepKeepsNoDuplicates(env: Env, action: int)
    requires NoDuplicates(env.current.mastered)
    requires Step(env, action).Ok?
    ensures NoDuplicates(Step(env, action).value.next.mastered)
    ensures |env.current.mastered| <= |Step(env, action).value.next.mastered| <= |env.current.mastered| + 1
  {
  }

  /** The step reward never carries the completion bonus, even when the step finishes
      the curriculum. */
  lemma StepNeverPaysCompletion(env: Env, action: int)
    requires Step(env, action).Ok?
    requires RF.PrerequisitesMet(env.rewardFunction, env.current.mastered, action)
    ensures Step(env, action).value.reward + RF.CompletionReward
         == RF.CalculateReward(env.rewardFunction, env.current.mastered, action, true).value
  {
  }

  /** Since `step` does not replace the current state, two steps in a row from the same
      environment do not accumulate: the second forgets the first action. */
  lemma StepsDoNotAccumulate()
    ensures var env := Env([0, 1], RF.RewardFunction(map[], map[], RF.Profile(None, [])), DefaultState());
      && Step(env, 0).Ok? && Step(env, 1).Ok?
      && Step(env, 0).value.next.mastered == [0]
      && Step(env, 1).value.next.mastered == [1]
      && !Step(env, 1).value.done
  {
  }

  /** `b` contains the elements of `a` in the same order, possibly with others between. */
  predicate IsSubsequence(a: seq<int>, b: seq<int>)
    decreases |b|
  {
    if a == [] then true
    else if b == [] then false
    else if a[0] == b[0] then IsSubsequence(a[1..], b[1..])
    else IsSubsequence(a, b[1..])
  }

  /** The concepts of `concepts` that are not in `mastered`, in the order given. */
  function Unmastered(concepts: seq<int>, mastered: seq<int>): (r: seq<int>)
    ensures forall x :: x in r <==> x in concepts && x !in mastered
    ensures IsSubsequence(r, concepts)
    decreases |concepts|
  {
    if concepts == [] then []
    else
      var rest := Unmastered(concepts[1..], mastered);
      if concepts[0] in mastered then rest else [concepts[0]] + rest
  }

  /** `get_available_actions`: the graph's concepts not yet in the current list, in
      graph order. */
  function GetAvailableActions(env: Env): (r: seq<int>)
    ensures forall x :: x in r <==> x in env.concepts && x !in env.current.mastered
    ensures IsSubsequence(r, env.concepts)
  {
    Unmastered(env.concepts, env.current.mastered)
  }

  /** A subsequence of a duplicate-free sequence that contains all of its elements is
      the sequence itself. */
  lemma {:induction false} SubsequenceWithAllElements(a: seq<int>, b: seq<int>)
    requires IsSubsequence(a, b) && NoDuplicates(b)
    requires forall x :: x in b ==> x in a
    ensures a == b
    decreases |b|
  {
    if b != [] {
      assert b[0] in b;
      assert b[0] in a;
      if a[0] != b[0] {
        assert IsSubsequence(a, b[1..]);
        SubsequenceElements(a, b[1..]);
        assert false;
      } else {
        forall x | x in b[1..] ensures x in a[1..] {
          var j :| 0 <= j < |b[1..]| && b[1..][j] == x;
          assert b[j + 1] != b[0];
          assert x in a;
          assert x != a[0];
        }
        SubsequenceWithAllElements(a[1..], b[1..]);
      }
    }
  }

  /** Every element of a subsequence is an element of the sequence. */
  lemma {:induction false} SubsequenceElements(a: seq<int>, b: seq<int>)
    requires IsSubsequence(a, b)
    ensures forall x :: x in a ==> x in b
    decreases |b|
  {
    if a != [] && b != [] {
      if a[0] == b[0] {
        SubsequenceElements(a[1..], b[1..]);
        forall x | x in a ensures x in b {
          if x != a[0] { assert x in a[1..]; }
        }
      } else {
        SubsequenceElements(a, b[1..]);
      }
    }
  }

  /** With a duplicate-free curriculum and nothing mastered, every concept is available
      and in the curriculum's order. */
  lemma FreshStartOffersEverything(env: Env)
    requires env.current == DefaultState() && NoDuplicates(env.concepts)
    ensures GetAvailableActions(env) == env.concepts
  {
    SubsequenceWithAllElements(GetAvailableActions(env), env.concepts);
  }
}

=== FILE: environment.dfy ===
/** The environment interface that the training loop and the path rollout call. No class
    of the repository provides all of it, so the environment is a parameter: its own
    state is an uninterpreted value `W` threaded through the calls, and its operations are
    functions of that value. */
module Environment {

  /** The four-tuple of `step(action)` without the info dict, plus the environment's own
      state after the call. */
  datatype Outcome<W> = Outcome(world: W, next: int, reward: real, done: bool)

  /** What `train` calls: `reset()` and `step(action)`. */
  datatype TrainingEnv<!W> = TrainingEnv(reset: W -> (W, int), step: (W, nat) -> Outcome<W>)

  /** What `generate_learning_path` calls: `reset(start_concept=...)`,
      `get_available_actions(state)` and `step(action)`. The available actions may depend
      on the environment's own state as well as on the state passed in; asking for them
      changes nothing. */
  datatype PathEnv<!W> = PathEnv(
    reset: (W, int) -> (W, int),
    available: (W, int) -> seq<int>,
    step: (W, nat) -> Outcome<W>)
}

=== FILE: experience_replay.dfy ===
/** The ring-buffer replay memory of experience_replay.py: a list that grows up to its
    capacity and is then overwritten in place at a rotating write position. */
module ExperienceReplay {
  import opened Wrappers
  import Sampling
  import RB = ReplayBuffer

  /** `buffer`, `capacity` and `position` are the three attributes of the class. */
  datatype Ring<E> = Ring(buffer: seq<E>, capacity: int, position: int)

  /** Writing slot 0 of the empty list of a buffer with no room raises `IndexError`;
      `np.random.choice` rejects a negative size or one above the length without
      replacement with `ValueError`. */
  datatype ReplayError = IndexError | ValueError

  const DefaultCapacity: int := 10000

  /** `ReplayBuffer(capacity)`: empty, writing at slot 0. No capacity is rejected here. */
  function Init<E>(capacity: int): (r: Ring<E>)
    ensures Valid(r) && Len(r) == 0
    ensures r.capacity == capacity
  {
    Ring([], capacity, 0)
  }

  /** What every buffer built by `Init` and `Push` satisfies: without room it stays empty;
      otherwise it never exceeds the capacity, the position is a slot, and until the
      buffer is full the position is the next free slot. */
  predicate Valid<E>(r: Ring<E>) {
    if r.capacity <= 0 then r.buffer == [] && r.position == 0
    else
      && |r.buffer| <= r.capacity
      && 0 <= r.position < r.capacity
      && (|r.buffer| < r.capacity ==> r.position == |r.buffer|)
  }

  /** `__len__`. */
  function Len<E>(r: Ring<E>): nat {
    |r.buffer|
  }

  /** `push`: while there is room, grow the list by a placeholder slot (here the new
      experience itself, since it is overwritten at once); then write the experience at
      the position and advance the position modulo the capacity. */
  function Push<E>(r: Ring<E>, e: E): (r': Result<Ring<E>, ReplayError>)
    requires Valid(r)
    ensures r'.Err? <==> r.capacity <= 0
    ensures r'.Ok? ==> Valid(r'.value) && r'.value.capacity == r.capacity
    ensures r'.Ok? ==> Len(r'.value) == if Len(r) < r.capacity then Len(r) + 1 else Len(r)
    ensures r'.Ok? ==> r'.value.buffer[r.position] == e
    ensures r'.Ok? ==> forall i :: 0 <= i < |r.buffer| && i != r.position ==> r'.value.buffer[i] == r.buffer[i]
    ensures r'.Ok? ==> r'.value.position == if r.position + 1 == r.capacity then 0 else r.position + 1
  {
    var grown := if |r.buffer| < r.capacity then r.buffer + [e] else r.buffer;
    if r.position < |grown| then
      Ok(Ring(grown[r.position := e], r.capacity, NextSlot(r.position, r.capacity)))
    else Err(IndexError)
  }

  /** `(position + 1) % capacity`: the next slot, wrapping to 0 after the last. */
  function NextSlot(p: int, n: int): (q: int)
    requires 0 <= p < n
    ensures q == if p + 1 == n then 0 else p + 1
  {
    (p + 1) % n
  }

  /** The stored experiences from oldest to newest: from the write position to the end,
      then from the start up to the position. */
  function Chronological<E>(r: Ring<E>): seq<E>
    requires Valid(r)
  {
    r.buffer[r.position..] + r.buffer[..r.position]
  }

  /** One push on the ring does what one append does on the bounded deque of
      replay_buffer.py: it keeps the newest experiences that fit, oldest first. */
  lemma PushMatchesDeque<E>(r: Ring<E>, e: E)
    requires Valid(r) && r.capacity > 0
    ensures Push(r, e).Ok?
    ensures Chronological(Push(r, e).value) == RB.Last(Chronological(r) + [e], r.capacity)
  {
    if |r.buffer| < r.capacity {
      PushWhileGrowing(r, e);
    } else {
      PushWhenFull(r, e);
    }
  }

  lemma PushWhileGrowing<E>(r: Ring<E>, e: E)
    requires Valid(r) && 0 <= |r.buffer| < r.capacity
    ensures Push(r, e).Ok?
    ensures Chronological(r) == r.buffer
    ensures Chronological(Push(r, e).value) == r.buffer + [e]
  {
    var r' := Push(r, e).value;
    var b := r.buffer;
    var p := r.position;
    assert b[p..] == [];
    assert r'.buffer == b + [e];
    if p + 1 < r.capacity {
      assert r'.buffer[p + 1..] == [];
    } else {
      assert r'.position == 0;
    }
  }

  lemma PushWhenFull<E>(r: Ring<E>, e: E)
    requires Valid(r) && 0 < |r.buffer| == r.capacity
    ensures Push(r, e).Ok?
    ensures Chronological(Push(r, e).value) == RB.Last(Chronological(r) + [e], r.capacity)
  {
    var r' := Push(r, e).value;
    var b := r.buffer;
    var p := r.position;
    assert r'.buffer == b[p := e];
    OverwriteSplit(b, p, e);
    calc {
      RB.Last(Chronological(r) + [e], r.capacity);
      (b[p..] + b[..p] + [e])[1..];
      { RotateStep(b, p, e); }
      b[p + 1..] + b[..p] + [e];
    }
    if p + 1 < r.capacity {
      assert r'.position == p + 1;
      assert Chronological(r') == b[p := e][p + 1..] + b[p := e][..p + 1];
    } else {
      assert r'.position == 0;
      assert Chronological(r') == b[p := e];
    }
  }

  /** Dropping the oldest of the rotated contents and appending `e`. */
  lemma RotateStep<E>(b: seq<E>, p: nat, e: E)
    requires p < |b|
    ensures (b[p..] + b[..p] + [e])[1..] == b[p + 1..] + b[..p] + [e]
  {
  }

  /** Overwriting slot `p` splits into the untouched tail and the head ending in `e`. */
  lemma OverwriteSplit<E>(b: seq<E>, p: nat, e: E)
    requires p < |b|
    ensures b[p := e][p + 1..] == b[p + 1..]
    ensures b[p := e][..p + 1] == b[..p] + [e]
    ensures p + 1 == |b| ==> b[p := e] == b[..p] + [e]
  {
  }

  /** Pushing every element of `es` in order; stops at the first error. */
  function PushAll<E>(r: Ring<E>, es: seq<E>): (r': Result<Ring<E>, ReplayError>)
    requires Valid(r)
    ensures r'.Ok? ==> Valid(r'.value) && r'.value.capacity == r.capacity
    decreases |es|
  {
    if es == [] then Ok(r)
    else
      var next :- Push(r, es[0]);
      PushAll(next, es[1..])
  }

  /** However many experiences are pushed into a buffer with room, the stored experiences
      read in order are exactly what the bounded deque of replay_buffer.py holds after the
      same appends. */
  lemma {:induction false} PushAllRefinesDeque<E>(r: Ring<E>, es: seq<E>)
    requires Valid(r) && r.capacity > 0
    ensures PushAll(r, es).Ok?
    ensures Chronological(PushAll(r, es).value) == RB.Last(Chronological(r) + es, r.capacity)
    decreases |es|
  {
    if es == [] {
      assert Chronological(r) + es == Chronological(r);
    } else {
      PushMatchesDeque(r, es[0]);
      var next := Push(r, es[0]).value;
      PushAllCons(r, es);
      PushAllRefinesDeque(next, es[1..]);
      LastOfHeadThenRest(Chronological(r), es, r.capacity);
    }
  }

  /** A run of pushes whose first push succeeds continues from that push's buffer. */
  lemma PushAllCons<E>(r: Ring<E>, es: seq<E>)
    requires Valid(r) && es != [] && Push(r, es[0]).Ok?
    ensures PushAll(r, es) == PushAll(Push(r, es[0]).value, es[1..])
  {
  }

  /** Keeping the newest `n` after the first append and then after the rest keeps the
      newest `n` of all of them. */
  lemma LastOfHeadThenRest<E>(c: seq<E>, es: seq<E>, n: nat)
    requires es != []
    ensures RB.Last(RB.Last(c + [es[0]], n) + es[1..], n) == RB.Last(c + es, n)
  {
    RB.LastThenAppend(c + [es[0]], es[1..], n);
    AppendHeadThenRest(c, es);
  }

  lemma AppendHeadThenRest<E>(c: seq<E>, es: seq<E>)
    requires es != []
    ensures c + [es[0]] + es[1..] == c + es
  {
    assert [es[0]] + es[1..] == es;
  }

  /** After `n` more pushes into a buffer with room, the position has advanced by `n`
      modulo the capacity and the length has grown by `n`, capped at the capacity. */
  lemma {:induction false} PushAllCounts<E>(r: Ring<E>, es: seq<E>)
    requires Valid(r) && r.capacity > 0
    ensures PushAll(r, es).Ok?
    ensures Len(PushAll(r, es).value) == if Len(r) + |es| < r.capacity then Len(r) + |es| else r.capacity
    ensures PushAll(r, es).value.position == (r.position + |es|) % r.capacity
    decreases |es|
  {
    if es == [] {
      SmallPosition(r.position, r.capacity);
    } else {
      var next := Push(r, es[0]).value;
      PushAllCounts(next, es[1..]);
      AdvancePosition(r.position, |es|, r.capacity);
    }
  }

  lemma SmallPosition(p: int, n: int)
    requires 0 <= p < n
    ensures p % n == p
  {
  }

  /** Advancing by one with wrap-around and then by `k - 1` is advancing by `k`. */
  lemma AdvancePosition(p: int, k: int, n: int)
    requires 0 <= p < n && k > 0
    ensures ((if p + 1 == n then 0 else p + 1) + (k - 1)) % n == (p + k) % n
  {
    if p + 1 == n {
      var q := (k - 1) / n;
      var m := (k - 1) % n;
      assert p + k == (q + 1) * n + m;
      ModulusOfMultiplePlus(p + k, q + 1, m, n);
    }
  }

  /** The remainder is determined by any decomposition into a multiple plus a slot. */
  lemma ModulusOfMultiplePlus(x: int, q: int, m: int, n: int)
    requires n > 0 && 0 <= m < n && x == q * n + m
    ensures x % n == m
  {
    var d := q - x / n;
    assert x == (x / n) * n + x % n;
    assert d * n == q * n - (x / n) * n;
    assert d * n == x % n - m;
  }

  /** From an empty buffer the ring and the deque agree after any sequence of pushes: the
      position is the number of pushes modulo the capacity, the length is that number
      capped at the capacity, and the stored experiences read in order are the deque's. */
  lemma FreshRingMatchesDeque<E>(capacity: nat, es: seq<E>)
    requires capacity > 0
    ensures PushAll(Init<E>(capacity), es).Ok?
    ensures PushAll(Init<E>(capacity), es).value.position == |es| % capacity
    ensures Len(PushAll(Init<E>(capacity), es).value) == if |es| < capacity then |es| else capacity
    ensures Chronological(PushAll(Init<E>(capacity), es).value)
         == RB.PushAll(RB.Buffer([], capacity), es).items
  {
    var r := Init<E>(capacity);
    assert r.position == 0 && r.buffer == [];
    assert Chronological(r) + es == es;
    PushAllRefinesDeque(r, es);
    PushAllCounts(r, es);
    assert r.position + |es| == |es| && r.capacity == capacity;
    var b := RB.Buffer([], capacity);
    RB.PushAllKeepsNewest(b, es);
    assert b.items + es == es;
  }

  /** `sample` as written: `np.random.choice(buffer, batch_size, replace=False)`. numpy
      turns the list of stored 5-tuples into a two-dimensional array and rejects it with
      `ValueError`; only the empty list, which is one-dimensional, passes, and then only a
      sample of size 0 can be taken from it. */
  function Sample<E>(r: Ring<E>, batchSize: int): (s: Result<seq<E>, ReplayError>)
    ensures s.Ok? <==> Len(r) == 0 && batchSize == 0
    ensures s.Ok? ==> s.value == []
  {
    if Len(r) == 0 && batchSize == 0 then Ok([]) else Err(ValueError)
  }

  /** After a single push, asking for one experience raises, although the buffer holds it,
      while the intended draw returns it. */
  lemma SampleRejectsStoredExperiences<E>(capacity: int, e: E, draws: seq<nat>)
    requires capacity >= 1
    ensures Push(Init<E>(capacity), e).Ok?
    ensures Len(Push(Init<E>(capacity), e).value) == 1
    ensures Sample(Push(Init<E>(capacity), e).value, 1) == Err(ValueError)
    ensures SampleIntended(Push(Init<E>(capacity), e).value, 1, draws) == Ok([e])
  {
    var r := Push(Init<E>(capacity), e).value;
    assert r.buffer == [e];
    var idx := Sampling.SampleIndices(1, 1, draws);
    assert idx[0] == 0;
    assert Sampling.Pick(r.buffer, idx) == [e];
  }

  /** The draw `sample` evidently intends: `batch_size` experiences from distinct positions
      of the buffer, and `ValueError` when that many are not there. */
  function SampleIntended<E>(r: Ring<E>, batchSize: int, draws: seq<nat>): (s: Result<seq<E>, ReplayError>)
    ensures s.Err? <==> batchSize < 0 || batchSize > Len(r)
    ensures s.Ok? ==> |s.value| == batchSize && RB.DrawnWithoutReplacement(s.value, r.buffer)
  {
    if batchSize < 0 || batchSize > Len(r) then Err(ValueError)
    else
      var idx := Sampling.SampleIndices(Len(r), batchSize, draws);
      var sample := Sampling.Pick(r.buffer, idx);
      assert |idx| == |sample| && Sampling.Distinct(idx)
        && (forall i :: 0 <= i < |idx| ==> idx[i] < |r.buffer| && sample[i] == r.buffer[idx[i]]);
      Ok(sample)
  }

  /** Whenever the batch fits, the intended draw is the draw `ReplayBuffer.sample` of
      replay_buffer.py makes from the same experiences with the same random draws. */
  lemma IntendedSampleIsDequeSample<E>(r: Ring<E>, batchSize: int, draws: seq<nat>)
    requires 0 <= batchSize <= Len(r)
    ensures SampleIntended(r, batchSize, draws) == Ok(RB.Sample(RB.Buffer(r.buffer, Len(r)), batchSize, draws).value)
  {
  }

  /** A buffer with no room cannot take an experience. */
  lemma NoRoomRejectsPush<E>(capacity: int, e: E)
    requires capacity <= 0
    ensures Push(Init<E>(capacity), e) == Err(IndexError)
  {
  }
}

=== FILE: knowledge_base.dfy ===
/** The parsed concept knowledge base that the knowledge manager, the response formatter
    and the knowledge extractor share: a JSON object from concept names to concept
    objects, kept in the file's key order as `json.load` keeps it. */
module KnowledgeBase {
  import opened Wrappers

  /** One generated example: a name and, once a description line has been seen, its
      description. */
  datatype Example = Example(name: string, description: Option<string>)

  /** The JSON values a concept object holds: a string, a list of strings, an object of
      strings (the complexity levels), a list of examples, or a scalar (number, boolean or
      null) given by its printed form and its truth value. */
  datatype Value =
    | Text(s: string)
    | Names(items: seq<string>)
    | Levels(levels: map<string, string>)
    | ExampleList(examples: seq<Example>)
    | Scalar(repr: string, truthy: bool)

  /** A concept object. */
  type Entry = map<string, Value>

  /** The knowledge base: concept names and their objects, in key order. */
  type KB = seq<(string, Entry)>

  /** Python truthiness of a value: empty strings and containers are false. */
  predicate Truthy(v: Value) {
    match v
    case Text(s) => s != []
    case Names(items) => items != []
    case Levels(levels) => levels != map[]
    case ExampleList(examples) => examples != []
    case Scalar(_, t) => t
  }

  /** JSON objects have no repeated key once loaded. */
  predicate DistinctKeys(kb: KB) {
    forall i, j :: 0 <= i < j < |kb| ==> kb[i].0 != kb[j].0
  }

  /** `list(kb.keys())`. */
  function Keys(kb: KB): (r: seq<string>)
    ensures |r| == |kb| && forall i :: 0 <= i < |kb| ==> r[i] == kb[i].0
  {
    seq(|kb|, i requires 0 <= i < |kb| => kb[i].0)
  }

  /** `kb[k]` when `k in kb`: the object stored under the first occurrence of `k`. */
  function Find(kb: KB, k: string): (r: Option<Entry>)
    ensures r.Some? <==> k in Keys(kb)
    ensures r.Some? ==> (k, r.value) in kb
    decreases |kb|
  {
    if kb == [] then None
    else if kb[0].0 == k then Some(kb[0].1)
    else
      KeysOfCons(kb[0], kb[1..]);
      assert [kb[0]] + kb[1..] == kb;
      Find(kb[1..], k)
  }

  /** The keys of a knowledge base with one more entry in front. */
  lemma KeysOfCons(x: (string, Entry), rest: KB)
    ensures Keys([x] + rest) == [x.0] + Keys(rest)
  {
  }

  /** With distinct keys, each key reads the object stored beside it. */
  lemma {:induction false} FindAt(kb: KB, i: nat)
    requires DistinctKeys(kb) && i < |kb|
    ensures Find(kb, kb[i].0) == Some(kb[i].1)
    decreases i
  {
    if i > 0 {
      assert kb[1..][i - 1] == kb[i];
      FindAt(kb[1..], i - 1);
    }
  }

  /** `kb[k] = e`: an existing key keeps its place and gets the new object; a new key is
      appended at the end. */
  function Put(kb: KB, k: string, e: Entry): (r: KB)
    ensures k in Keys(kb) ==> Keys(r) == Keys(kb)
    ensures k !in Keys(kb) ==> Keys(r) == Keys(kb) + [k]
    decreases |kb|
  {
    if kb == [] then [(k, e)]
    else if kb[0].0 == k then [(k, e)] + kb[1..]
    else
      var rest := Put(kb[1..], k, e);
      KeysOfCons(kb[0], kb[1..]);
      assert [kb[0]] + kb[1..] == kb;
      KeysOfCons(kb[0], rest);
      [kb[0]] + rest
  }

  /** After `kb[k] = e` the key `k` reads `e`. */
  lemma {:induction false} PutThenFindSame(kb: KB, k: string, e: Entry)
    ensures Find(Put(kb, k, e), k) == Some(e)
    decreases |kb|
  {
    if kb != [] && kb[0].0 != k {
      PutThenFindSame(kb[1..], k, e);
    }
  }

  /** After `kb[k] = e` every other key reads what it read before. */
  lemma {:induction false} PutThenFindOther(kb: KB, k: string, e: Entry, k': string)
    requires k' != k
    ensures Find(Put(kb, k, e), k') == Find(kb, k')
    decreases |kb|
  {
    if kb != [] && kb[0].0 != k {
      PutThenFindOther(kb[1..], k, e, k');
    }
  }

  /** `kb[k] = e` repeats no key. */
  lemma PutKeepsKeysDistinct(kb: KB, k: string, e: Entry)
    requires DistinctKeys(kb)
    ensures DistinctKeys(Put(kb, k, e))
  {
    var r := Put(kb, k, e);
    var keys := Keys(r);
    assert forall i :: 0 <= i < |r| ==> r[i].0 == keys[i];
    assert forall i, j :: 0 <= i < j < |kb| ==> Keys(kb)[i] != Keys(kb)[j];
  }
}

=== FILE: knowledge_graph.dfy ===
/** The concept-prerequisite graph built from the concept records (knowledge_graph.py).
    The graph is an explicit node and edge set; an edge (p, c) means "p is a
    prerequisite of c". */
module KnowledgeGraph {
  import opened Wrappers
  import SetIteration

  /** The fields of one concept record that the graph reads. An absent
      `prerequisites` field is the empty list and an absent `difficulty` is `None`. */
  datatype ConceptDetails = ConceptDetails(difficulty: Option<real>, prerequisites: seq<string>)

  /** `attributes` holds the record of every concept that has one; a node that only
      occurs as somebody's prerequisite has no record. */
  datatype Graph = Graph(nodes: set<string>, edges: set<(string, string)>, attributes: map<string, ConceptDetails>)

  ghost predicate WellFormed(g: Graph) {
    && (forall p, c :: (p, c) in g.edges ==> p in g.nodes && c in g.nodes)
    && g.attributes.Keys <= g.nodes
  }

  /** The direct predecessors of `c`. */
  function Predecessors(g: Graph, c: string): (r: set<string>)
    ensures forall p :: p in r <==> (p, c) in g.edges
  {
    set e | e in g.edges && e.1 == c :: e.0
  }

  /** The direct successors of `p`. */
  function Successors(g: Graph, p: string): (r: set<string>)
    ensures forall c :: c in r <==> (p, c) in g.edges
  {
    set e | e in g.edges && e.0 == p :: e.1
  }

  /** `_build_graph`: one node per concept record, one edge from each listed
      prerequisite to the concept that lists it; a listed name without a record of
      its own still becomes a node. */
  method BuildGraph(knowledge: map<string, ConceptDetails>) returns (g: Graph)
    ensures WellFormed(g)
    ensures g.attributes == knowledge
    ensures forall p, c :: (p, c) in g.edges <==> c in knowledge && p in knowledge[c].prerequisites
    ensures knowledge.Keys <= g.nodes
    ensures forall n :: n in g.nodes && n !in knowledge ==> exists c :: (n, c) in g.edges
  {
    var nodes: set<string> := {};
    var edges: set<(string, string)> := {};
    var done: set<string> := {};
    var todo := knowledge.Keys;
    while todo != {}
      invariant todo + done == knowledge.Keys && todo !! done
      invariant done <= nodes
      invariant forall p, c :: (p, c) in edges <==> c in done && p in knowledge[c].prerequisites
      invariant forall p, c :: (p, c) in edges ==> p in nodes && c in nodes
      invariant forall n :: n in nodes && n !in knowledge ==> exists c :: (n, c) in edges
      invariant nodes <= knowledge.Keys || exists p, c :: (p, c) in edges
      decreases todo
    {
      var c := SetIteration.Pick(todo);
      var ps := knowledge[c].prerequisites;
      nodes := nodes + {c};
      var i := 0;
      while i < |ps|
        invariant 0 <= i <= |ps|
        invariant done + {c} <= nodes
        invariant forall p, c' :: (p, c') in edges <==>
          (c' in done && p in knowledge[c'].prerequisites) || (c' == c && p in ps[..i])
        invariant forall p, c' :: (p, c') in edges ==> p in nodes && c' in nodes
        invariant forall n :: n in nodes && n !in knowledge ==> exists c' :: (n, c') in edges
      {
        nodes := nodes + {ps[i]};
        edges := edges + {(ps[i], c)};
        assert ps[..i + 1] == ps[..i] + [ps[i]];
        i := i + 1;
      }
      assert ps[..i] == ps;
      done := done + {c};
      todo := todo - {c};
    }
    g := Graph(nodes, edges, knowledge);
  }

  /** `get_knowledge_frontier`: the successors of mastered concepts all of whose
      predecessors are mastered. A mastered name that is not a node makes networkx
      raise, which is `None` here. Mastered concepts are not filtered out. */
  method KnowledgeFrontier(g: Graph, mastered: set<string>) returns (r: Option<set<string>>)
    ensures r.None? <==> !(mastered <= g.nodes)
    ensures r.Some? ==> forall c :: c in r.value <==>
      (exists m :: m in mastered && (m, c) in g.edges) && Predecessors(g, c) <= mastered
  {
    var frontier: set<string> := {};
    var todo := mastered;
    while todo != {}
      invariant todo <= mastered
      invariant mastered - todo <= g.nodes
      invariant forall c :: c in frontier <==>
        (exists m :: m in mastered - todo && (m, c) in g.edges) && Predecessors(g, c) <= mastered
      decreases todo
    {
      var m := SetIteration.Pick(todo);
      if m !in g.nodes {
        return None;
      }
      var next := Successors(g, m);
      while next != {}
        invariant next <= Successors(g, m)
        invariant forall c :: c in frontier <==>
          ((exists m' :: m' in mastered - todo && (m', c) in g.edges) || c in Successors(g, m) - next)
          && Predecessors(g, c) <= mastered
        decreases next
      {
        var n := SetIteration.Pick(next);
        if Predecessors(g, n) <= mastered {
          frontier := frontier + {n};
        }
        next := next - {n};
      }
      todo := todo - {m};
    }
    return Some(frontier);
  }

  /** The `difficulty` attribute of a node, 1 when the node has none. */
  function BaseDifficulty(g: Graph, concept: string): real {
    if concept in g.attributes && g.attributes[concept].difficulty.Some?
    then g.attributes[concept].difficulty.value
    else 1.0
  }

  /** `get_concept_difficulty`: the base difficulty scaled by the learner level
      (0.8 intermediate, 0.6 advanced, unchanged otherwise); `None` when the concept is
      not a node (networkx raises `KeyError`). */
  function ConceptDifficulty(g: Graph, concept: string, level: string): (r: Option<real>)
    ensures r.Some? <==> concept in g.nodes
    ensures r.Some? && level == "intermediate" ==> r.value == 0.8 * BaseDifficulty(g, concept)
    ensures r.Some? && level == "advanced" ==> r.value == 0.6 * BaseDifficulty(g, concept)
    ensures r.Some? && level != "intermediate" && level != "advanced" ==> r.value == BaseDifficulty(g, concept)
  {
    if concept !in g.nodes then None
    else
      var base := BaseDifficulty(g, concept);
      if level == "beginner" then Some(base)
      else if level == "intermediate" then Some(base * 0.8)
      else if level == "advanced" then Some(base * 0.6)
      else Some(base)
  }

  /** For a non-negative base difficulty, a more advanced learner never sees a concept
      as harder, and an unknown level is treated like "beginner". */
  lemma DifficultyDecreasesWithLevel(g: Graph, concept: string, level: string)
    requires concept in g.nodes && BaseDifficulty(g, concept) >= 0.0
    requires level != "intermediate" && level != "advanced"
    ensures ConceptDifficulty(g, concept, "advanced").value
         <= ConceptDifficulty(g, concept, "intermediate").value
         <= ConceptDifficulty(g, concept, "beginner").value
    ensures ConceptDifficulty(g, concept, level) == ConceptDifficulty(g, concept, "beginner")
  {
  }

  /** A concept with no `difficulty` attribute counts as difficulty 1. */
  lemma MissingDifficultyIsOne(g: Graph, concept: string)
    requires concept in g.nodes
    requires concept !in g.attributes || g.attributes[concept].difficulty.None?
    ensures ConceptDifficulty(g, concept, "beginner") == Some(1.0)
    ensures ConceptDifficulty(g, concept, "advanced") == Some(0.6)
  {
  }

  /** `get_prerequisites`: the direct predecessors; `None` for an unknown node. */
  function GetPrerequisites(g: Graph, concept: string): (r: Option<set<string>>)
    ensures r.Some? <==> concept in g.nodes
    ensures r.Some? ==> forall p :: p in r.value <==> (p, concept) in g.edges
  {
    if concept in g.nodes then Some(Predecessors(g, concept)) else None
  }

  /** `get_dependent_concepts`: the direct successors; `None` for an unknown node. */
  function GetDependentConcepts(g: Graph, concept: string): (r: Option<set<string>>)
    ensures r.Some? <==> concept in g.nodes
    ensures r.Some? ==> forall c :: c in r.value <==> (concept, c) in g.edges
  {
    if concept in g.nodes then Some(Successors(g, concept)) else None
  }

  /** Prerequisites and dependents are the two directions of one relation. */
  lemma PrerequisitesDependentsDual(g: Graph, a: string, c: string)
    requires WellFormed(g)
    requires a in g.nodes && c in g.nodes
    ensures a in GetPrerequisites(g, c).value <==> c in GetDependentConcepts(g, a).value
  {
  }

  /** In a built graph, the prerequisites of a concept with a record are exactly the
      names its record lists. */
  lemma BuiltPrerequisitesAreListed(knowledge: map<string, ConceptDetails>, g: Graph, c: string)
    requires g.attributes == knowledge
    requires forall p, c' :: (p, c') in g.edges <==> c' in knowledge && p in knowledge[c'].prerequisites
    requires c in knowledge && c in g.nodes
    ensures forall p :: p in GetPrerequisites(g, c).value <==> p in knowledge[c].prerequisites
  {
  }
}

=== FILE: knowledge_manager.dfy ===
/** Concept lookup over the loaded knowledge base (src/knowledge_manager.py). The file
    loading of `_load_knowledge_base` is not modelled: the manager is its parsed result. */
module KnowledgeManager {
  import opened Wrappers
  import opened KnowledgeBase
  import PyText

  /** `get_concept`: a missing or empty name finds nothing; otherwise the lowercased name is
      looked up. */
  function GetConcept(kb: KB, name: Option<string>): (r: Option<Entry>)
    ensures name.None? || name == Some("") ==> r.None?
    ensures name.Some? && name.value != "" ==> (r.Some? <==> PyText.Lower(name.value) in Keys(kb))
    ensures r.Some? ==> name.Some? && (PyText.Lower(name.value), r.value) in kb
  {
    match name
    case None => None
    case Some(n) => if n == "" then None else Find(kb, PyText.Lower(n))
  }

  /** Lookup ignores the case of the name asked for. */
  lemma GetConceptIgnoresCase(kb: KB, n: string)
    ensures GetConcept(kb, Some(n)) == GetConcept(kb, Some(PyText.Lower(n)))
    ensures GetConcept(kb, Some(n)) == GetConcept(kb, Some(PyText.Title(n)))
  {
    PyText.LowerIdempotent(n);
    PyText.LowerTitle(n);
  }

  /** Every stored concept whose key is a non-empty lower-case name is found under that
      name, with its own object. */
  lemma StoredConceptIsFound(kb: KB, i: nat)
    requires DistinctKeys(kb) && i < |kb|
    requires kb[i].0 != "" && PyText.Lower(kb[i].0) == kb[i].0
    ensures GetConcept(kb, Some(kb[i].0)) == Some(kb[i].1)
  {
    FindAt(kb, i);
  }

  /** `get_all_concepts`: the knowledge base's keys, in order. */
  function GetAllConcepts(kb: KB): (r: seq<string>)
    ensures |r| == |kb| && forall i :: 0 <= i < |kb| ==> r[i] == kb[i].0
  {
    Keys(kb)
  }

  /** `get_related_concepts`: the stored `related_concepts` value of a found, non-empty
      concept object that has that key, and the empty list otherwise. */
  function GetRelatedConcepts(kb: KB, name: Option<string>): (r: Value)
    ensures var c := GetConcept(kb, name);
      if c.Some? && c.value != map[] && "related_concepts" in c.value
      then r == c.value["related_concepts"]
      else r == Names([])
  {
    match GetConcept(kb, name)
    case Some(c) =>
      if c != map[] && "related_concepts" in c then c["related_concepts"] else Names([])
    case None => Names([])
  }

  /** A stored concept's related list is what `get_related_concepts` returns for its name;
      a name that is not stored has no related concepts. */
  lemma RelatedOfStoredConcept(kb: KB, i: nat, n: string)
    requires DistinctKeys(kb) && i < |kb|
    requires kb[i].0 != "" && PyText.Lower(kb[i].0) == kb[i].0
    requires "related_concepts" in kb[i].1
    requires PyText.Lower(n) !in Keys(kb)
    ensures GetRelatedConcepts(kb, Some(kb[i].0)) == kb[i].1["related_concepts"]
    ensures GetRelatedConcepts(kb, Some(n)) == Names([])
  {
    StoredConceptIsFound(kb, i);
  }
}

=== FILE: learning_path_rl.dfy ===
/** The small Q-learner of src_ai/reinforcement_learning.py: a zero Q-table, a purely
    greedy choice, and an update with fixed rate 0.1 and discount 0.9 that always
    bootstraps from the next state, together with the file's placeholder environment. */
module LearningPathRl {
  import opened Wrappers
  import opened QTable
  import opened Environment
  import RlAgent

  const Alpha: real := 0.1
  const Gamma: real := 0.9
  const DefaultStates: nat := 10
  const DefaultActions: nat := 2
  const DefaultEpisodes: nat := 1000

  /** `LearningPathRL`: the table's dimensions and the table. */
  datatype Learner = Learner(numStates: nat, numActions: nat, q: Table)

  /** `np.zeros` rejects a negative dimension, indexing outside `[-n, n)` raises
      `IndexError` and the argmax of an empty row `ValueError`. An episode that has not
      ended within the step budget is `OutOfFuel`. */
  datatype RunError = IndexError | ValueError | OutOfFuel

  predicate Valid(m: Learner) {
    HasShape(m.q, m.numStates, m.numActions)
  }

  /** `LearningPathRL(num_states, num_actions)`. */
  function New(numStates: int, numActions: int): (r: Result<Learner, RunError>)
    ensures r.Err? <==> numStates < 0 || numActions < 0
    ensures r.Ok? ==> Valid(r.value) && r.value.numStates == numStates && r.value.numActions == numActions
    ensures r.Ok? ==> forall i, j :: 0 <= i < numStates && 0 <= j < numActions ==> r.value.q[i][j] == 0.0
  {
    if numStates < 0 || numActions < 0 then Err(ValueError)
    else Ok(Learner(numStates, numActions, Zeros(numStates, numActions)))
  }

  /** `np.argmax(self.q_table[state])`: the first action of largest Q-value. */
  function Greedy(m: Learner, state: int): (r: Result<nat, RunError>)
    requires Valid(m)
    ensures r.Ok? <==> PyIndex(m.numStates, state).Some? && m.numActions > 0
    ensures r.Err? ==> r.error == if PyIndex(m.numStates, state).None? then IndexError else ValueError
    ensures r.Ok? ==> r.value < m.numActions
    ensures r.Ok? ==>
      var row := m.q[PyIndex(m.numStates, state).value];
      && (forall a :: 0 <= a < m.numActions ==> row[a] <= row[r.value])
      && (forall a :: 0 <= a < r.value ==> row[a] < row[r.value])
  {
    match PyIndex(m.numStates, state)
    case None => Err(IndexError)
    case Some(s) => if m.numActions == 0 then Err(ValueError) else Ok(ArgMax(m.q[s]))
  }

  /** The update of line 16 on entry `[s][a]`: rate 0.1, discount 0.9, and the bootstrap
      from `max(q_table[next_state])` whatever the step's `done` flag. */
  function Learn(m: Learner, s: nat, a: nat, reward: real, nextState: int): (r: Result<Learner, RunError>)
    requires Valid(m) && s < m.numStates && a < m.numActions
    ensures r.Ok? <==> PyIndex(m.numStates, nextState).Some?
    ensures r.Ok? ==> Valid(r.value) && r.value.numStates == m.numStates && r.value.numActions == m.numActions
    ensures r.Ok? ==>
      && (forall i, j :: 0 <= i < m.numStates && 0 <= j < m.numActions && (i, j) != (s, a) ==>
            r.value.q[i][j] == m.q[i][j])
      && var best := MaxOf(m.q[PyIndex(m.numStates, nextState).value]);
         r.value.q[s][a] == m.q[s][a] + Alpha * (reward + Gamma * best - m.q[s][a])
  {
    match PyIndex(m.numStates, nextState)
    case None => Err(IndexError)
    case Some(ns) =>
      var v := m.q[s][a] + Alpha * (reward + Gamma * MaxOf(m.q[ns]) - m.q[s][a]);
      SetKeepsShape(m.q, m.numStates, m.numActions, s, a, v);
      Ok(m.(q := Set(m.q, s, a, v)))
  }

  /** The learner seen as an `RLAgent` with the same table, rate 0.1, discount 0.9 and no
      exploration. */
  function AsAgent(m: Learner): (ag: RlAgent.Agent)
    requires Valid(m)
    ensures RlAgent.Valid(ag) && ag.q == m.q && ag.alpha == Alpha && ag.gamma == Gamma && ag.epsilon == 0.0
  {
    RlAgent.Agent(m.numStates, m.numActions, Alpha, Gamma, 0.0, 1.0, 0.0, m.q, Zeros(m.numStates, m.numStates))
  }

  /** The greedy choice is `RLAgent.select_action` with exploration switched off: for every
      draw of `random.random()` in `[0, 1)` both pick the same action or both fail. */
  lemma GreedyIsExploitOnly(m: Learner, state: int, coin: real, pick: nat)
    requires Valid(m) && 0.0 <= coin
    ensures Greedy(m, state).Ok? <==> RlAgent.SelectAction(AsAgent(m), state, coin, pick).Ok?
    ensures Greedy(m, state).Ok? ==> Greedy(m, state).value == RlAgent.SelectAction(AsAgent(m), state, coin, pick).value
  {
  }

  /** The update is `RLAgent.update`'s Q-learning rule for a step that is never done: the
      same entry gets the same value, even when the environment reported the end. */
  lemma LearnIsUpdateNeverDone(m: Learner, s: nat, a: nat, reward: real, nextState: int)
    requires Valid(m) && s < m.numStates && a < m.numActions
    ensures var u := RlAgent.Update(AsAgent(m), RlAgent.Transition(s, a, reward, nextState, false));
      && (Learn(m, s, a, reward, nextState).Ok? <==> u.Ok?)
      && (u.Ok? ==> Learn(m, s, a, reward, nextState).value.q == u.value.q)
  {
    var ag := AsAgent(m);
    var u := RlAgent.Update(ag, RlAgent.Transition(s, a, reward, nextState, false));
    var l := Learn(m, s, a, reward, nextState);
    if u.Ok? {
      var ns := PyIndex(m.numStates, nextState).value;
      assert RlAgent.Target(ag, reward, nextState, false) == Some(reward + Gamma * MaxOf(m.q[ns]));
      assert l.value.q[s][a] == u.value.q[s][a];
      assert forall i :: 0 <= i < m.numStates ==> l.value.q[i] == u.value.q[i];
    }
  }

  /** One pass of the `while not done` loop: choose, step, learn. */
  function TakeStep<W>(m: Learner, env: TrainingEnv<W>, w: W, state: int): (r: Result<(Learner, Outcome<W>), RunError>)
    requires Valid(m)
    ensures r.Ok? ==> Valid(r.value.0) && r.value.0.numStates == m.numStates && r.value.0.numActions == m.numActions
    ensures r.Ok? ==> Greedy(m, state).Ok? && r.value.1 == env.step(w, Greedy(m, state).value)
  {
    var a :- Greedy(m, state);
    var o := env.step(w, a);
    var m' :- Learn(m, PyIndex(m.numStates, state).value, a, o.reward, o.next);
    Ok((m', o))
  }

  /** The steps of one episode from `state` until the environment reports done; the episode
      fails with `OutOfFuel` once `fuel` steps have not reached the end. */
  function Episode<W>(m: Learner, env: TrainingEnv<W>, w: W, state: int, fuel: nat): (r: Result<(Learner, W), RunError>)
    requires Valid(m)
    ensures r.Ok? ==> Valid(r.value.0) && r.value.0.numStates == m.numStates && r.value.0.numActions == m.numActions
    decreases fuel
  {
    if fuel == 0 then Err(OutOfFuel)
    else
      var (m', o) :- TakeStep(m, env, w, state);
      if o.done then Ok((m', o.world)) else Episode(m', env, o.world, o.next, fuel - 1)
  }

  /** An environment whose `step` never reports done keeps `while not done` going: no step
      budget, however large, sees the episode end. */
  lemma {:induction false} NeverDoneExhaustsFuel<W>(m: Learner, env: TrainingEnv<W>, w: W, state: int, fuel: nat)
    requires Valid(m)
    requires forall w': W, a: nat :: !env.step(w', a).done
    ensures Episode(m, env, w, state, fuel).Err?
    decreases fuel
  {
    if fuel > 0 {
      var t := TakeStep(m, env, w, state);
      if t.Ok? {
        NeverDoneExhaustsFuel(t.value.0, env, t.value.1.world, t.value.1.next, fuel - 1);
      }
    }
  }

  /** An environment that always answers state 0, reward -1 and not done. */
  const Stuck: TrainingEnv<()> := TrainingEnv(w => (w, 0), (w, a: nat) => Outcome(w, 0, -1.0, false))

  /** Against `Stuck` the default learner's first episode never ends: every step budget
      runs out, so the source's loop runs forever. */
  lemma StuckEpisodeNeverEnds(fuel: nat)
    ensures Episode(New(DefaultStates, DefaultActions).value, Stuck, (), 0, fuel) == Err(OutOfFuel)
    ensures Train(New(DefaultStates, DefaultActions).value, Stuck, (), 1, fuel) == Err(OutOfFuel)
  {
    StuckRuns(New(DefaultStates, DefaultActions).value, fuel);
  }

  /** From state 0 every learner with room for state 0 and an action runs out of budget
      against `Stuck`. */
  lemma {:induction false} StuckRuns(m: Learner, fuel: nat)
    requires Valid(m) && m.numStates >= 1 && m.numActions >= 1
    ensures Episode(m, Stuck, (), 0, fuel) == Err(OutOfFuel)
    decreases fuel
  {
    if fuel > 0 {
      assert PyIndex(m.numStates, 0) == Some(0);
      var a := Greedy(m, 0).value;
      var o := Stuck.step((), a);
      assert o == Outcome((), 0, -1.0, false);
      var m' := Learn(m, 0, a, o.reward, o.next).value;
      assert TakeStep(m, Stuck, (), 0) == Ok((m', o));
      StuckRuns(m', fuel - 1);
    }
  }

  /** The episode with a step budget, as train.py bounds its own episodes at 100 steps:
      after `steps` steps without the end the episode stops where it stands. */
  function EpisodeCapped<W>(m: Learner, env: TrainingEnv<W>, w: W, state: int, steps: nat): (r: Result<(Learner, W), RunError>)
    requires Valid(m)
    ensures r.Ok? ==> Valid(r.value.0) && r.value.0.numStates == m.numStates && r.value.0.numActions == m.numActions
    ensures r.Err? ==> r.error != OutOfFuel
    decreases steps
  {
    if steps == 0 then Ok((m, w))
    else
      var (m', o) :- TakeStep(m, env, w, state);
      if o.done then Ok((m', o.world)) else EpisodeCapped(m', env, o.world, o.next, steps - 1)
  }

  /** Whenever the unbounded episode ends within the budget, the capped one ends the same
      way; only an episode that would run past the budget is cut short. */
  lemma {:induction false} CappedAgreesWhenEpisodeEnds<W>(m: Learner, env: TrainingEnv<W>, w: W, state: int, steps: nat)
    requires Valid(m) && Episode(m, env, w, state, steps).Ok?
    ensures EpisodeCapped(m, env, w, state, steps) == Episode(m, env, w, state, steps)
    decreases steps
  {
    var t := TakeStep(m, env, w, state);
    if !t.value.1.done {
      CappedAgreesWhenEpisodeEnds(t.value.0, env, t.value.1.world, t.value.1.next, steps - 1);
    }
  }

  /** `train(environment, episodes)`: that many episodes, each from `reset()`; a count of
      zero or below runs none. */
  function Train<W>(m: Learner, env: TrainingEnv<W>, w: W, episodes: int, fuel: nat): (r: Result<(Learner, W), RunError>)
    requires Valid(m)
    ensures r.Ok? ==> Valid(r.value.0) && r.value.0.numStates == m.numStates && r.value.0.numActions == m.numActions
    ensures episodes <= 0 ==> r == Ok((m, w))
    decreases if episodes > 0 then episodes else 0
  {
    if episodes <= 0 then Ok((m, w))
    else
      var start := env.reset(w);
      var (m', w') :- Episode(m, env, start.0, start.1, fuel);
      Train(m', env, w', episodes - 1, fuel)
  }

  /** The file's placeholder environment: `reset` gives state 0; action 0 stays in state 0
      with reward -1 and does not end the episode; any other action moves to the state of
      that number with reward 1 and ends it. It has no state of its own. */
  const Placeholder: TrainingEnv<()> :=
    TrainingEnv(w => (w, 0), (w, a: nat) => Outcome(w, a, if a != 0 then 1.0 else -1.0, a != 0))

  function Pow(x: real, n: nat): real {
    if n == 0 then 1.0 else x * Pow(x, n - 1)
  }

  /** The default learner's table after `k >= 1` episodes against the placeholder: Q[0][0]
      holds the one penalty of the first episode and Q[0][1] = 1 - 0.9^k. */
  function AfterEpisodes(k: nat): (m: Learner)
    ensures Valid(m) && m.numStates == DefaultStates && m.numActions == DefaultActions
  {
    var z := Zeros(DefaultStates, DefaultActions);
    Learner(DefaultStates, DefaultActions, z[0 := [-0.1, 1.0 - Pow(Gamma, k)]])
  }

  lemma PowBetween(k: nat)
    requires k >= 1
    ensures 0.0 < Pow(Gamma, k) <= Gamma
  {
    if k > 1 {
      PowBetween(k - 1);
    }
  }

  /** The first episode against the placeholder: action 0 (both entries are 0), a penalty,
      then action 1 and the end. */
  lemma FirstEpisode(fuel: nat)
    requires fuel >= 2
    ensures Episode(New(DefaultStates, DefaultActions).value, Placeholder, (), 0, fuel) == Ok((AfterEpisodes(1), ()))
  {
    var m0 := New(DefaultStates, DefaultActions).value;
    assert Greedy(m0, 0) == Ok(0);
    var (m1, o1) := TakeStep(m0, Placeholder, (), 0).value;
    assert o1 == Outcome((), 0, -1.0, false);
    assert MaxOf(m0.q[0]) == 0.0;
    assert m1.q[0][0] == -0.1;
    assert m1.q[0] == [-0.1, 0.0];
    assert Greedy(m1, 0) == Ok(1);
    var (m2, o2) := TakeStep(m1, Placeholder, (), 0).value;
    assert o2 == Outcome((), 1, 1.0, true);
    assert MaxOf(m1.q[1]) == 0.0 by { MaxOfCharacterised(m1.q[1], 0.0); }
    assert m2.q[0] == [-0.1, 0.1];
    assert m2.q == AfterEpisodes(1).q;
  }

  /** Every later episode takes action 1 at once and moves Q[0][1] a tenth of the way
      towards 1. */
  lemma LaterEpisode(k: nat, fuel: nat)
    requires k >= 1 && fuel >= 1
    ensures Episode(AfterEpisodes(k), Placeholder, (), 0, fuel) == Ok((AfterEpisodes(k + 1), ()))
  {
    var m := AfterEpisodes(k);
    PowBetween(k);
    assert m.q[0] == [-0.1, 1.0 - Pow(Gamma, k)];
    assert Greedy(m, 0) == Ok(1);
    var (m', o) := TakeStep(m, Placeholder, (), 0).value;
    assert o == Outcome((), 1, 1.0, true);
    assert MaxOf(m.q[1]) == 0.0 by { MaxOfCharacterised(m.q[1], 0.0); }
    assert m'.q[0][1] == 1.0 - Pow(Gamma, k + 1);
    assert m'.q[0] == AfterEpisodes(k + 1).q[0];
    assert m'.q == AfterEpisodes(k + 1).q;
  }

  /** When every episode from learner `f(j)`, `j >= k`, ends with learner `f(j + 1)` and
      the world as it was, `n` episodes from `f(k)` end with `f(e)`, `e = k + n`. */
  lemma {:induction false} TrainIterates<W>(env: TrainingEnv<W>, w: W, s0: int, f: nat -> Learner,
                                            k: nat, n: nat, e: nat, fuel: nat)
    requires env.reset(w) == (w, s0) && Valid(f(k)) && e == k + n
    requires forall j: nat :: j >= k ==> Advances(env, w, s0, f, j, fuel)
    ensures Train(f(k), env, w, n, fuel) == Ok((f(e), w))
    decreases n
  {
    if n > 0 {
      assert Advances(env, w, s0, f, k, fuel);
      TrainIterates(env, w, s0, f, k + 1, n - 1, e, fuel);
      TrainAfterEpisode(f(k), env, w, n, fuel, w, s0, f(k + 1), w, Ok((f(e), w)));
    }
  }

  /** The episode from learner `f(j)` and state `s0` ends with learner `f(j + 1)` and the
      world as it was. */
  ghost predicate Advances<W>(env: TrainingEnv<W>, w: W, s0: int, f: nat -> Learner, j: nat, fuel: nat) {
    Valid(f(j)) && Episode(f(j), env, w, s0, fuel) == Ok((f(j + 1), w))
  }

  /** A run of `n >= 1` episodes is the first episode from `reset()` followed by `n - 1`. */
  lemma TrainAfterEpisode<W>(m: Learner, env: TrainingEnv<W>, w: W, n: nat, fuel: nat, w0: W, s0: int,
                             m1: Learner, w1: W, r: Result<(Learner, W), RunError>)
    requires Valid(m) && Valid(m1) && n >= 1 && env.reset(w) == (w0, s0)
    requires Episode(m, env, w0, s0, fuel) == Ok((m1, w1))
    requires Train(m1, env, w1, n - 1, fuel) == r
    ensures Train(m, env, w, n, fuel) == r
  {
  }

  lemma PlaceholderReset()
    ensures Placeholder.reset(()) == ((), 0)
  {
  }

  /** Training the default learner for `n >= 1` episodes against the placeholder ends with
      Q[0][0] = -0.1, Q[0][1] = 1 - 0.9^n and every other entry 0: only the first episode
      tries action 0, and every episode ends after action 1. */
  lemma PlaceholderTraining(n: nat, fuel: nat)
    requires n >= 1 && fuel >= 2
    ensures Train(New(DefaultStates, DefaultActions).value, Placeholder, (), n, fuel) == Ok((AfterEpisodes(n), ()))
    ensures AfterEpisodes(n).q[0][0] == -0.1 && AfterEpisodes(n).q[0][1] == 1.0 - Pow(Gamma, n)
    ensures forall i, j :: 1 <= i < DefaultStates && 0 <= j < DefaultActions ==> AfterEpisodes(n).q[i][j] == 0.0
  {
    PlaceholderRun(n, fuel);
    AfterEpisodesTable(n);
  }

  lemma PlaceholderRun(n: nat, fuel: nat)
    requires n >= 1 && fuel >= 2
    ensures Train(New(DefaultStates, DefaultActions).value, Placeholder, (), n, fuel) == Ok((AfterEpisodes(n), ()))
  {
    var m0 := New(DefaultStates, DefaultActions).value;
    PlaceholderReset();
    PlaceholderEpisodes(fuel);
    TrainIterates(Placeholder, (), 0, Tables, 0, n, n, fuel);
    assert Tables(0) == m0 && Tables(n) == AfterEpisodes(n);
  }

  /** The default learner's table after `k` episodes against the placeholder, from the
      zero table at `k = 0`. */
  function Tables(k: nat): (m: Learner)
    ensures Valid(m) && m.numStates == DefaultStates && m.numActions == DefaultActions
  {
    if k == 0 then New(DefaultStates, DefaultActions).value else AfterEpisodes(k)
  }

  /** Every episode against the placeholder advances the table by one episode. */
  lemma PlaceholderEpisodes(fuel: nat)
    requires fuel >= 2
    ensures forall j: nat :: Advances(Placeholder, (), 0, Tables, j, fuel)
  {
    forall j: nat
      ensures Advances(Placeholder, (), 0, Tables, j, fuel)
    {
      if j == 0 {
        FirstEpisode(fuel);
      } else {
        LaterEpisode(j, fuel);
      }
    }
  }

  /** The table after `k` episodes: the two entries of state 0 and zeros elsewhere. */
  lemma AfterEpisodesTable(k: nat)
    ensures AfterEpisodes(k).q[0][0] == -0.1 && AfterEpisodes(k).q[0][1] == 1.0 - Pow(Gamma, k)
    ensures forall i, j :: 1 <= i < DefaultStates && 0 <= j < DefaultActions ==> AfterEpisodes(k).q[i][j] == 0.0
  {
  }
}

=== FILE: llm_knowledge_extractor.dfy ===
/** The deterministic part of `LLMKnowledgeExtractor.enrich_concept`
    (llm_knowledge_extractor.py): name normalisation, the fresh entry for a new concept,
    and the parsing of the language model's answers into lists and examples. The answers
    themselves are parameters; the HTTP request and the file writes are not modelled. */
module LlmKnowledgeExtractor {
  import opened Wrappers
  import opened KnowledgeBase
  import opened PyText

  /** The three complexity levels asked for, in order. */
  const LevelNames: seq<string> := ["beginner", "intermediate", "advanced"]

  /** The seven answers of `_query_llm` during one enrichment, in call order. */
  datatype Answers = Answers(
    definition: string,
    beginner: string,
    intermediate: string,
    advanced: string,
    prerequisites: string,
    related: string,
    examples: string)

  /** Assigning into `complexity_levels` fails with `KeyError` when an existing entry has
      no such key and with `TypeError` when its value is not an object. */
  datatype EnrichError = KeyError | TypeError

  /** The concept name as stored: lower-cased. */
  function NormalizeName(name: string): (r: string)
    ensures |r| == |name| && Lower(r) == r
    ensures forall i :: 0 <= i < |name| ==> (IsUpper(name[i]) ==> r[i] == LowerChar(name[i])) && (!IsUpper(name[i]) ==> r[i] == name[i])
  {
    LowerIdempotent(name);
    Lower(name)
  }

  /** The entry a concept that is not yet known starts from. */
  function FreshEntry(): (e: Entry)
    ensures e.Keys == {"definition", "complexity_levels", "prerequisites", "related_concepts", "examples"}
    ensures forall k :: k in e ==> !Truthy(e[k])
  {
    map["definition" := Text(""), "complexity_levels" := Levels(map[]), "prerequisites" := Names([]),
        "related_concepts" := Names([]), "examples" := ExampleList([])]
  }

  // ---------------------------------------------------------------------------
  // One item per line

  /** A line as the list parser keeps it: non-empty, stripped, lower-case, one line. */
  predicate IsCleanItem(x: string) {
    x != [] && !IsSpace(x[0]) && !IsSpace(x[|x| - 1]) && Lower(x) == x && '\n' !in x
  }

  /** An item as the list parser keeps it: non-empty, stripped and lower-case. */
  predicate Kept(x: string) {
    x != [] && Strip(x) == x && Lower(x) == x
  }

  /** A line that is not blank, stripped and lower-cased, is kept. */
  lemma KeptOfLine(line: string)
    requires Strip(line) != []
    ensures Kept(Lower(Strip(line)))
  {
    LowerStrip(line);
    StripIdempotent(Lower(line));
    LowerIdempotent(Strip(line));
  }

  /** Stripping and lower-casing a line puts no line break into it. */
  lemma NoBreakAdded(line: string)
    requires '\n' !in line
    ensures '\n' !in Lower(Strip(line))
  {
    var l := StripLeft(line);
    var t := StripRight(l);
    assert Strip(line) == t;
    forall k | 0 <= k < |t| ensures t[k] != '\n' {
      assert t[k] == l[k];
      assert l[k] == line[|line| - |l| + k];
    }
    forall k | 0 <= k < |t| ensures Lower(t)[k] != '\n' {
      assert Lower(t)[k] == LowerChar(t[k]);
    }
  }

  /** The stripped, lower-cased lines that are not blank, in order. */
  function CleanLines(lines: seq<string>): (r: seq<string>)
    ensures |r| <= |lines|
    decreases |lines|
  {
    if lines == [] then []
    else
      var t := Strip(lines[0]);
      (if t == [] then [] else [Lower(t)]) + CleanLines(lines[1..])
  }

  /** Every kept item is non-empty, stripped and lower-case. */
  lemma {:induction false} CleanLinesKept(lines: seq<string>)
    ensures forall i :: 0 <= i < |CleanLines(lines)| ==> Kept(CleanLines(lines)[i])
    decreases |lines|
  {
    if lines != [] {
      CleanLinesKept(lines[1..]);
      var t := Strip(lines[0]);
      if t != [] {
        KeptOfLine(lines[0]);
      }
      KeepAll(if t == [] then [] else [Lower(t)], CleanLines(lines[1..]));
    }
  }

  lemma KeepAll(a: seq<string>, b: seq<string>)
    requires forall i :: 0 <= i < |a| ==> Kept(a[i])
    requires forall i :: 0 <= i < |b| ==> Kept(b[i])
    ensures forall i :: 0 <= i < |a + b| ==> Kept((a + b)[i])
  {
    forall i | 0 <= i < |a + b| ensures Kept((a + b)[i]) {
      if i < |a| {
        assert (a + b)[i] == a[i];
      } else {
        assert (a + b)[i] == b[i - |a|];
      }
    }
  }

  /** Kept items have no line break when the lines had none. */
  lemma {:induction false} CleanLinesNoBreak(lines: seq<string>)
    requires forall j :: 0 <= j < |lines| ==> '\n' !in lines[j]
    ensures forall i :: 0 <= i < |CleanLines(lines)| ==> '\n' !in CleanLines(lines)[i]
    decreases |lines|
  {
    if lines != [] {
      assert forall j :: 0 <= j < |lines[1..]| ==> '\n' !in lines[1..][j];
      CleanLinesNoBreak(lines[1..]);
      var t := Strip(lines[0]);
      if t != [] {
        NoBreakAdded(lines[0]);
      }
      NoBreakAll(if t == [] then [] else [Lower(t)], CleanLines(lines[1..]));
    }
  }

  lemma NoBreakAll(a: seq<string>, b: seq<string>)
    requires forall i :: 0 <= i < |a| ==> '\n' !in a[i]
    requires forall i :: 0 <= i < |b| ==> '\n' !in b[i]
    ensures forall i :: 0 <= i < |a + b| ==> '\n' !in (a + b)[i]
  {
    forall i | 0 <= i < |a + b| ensures '\n' !in (a + b)[i] {
      if i < |a| {
        assert (a + b)[i] == a[i];
      } else {
        assert (a + b)[i] == b[i - |a|];
      }
    }
  }

  /** `[p.strip().lower() for p in response.split('\n') if p.strip()]`: every item is
      non-empty, stripped, lower-case and a single line. */
  function ParseLines(response: string): (r: seq<string>)
    ensures forall i :: 0 <= i < |r| ==> Kept(r[i]) && '\n' !in r[i]
  {
    CleanLinesKept(Split(response, '\n'));
    CleanLinesNoBreak(Split(response, '\n'));
    CleanLines(Split(response, '\n'))
  }

  /** Clean items are kept as they are. */
  lemma {:induction false} CleanLinesOfCleanItems(items: seq<string>)
    requires forall i :: 0 <= i < |items| ==> IsCleanItem(items[i])
    ensures CleanLines(items) == items
    decreases |items|
  {
    if items != [] {
      StripUnchanged(items[0]);
      CleanLinesOfCleanItems(items[1..]);
      assert CleanLines(items) == [items[0]] + CleanLines(items[1..]);
      HeadTail(items);
    }
  }

  /** Writing clean items one per line and parsing the text gives the items back. */
  lemma ParseLinesRoundTrip(items: seq<string>)
    requires forall i :: 0 <= i < |items| ==> IsCleanItem(items[i])
    ensures ParseLines(Join(items, "\n")) == items
  {
    if items == [] {
      assert Split("", '\n') == [""];
      assert Strip("") == "";
    } else {
      SplitJoin(items, '\n');
      CleanLinesOfCleanItems(items);
    }
  }

  // ---------------------------------------------------------------------------
  // Examples

  /** A line that starts a new example. */
  predicate IsHeader(line: string) {
    IsPrefix("Example", line) || IsPrefix("1.", line) || IsPrefix("2.", line)
  }

  /** The name given to an example: the stripped text after the first colon, or the
      whole header line when it has none. */
  function ExampleName(line: string): (r: string)
    ensures ':' !in line ==> r == line
    ensures ':' in line ==> |r| < |line|
  {
    if ':' in line then Strip(AfterFirst(line, ':')) else line
  }

  /** What the example loop makes of one line once it is stripped: nothing, the start of
      an example with its name, or text for the example being read. */
  datatype Line = Blank | Opens(name: string) | Continues(text: string)

  function Classify(raw: string): Line {
    var line := Strip(raw);
    if line == [] then Blank
    else if IsHeader(line) then Opens(ExampleName(line))
    else Continues(line)
  }

  function Classified(lines: seq<string>): (r: seq<Line>)
    decreases |lines|
  {
    if lines == [] then [] else [Classify(lines[0])] + Classified(lines[1..])
  }

  lemma ClassifiedCons(x: string, rest: seq<string>)
    ensures Classified([x] + rest) == [Classify(x)] + Classified(rest)
  {
    assert ([x] + rest)[0] == x && ([x] + rest)[1..] == rest;
  }

  lemma {:induction false} ClassifiedAppend(a: seq<string>, b: seq<string>)
    ensures Classified(a + b) == Classified(a) + Classified(b)
    decreases |a|
  {
    if a != [] {
      var x, t := a[0], a[1..];
      assert Classified(a + b) == [Classify(x)] + Classified(t + b) by {
        assert a + b == [x] + (t + b);
        ClassifiedCons(x, t + b);
      }
      assert Classified(a) == [Classify(x)] + Classified(t) by {
        assert a == [x] + t;
        ClassifiedCons(x, t);
      }
      ClassifiedAppend(t, b);
    } else {
      assert a + b == b;
    }
  }

  /** A line opens an example exactly when it is a header once stripped. */
  lemma ClassifyOpens(raw: string)
    ensures Classify(raw).Opens? <==> Strip(raw) != [] && IsHeader(Strip(raw))
    ensures Classify(raw).Opens? ==> Classify(raw).name == ExampleName(Strip(raw))
  {
  }

  lemma ClassifyHeader(h: string)
    requires h != [] && Strip(h) == h && IsHeader(h)
    ensures Classify(h) == Opens(ExampleName(h))
  {
  }

  /** The loop's state: the finished examples and the one being read, if any. */
  datatype Reading = Reading(done: seq<Example>, current: Option<Example>)

  /** The example being read, as a list of at most one. */
  function Pending(cur: Option<Example>): (r: seq<Example>)
    ensures |r| == if cur.Some? then 1 else 0
  {
    match cur
    case None => []
    case Some(ex) => [ex]
  }

  /** A description with one more line of text. */
  function Extend(d: Option<string>, t: string): string {
    match d
    case None => t
    case Some(s) => s + " " + t
  }

  /** One line: a header closes the example being read and opens a new one; text extends
      the description of the example being read, and is dropped when there is none. */
  function Step(st: Reading, k: Line): Reading {
    match k
    case Blank => st
    case Opens(n) => Reading(st.done + Pending(st.current), Some(Example(n, None)))
    case Continues(t) =>
      match st.current
      case None => st
      case Some(ex) => Reading(st.done, Some(ex.(description := Some(Extend(ex.description, t)))))
  }

  function ReadAll(st: Reading, ks: seq<Line>): Reading
    decreases |ks|
  {
    if ks == [] then st else ReadAll(Step(st, ks[0]), ks[1..])
  }

  /** The examples read so far, the pending one last. */
  function Finish(st: Reading): seq<Example> {
    st.done + Pending(st.current)
  }

  /** The examples parsed from the answer's lines. */
  function ParseExampleLines(lines: seq<string>): seq<Example> {
    Finish(ReadAll(Reading([], None), Classified(lines)))
  }

  /** The examples of an answer. */
  function ParseExamples(response: string): (r: seq<Example>)
    ensures var hs := Headers(Split(response, '\n'));
      |r| == |hs| && forall k :: 0 <= k < |hs| ==> r[k].name == ExampleName(hs[k])
  {
    ExamplesFollowHeaders(Split(response, '\n'));
    ParseExampleLines(Split(response, '\n'))
  }

  // Names

  /** The stripped header lines, in order. */
  function Headers(lines: seq<string>): (r: seq<string>)
    decreases |lines|
  {
    if lines == [] then []
    else
      var t := Strip(lines[0]);
      (if t != [] && IsHeader(t) then [t] else []) + Headers(lines[1..])
  }

  function ExampleNames(exs: seq<Example>): (r: seq<string>)
    ensures |r| == |exs| && forall i :: 0 <= i < |exs| ==> r[i] == exs[i].name
  {
    seq(|exs|, i requires 0 <= i < |exs| => exs[i].name)
  }

  function NamesOf(headers: seq<string>): (r: seq<string>)
    ensures |r| == |headers| && forall i :: 0 <= i < |headers| ==> r[i] == ExampleName(headers[i])
  {
    seq(|headers|, i requires 0 <= i < |headers| => ExampleName(headers[i]))
  }

  /** The names of the lines that open an example, in order. */
  function OpenedNames(ks: seq<Line>): seq<string>
    decreases |ks|
  {
    if ks == [] then [] else (if ks[0].Opens? then [ks[0].name] else []) + OpenedNames(ks[1..])
  }

  lemma ExampleNamesAppend(a: seq<Example>, b: seq<Example>)
    ensures ExampleNames(a + b) == ExampleNames(a) + ExampleNames(b)
  {
  }

  lemma NamesOfAppend(a: seq<string>, b: seq<string>)
    ensures NamesOf(a + b) == NamesOf(a) + NamesOf(b)
  {
  }

  /** One line adds the name of the example it opens, if any, and renames nothing. */
  lemma StepNames(st: Reading, k: Line)
    ensures ExampleNames(Finish(Step(st, k))) == ExampleNames(Finish(st)) + (if k.Opens? then [k.name] else [])
  {
    match k
    case Blank =>
    case Opens(n) =>
      assert Finish(Step(st, k)) == Finish(st) + [Example(n, None)];
      ExampleNamesAppend(Finish(st), [Example(n, None)]);
    case Continues(t) =>
      if st.current.Some? {
        var next := Step(st, k);
        ExampleNamesAppend(st.done, Pending(st.current));
        ExampleNamesAppend(next.done, Pending(next.current));
      }
  }

  /** Reading lines never renames an example: the names after reading are the names before
      followed by one name per opening line. */
  lemma {:induction false} ReadAllNames(st: Reading, ks: seq<Line>)
    ensures ExampleNames(Finish(ReadAll(st, ks))) == ExampleNames(Finish(st)) + OpenedNames(ks)
    decreases |ks|
  {
    if ks != [] {
      var next := Step(st, ks[0]);
      ReadAllNames(next, ks[1..]);
      StepNames(st, ks[0]);
      var mine := if ks[0].Opens? then [ks[0].name] else [];
      assert OpenedNames(ks) == mine + OpenedNames(ks[1..]);
      ConcatAssoc(ExampleNames(Finish(st)), mine, OpenedNames(ks[1..]));
    }
  }

  /** The lines that open an example are the header lines, named after them. */
  lemma {:induction false} OpenedNamesAreHeaders(lines: seq<string>)
    ensures OpenedNames(Classified(lines)) == NamesOf(Headers(lines))
    decreases |lines|
  {
    if lines != [] {
      OpenedNamesAreHeaders(lines[1..]);
      var k := Classify(lines[0]);
      ClassifyOpens(lines[0]);
      var t := Strip(lines[0]);
      var hs := if t != [] && IsHeader(t) then [t] else [];
      assert Headers(lines) == hs + Headers(lines[1..]);
      NamesOfAppend(hs, Headers(lines[1..]));
      assert NamesOf(hs) == if k.Opens? then [k.name] else [];
      assert OpenedNames(Classified(lines)) == (if k.Opens? then [k.name] else []) + OpenedNames(Classified(lines[1..]));
    }
  }

  /** One example per header line, named after it, in order: the `k`-th example's name is
      the text after the first colon of the `k`-th header (or the whole header). */
  lemma ExamplesFollowHeaders(lines: seq<string>)
    ensures |ParseExampleLines(lines)| == |Headers(lines)|
    ensures forall k :: 0 <= k < |Headers(lines)| ==> ParseExampleLines(lines)[k].name == ExampleName(Headers(lines)[k])
  {
    var init := Reading([], None);
    assert ExampleNames(Finish(init)) == [];
    ReadAllNames(init, Classified(lines));
    OpenedNamesAreHeaders(lines);
    assert ExampleNames(ParseExampleLines(lines)) == NamesOf(Headers(lines));
  }

  // Descriptions

  /** A line that the example loop keeps as text: non-empty, stripped, not a header. */
  predicate IsBodyLine(x: string) {
    x != [] && Strip(x) == x && !IsHeader(x)
  }

  /** Every line is a body line. */
  predicate AllBody(lines: seq<string>)
    decreases |lines|
  {
    lines == [] || (IsBodyLine(lines[0]) && AllBody(lines[1..]))
  }

  /** Lines read as text. */
  function Continuations(ts: seq<string>): (r: seq<Line>)
    ensures |r| == |ts| && forall i :: 0 <= i < |ts| ==> r[i] == Continues(ts[i])
  {
    seq(|ts|, i requires 0 <= i < |ts| => Continues(ts[i]))
  }

  lemma ContinuationsCons(ts: seq<string>)
    requires ts != []
    ensures Continuations(ts) == [Continues(ts[0])] + Continuations(ts[1..])
  {
  }

  lemma ClassifyBody(x: string)
    requires IsBodyLine(x)
    ensures Classify(x) == Continues(x)
  {
  }

  lemma {:induction false} ClassifiedBody(body: seq<string>)
    requires AllBody(body)
    ensures Classified(body) == Continuations(body)
    decreases |body|
  {
    if body != [] {
      ClassifyBody(body[0]);
      ClassifiedBody(body[1..]);
      ContinuationsCons(body);
    }
  }

  /** Reading a concatenation reads the first part, then the second. */
  lemma {:induction false} ReadAllAppend(st: Reading, a: seq<Line>, b: seq<Line>)
    ensures ReadAll(st, a + b) == ReadAll(ReadAll(st, a), b)
    decreases |a|
  {
    if a == [] {
      assert a + b == b;
    } else {
      assert (a + b)[0] == a[0];
      assert (a + b)[1..] == a[1..] + b;
      ReadAllAppend(Step(st, a[0]), a[1..], b);
    }
  }

  /** Text before the first example is dropped. */
  lemma {:induction false} LeadingTextDropped(ts: seq<string>)
    ensures ReadAll(Reading([], None), Continuations(ts)) == Reading([], None)
    decreases |ts|
  {
    if ts != [] {
      assert Continuations(ts)[1..] == Continuations(ts[1..]);
      LeadingTextDropped(ts[1..]);
    }
  }

  /** Text before the first example header does not change the examples. */
  lemma TextBeforeFirstHeaderIgnored(junk: seq<string>, rest: seq<string>)
    requires AllBody(junk)
    ensures ParseExampleLines(junk + rest) == ParseExampleLines(rest)
  {
    ClassifiedAppend(junk, rest);
    ClassifiedBody(junk);
    ReadAllAppend(Reading([], None), Continuations(junk), Classified(rest));
    LeadingTextDropped(junk);
  }

  /** Text lines after a header are joined with single spaces into its description. */
  lemma {:induction false} TextJoins(done: seq<Example>, name: string, d: string, ts: seq<string>)
    ensures ReadAll(Reading(done, Some(Example(name, Some(d)))), Continuations(ts))
         == Reading(done, Some(Example(name, Some(Join([d] + ts, " ")))))
    decreases |ts|
  {
    if ts == [] {
      assert [d] + ts == [d];
    } else {
      var d' := d + " " + ts[0];
      assert Continuations(ts)[1..] == Continuations(ts[1..]);
      TextJoins(done, name, d', ts[1..]);
      JoinPair(d, ts[0], ts[1..]);
      ConsAppend([d], ts);
    }
  }

  lemma JoinPair(d: string, x: string, rest: seq<string>)
    ensures Join([d + " " + x] + rest, " ") == Join([d] + [x] + rest, " ")
  {
    assert ([d] + [x] + rest)[1..] == [x] + rest;
    JoinCons(d, [x] + rest, " ");
    if rest != [] {
      JoinCons(d + " " + x, rest, " ");
      JoinCons(x, rest, " ");
    }
  }

  /** An opening line followed by text lines reads as one example whose description is
      the text lines joined by single spaces. */
  lemma OneExampleRead(n: string, ts: seq<string>)
    requires ts != []
    ensures Finish(ReadAll(Reading([], None), [Opens(n)] + Continuations(ts))) == [Example(n, Some(Join(ts, " ")))]
  {
    var st := Reading([], Some(Example(n, None)));
    assert ([Opens(n)] + Continuations(ts))[0] == Opens(n);
    assert ([Opens(n)] + Continuations(ts))[1..] == Continuations(ts);
    assert Step(Reading([], None), Opens(n)) == st;
    assert Continuations(ts)[1..] == Continuations(ts[1..]);
    assert ReadAll(st, Continuations(ts)) == ReadAll(Reading([], Some(Example(n, Some(ts[0])))), Continuations(ts[1..]));
    TextJoins([], n, ts[0], ts[1..]);
    HeadTail(ts);
  }

  /** A single header line followed by text lines makes one example whose description is
      those lines joined by single spaces. */
  lemma OneExample(header: string, body: seq<string>)
    requires header != [] && Strip(header) == header && IsHeader(header)
    requires body != [] && AllBody(body)
    ensures ParseExampleLines([header] + body) == [Example(ExampleName(header), Some(Join(body, " ")))]
  {
    ClassifyHeader(header);
    ClassifiedBody(body);
    TailOfCons(header, body);
    assert Classified([header] + body) == [Opens(ExampleName(header))] + Continuations(body);
    OneExampleRead(ExampleName(header), body);
  }

  lemma TailOfCons(x: string, s: seq<string>)
    ensures ([x] + s)[0] == x && ([x] + s)[1..] == s
  {
  }

  lemma HeadTail(s: seq<string>)
    requires s != []
    ensures [s[0]] + s[1..] == s
  {
  }

  lemma ConsAppend(a: seq<string>, b: seq<string>)
    requires a != []
    ensures a + b == [a[0]] + (a[1..] + b)
  {
  }

  lemma ConcatAssoc(x: seq<string>, y: seq<string>, z: seq<string>)
    ensures x + y + z == x + (y + z)
  {
  }

  // ---------------------------------------------------------------------------
  // enrich_concept

  /** The levels object after the three assignments of the level loop. */
  function WithLevels(m: map<string, string>, a: Enrichment): map<string, string> {
    m["beginner" := a.beginner]["intermediate" := a.intermediate]["advanced" := a.advanced]
  }

  /** What the enrichment writes, once the answers are parsed. */
  datatype Enrichment = Enrichment(
    definition: string,
    beginner: string,
    intermediate: string,
    advanced: string,
    prerequisites: seq<string>,
    related: seq<string>,
    examples: seq<Example>)

  /** The answers parsed: the two lists one item per non-blank line, and the examples. */
  function Parse(a: Answers): Enrichment {
    Enrichment(a.definition, a.beginner, a.intermediate, a.advanced,
               ParseLines(a.prerequisites), ParseLines(a.related), ParseExamples(a.examples))
  }

  /** The writes `enrich_concept` makes into a concept object: the definition, the three
      level explanations into the `complexity_levels` object, the two lists and the
      examples. Keys the enrichment does not write keep their values. */
  function UpdateEntry(e: Entry, p: Enrichment): (r: Result<Entry, EnrichError>)
    ensures r.Err? <==> !("complexity_levels" in e && e["complexity_levels"].Levels?)
    ensures r.Err? ==> (r.error == KeyError <==> "complexity_levels" !in e)
    ensures r.Ok? ==> r.value.Keys == e.Keys + FreshEntry().Keys
    ensures r.Ok? ==> forall k :: k in e && k !in FreshEntry() ==> r.value[k] == e[k]
    ensures r.Ok? ==>
      && r.value["definition"] == Text(p.definition)
      && r.value["complexity_levels"] == Levels(WithLevels(e["complexity_levels"].levels, p))
      && r.value["prerequisites"] == Names(p.prerequisites)
      && r.value["related_concepts"] == Names(p.related)
      && r.value["examples"] == ExampleList(p.examples)
  {
    var e1 := e["definition" := Text(p.definition)];
    if "complexity_levels" !in e1 then Err(KeyError)
    else match e1["complexity_levels"]
      case Levels(m) =>
        Ok(e1["complexity_levels" := Levels(WithLevels(m, p))]
             ["prerequisites" := Names(p.prerequisites)]
             ["related_concepts" := Names(p.related)]
             ["examples" := ExampleList(p.examples)])
      case _ => Err(TypeError)
  }

  /** The three level explanations are stored under their level names, and other levels
      already present are kept. */
  lemma WithLevelsStoresAnswers(m: map<string, string>, a: Enrichment)
    ensures var m' := WithLevels(m, a);
      && m'.Keys == m.Keys + {"beginner", "intermediate", "advanced"}
      && m'["beginner"] == a.beginner && m'["intermediate"] == a.intermediate && m'["advanced"] == a.advanced
      && forall l :: l in m && l !in LevelNames ==> m'[l] == m[l]
  {
  }

  /** The object `enrich_concept` starts from: the stored one, or a fresh one. */
  function StartEntry(kb: KB, key: string): (e: Entry)
    ensures Find(kb, key).Some? ==> e == Find(kb, key).value
    ensures Find(kb, key).None? ==> e == FreshEntry()
  {
    match Find(kb, key)
    case Some(e) => e
    case None => FreshEntry()
  }

  /** The enrichment of a concept once the answers are parsed: the normalised concept gets
      a fresh object if it is new, the enrichment is written into its object, and the
      knowledge base and the object are returned. The concept keeps its place in key
      order, or is appended when new; every other concept is unchanged. Only an existing
      object whose `complexity_levels` is missing or not an object makes it fail. */
  function EnrichWith(kb: KB, name: string, p: Enrichment): (r: Result<(KB, Entry), EnrichError>)
    ensures var key := NormalizeName(name);
      var start := StartEntry(kb, key);
      && (r.Err? <==> UpdateEntry(start, p).Err?)
      && (r.Err? ==> Find(kb, key).Some? && r.error == UpdateEntry(start, p).error)
      && (r.Ok? ==> r.value.1 == UpdateEntry(start, p).value)
      && (r.Ok? ==> Find(r.value.0, key) == Some(r.value.1))
      && (r.Ok? ==> Keys(r.value.0) == if Find(kb, key).Some? then Keys(kb) else Keys(kb) + [key])
      && (r.Ok? ==> forall k :: k != key ==> Find(r.value.0, k) == Find(kb, k))
  {
    var key := NormalizeName(name);
    var start := StartEntry(kb, key);
    match UpdateEntry(start, p)
    case Err(err) => Err(err)
    case Ok(e) =>
      var kb2 := Put(kb, key, e);
      PutThenFindSame(kb, key, e);
      assert forall k :: k != key ==> Find(kb2, k) == Find(kb, k) by {
        forall k | k != key ensures Find(kb2, k) == Find(kb, k) {
          PutThenFindOther(kb, key, e, k);
        }
      }
      Ok((kb2, e))
  }

  /** `enrich_concept(concept_name)` with the language model's answers given. */
  function Enrich(kb: KB, name: string, a: Answers): (r: Result<(KB, Entry), EnrichError>)
    ensures NormalizeName(name) !in Keys(kb) ==>
      && r.Ok?
      && r.value.1.Keys == FreshEntry().Keys
      && r.value.1["complexity_levels"] == Levels(map["beginner" := a.beginner, "intermediate" := a.intermediate, "advanced" := a.advanced])
      && r.value.1["definition"] == Text(a.definition)
    ensures r.Ok? ==> Find(r.value.0, NormalizeName(name)) == Some(r.value.1)
    ensures r.Ok? ==> forall k :: k != NormalizeName(name) ==> Find(r.value.0, k) == Find(kb, k)
  {
    if NormalizeName(name) !in Keys(kb) then
      EnrichNewConcept(kb, name, Parse(a));
      EnrichWith(kb, name, Parse(a))
    else
      EnrichWith(kb, name, Parse(a))
  }

  /** A concept that is not yet known is always enriched: its object has exactly the five
      fields, and its levels object exactly the three answers. */
  lemma EnrichNewConcept(kb: KB, name: string, p: Enrichment)
    requires NormalizeName(name) !in Keys(kb)
    ensures EnrichWith(kb, name, p).Ok?
    ensures var e := EnrichWith(kb, name, p).value.1;
      && e.Keys == FreshEntry().Keys
      && e["complexity_levels"] == Levels(map["beginner" := p.beginner, "intermediate" := p.intermediate, "advanced" := p.advanced])
      && e["definition"] == Text(p.definition)
  {
    var key := NormalizeName(name);
    assert StartEntry(kb, key) == FreshEntry();
    assert FreshEntry()["complexity_levels"] == Levels(map[]);
  }

  /** Writing the same enrichment twice writes nothing new. */
  lemma UpdateEntryIdempotent(e: Entry, p: Enrichment)
    requires UpdateEntry(e, p).Ok?
    ensures UpdateEntry(UpdateEntry(e, p).value, p) == UpdateEntry(e, p)
  {
    var e1 := UpdateEntry(e, p).value;
    assert "complexity_levels" in e1 && e1["complexity_levels"].Levels?;
    var e2 := UpdateEntry(e1, p).value;
    var m := e["complexity_levels"].levels;
    WithLevelsTwice(m, p);
    assert e2.Keys == e1.Keys;
    forall k | k in e2
      ensures e2[k] == e1[k]
    {
      if k !in FreshEntry() {
      } else if k == "complexity_levels" {
        assert e2[k] == Levels(WithLevels(WithLevels(m, p), p));
      }
    }
    assert e2 == e1;
  }

  /** Writing the same level explanations a second time changes nothing. */
  lemma WithLevelsTwice(m: map<string, string>, p: Enrichment)
    ensures WithLevels(WithLevels(m, p), p) == WithLevels(m, p)
  {
  }

  /** Enriching the same concept twice with the same answers gives the same object as
      enriching it once, and leaves the knowledge base's key order alone. */
  lemma EnrichTwice(kb: KB, name: string, p: Enrichment)
    requires EnrichWith(kb, name, p).Ok?
    ensures var (kb1, e1) := EnrichWith(kb, name, p).value;
      && EnrichWith(kb1, name, p).Ok?
      && EnrichWith(kb1, name, p).value.1 == e1
      && Keys(EnrichWith(kb1, name, p).value.0) == Keys(kb1)
  {
    var key := NormalizeName(name);
    var (kb1, e1) := EnrichWith(kb, name, p).value;
    assert StartEntry(kb1, key) == e1;
    UpdateEntryIdempotent(StartEntry(kb, key), p);
  }
}

=== FILE: path_generation.dfy ===
/** The greedy rollout of path_generation.py: from a start concept, repeatedly take the
    unvisited available action with the largest Q-value until no action is left, the
    target has been visited, the environment reports done, or the step budget runs out. */
module PathGeneration {
  import opened Wrappers
  import opened QTable
  import opened RlAgent
  import opened Environment

  predicate Increasing(s: seq<nat>) {
    forall i, j :: 0 <= i < j < |s| ==> s[i] < s[j]
  }

  predicate NoDuplicates(s: seq<int>) {
    forall i, j :: 0 <= i < j < |s| ==> s[i] != s[j]
  }

  /** The concepts in `s`. */
  function Seen(s: seq<int>): set<int> {
    set x | x in s
  }

  /** Whether action `a` passes the filter of lines 32-33. */
  predicate Eligible(a: nat, visited: set<int>, available: seq<int>) {
    a !in visited && a in available
  }

  /** `valid_actions`: the indices of a Q-row, in increasing order, that are unvisited
      and available. */
  function ValidActions(row: seq<real>, visited: set<int>, available: seq<int>): (r: seq<nat>)
    ensures Increasing(r)
    ensures forall i :: 0 <= i < |r| ==> r[i] < |row|
    ensures forall a: nat :: a in r <==> a < |row| && Eligible(a, visited, available)
  {
    Eligibles(|row|, visited, available)
  }

  /** The eligible actions below `n`, in increasing order. */
  function Eligibles(n: nat, visited: set<int>, available: seq<int>): (r: seq<nat>)
    ensures Increasing(r)
    ensures forall i :: 0 <= i < |r| ==> r[i] < n
    ensures forall a: nat :: a in r <==> a < n && Eligible(a, visited, available)
    decreases n
  {
    if n == 0 then []
    else
      var rest := Eligibles(n - 1, visited, available);
      if Eligible(n - 1, visited, available) then rest + [n - 1] else rest
  }

  /** `valid_actions[np.argmax(valid_q_values)]`: a valid action of largest Q-value, the
      lowest such index on a tie. */
  function BestAction(row: seq<real>, valid: seq<nat>): (a: nat)
    requires |valid| > 0 && Increasing(valid)
    requires forall i :: 0 <= i < |valid| ==> valid[i] < |row|
    ensures a in valid && a < |row|
    ensures forall v :: v in valid ==> row[v] <= row[a]
    ensures forall v :: v in valid && v < a ==> row[v] < row[a]
  {
    var values := seq(|valid|, i requires 0 <= i < |valid| => row[valid[i]]);
    var k := ArgMax(values);
    assert forall v :: v in valid ==> row[v] <= row[valid[k]] by {
      forall v | v in valid ensures row[v] <= row[valid[k]] {
        var j :| 0 <= j < |valid| && valid[j] == v;
        assert values[j] <= values[k];
      }
    }
    assert forall v :: v in valid && v < valid[k] ==> row[v] < row[valid[k]] by {
      forall v | v in valid && v < valid[k] ensures row[v] < row[valid[k]] {
        var j :| 0 <= j < |valid| && valid[j] == v;
        assert j < k;
        assert values[j] < values[k];
      }
    }
    valid[k]
  }

  /** One pass of the loop: the environment's state before the step, the Q-row read, the
      valid actions, the chosen action and the `done` flag of the step. */
  datatype PathStep<W> = PathStep(world: W, state: int, row: seq<real>, valid: seq<nat>, action: nat, done: bool)

  /** The returned path, the steps that built it, and the state the rollout stopped in. */
  datatype Rollout<W> = Rollout(path: seq<int>, steps: seq<PathStep<W>>, finalWorld: W, finalState: int)

  /** The row `q_table[state]` reads, when it can be read. */
  function RowOf(ag: Agent, state: int): (r: Option<seq<real>>)
    requires Valid(ag)
    ensures r.Some? <==> PyIndex(ag.stateSize, state).Some?
    ensures r.Some? ==> |r.value| == ag.actionSize
  {
    match PyIndex(ag.stateSize, state)
    case None => None
    case Some(s) => Some(ag.q[s])
  }

  /** What step `i` of a rollout did, in terms of the path before it. */
  ghost predicate StepFollowsRule<W>(ag: Agent, env: PathEnv<W>, path: seq<int>, steps: seq<PathStep<W>>, i: nat)
    requires Valid(ag) && i < |steps| && |path| == |steps| + 1
  {
    var st := steps[i];
    && RowOf(ag, st.state) == Some(st.row)
    && st.valid == ValidActions(st.row, Seen(path[..i + 1]), env.available(st.world, st.state))
    && st.valid != []
    && st.action == BestAction(st.row, st.valid)
    && path[i + 1] == st.action
    && env.step(st.world, st.action).done == st.done
  }

  /** A rollout so far: the path starts at `start` and never repeats a concept; every step
      followed the greedy rule from the state the environment was in; the target was not
      among the concepts before the last one; no step but the last reported done; and
      `(w, state)` is where the environment stands now. */
  ghost predicate Rolled<W>(ag: Agent, env: PathEnv<W>, reset: (W, int), start: int, target: Option<int>,
                            path: seq<int>, steps: seq<PathStep<W>>, w: W, state: int)
    requires Valid(ag)
  {
    && |path| == |steps| + 1 && path[0] == start
    && NoDuplicates(path)
    && (forall i :: 0 <= i < |steps| ==> StepFollowsRule(ag, env, path, steps, i))
    && (target.Some? ==> target.value !in path[..|steps|])
    && (forall i :: 0 <= i < |steps| - 1 ==> !steps[i].done)
    && (|steps| == 0 ==> w == reset.0 && state == reset.1)
    && (|steps| > 0 ==> steps[0].world == reset.0 && steps[0].state == reset.1)
    && (forall i :: 0 <= i < |steps| - 1 ==>
          var o := env.step(steps[i].world, steps[i].action);
          o.world == steps[i + 1].world && o.next == steps[i + 1].state)
    && (|steps| > 0 ==>
          var o := env.step(steps[|steps| - 1].world, steps[|steps| - 1].action);
          o.world == w && o.next == state)
  }

  /** `generate_learning_path`: the rollout ends with an `IndexError` only when it
      reaches a state that is not a row of the Q-table, and otherwise after at most
      `max_steps` steps. When it stops before the budget without the environment
      reporting done, either the target was reached or no unvisited available action was
      left. */
  method GenerateLearningPath<W>(ag: Agent, env: PathEnv<W>, world: W, start: int,
                                 target: Option<int>, maxSteps: int)
    returns (r: Result<Rollout<W>, AgentError>)
    requires Valid(ag)
    ensures r.Ok? ==> Rolled(ag, env, env.reset(world, start), start, target,
                             r.value.path, r.value.steps, r.value.finalWorld, r.value.finalState)
    ensures r.Ok? ==> |r.value.steps| <= if maxSteps > 0 then maxSteps else 0
    ensures r.Ok? ==>
      var ro := r.value;
      |ro.steps| < maxSteps && (ro.steps == [] || !ro.steps[|ro.steps| - 1].done) ==>
        && RowOf(ag, ro.finalState).Some?
        && ((target.Some? && target.value in ro.path)
            || ValidActions(RowOf(ag, ro.finalState).value, Seen(ro.path), env.available(ro.finalWorld, ro.finalState)) == [])
    ensures r.Err? ==> r.error == IndexError
    ensures r.Err? ==>
      exists path: seq<int>, steps: seq<PathStep<W>>, w: W, state: int ::
        && Rolled(ag, env, env.reset(world, start), start, target, path, steps, w, state)
        && |steps| < maxSteps
        && (steps == [] || !steps[|steps| - 1].done)
        && RowOf(ag, state).None?
  {
    var reset := env.reset(world, start);
    var w, state := reset.0, reset.1;
    var path, steps: seq<PathStep<W>> := [start], [];
    while |steps| < maxSteps
      invariant Rolled(ag, env, reset, start, target, path, steps, w, state)
      invariant |steps| <= if maxSteps > 0 then maxSteps else 0
      invariant |steps| > 0 ==> !steps[|steps| - 1].done
      decreases maxSteps - |steps|
    {
      var row := RowOf(ag, state);
      if row.None? {
        assert Rolled(ag, env, reset, start, target, path, steps, w, state);
        return Err(IndexError);
      }
      var visited := Seen(path);
      var valid := ValidActions(row.value, visited, env.available(w, state));
      if valid == [] || (target.Some? && target.value in visited) {
        return Ok(Rollout(path, steps, w, state));
      }
      var action := BestAction(row.value, valid);
      var out := env.step(w, action);
      var st := PathStep(w, state, row.value, valid, action, out.done);
      RolledExtends(ag, env, reset, start, target, path, steps, w, state, st);
      path, steps := path + [action], steps + [st];
      w, state := out.world, out.next;
      if out.done {
        return Ok(Rollout(path, steps, w, state));
      }
    }
    return Ok(Rollout(path, steps, w, state));
  }

  /** Taking the greedy step from where the environment stands extends a rollout. */
  lemma RolledExtends<W>(ag: Agent, env: PathEnv<W>, reset: (W, int), start: int, target: Option<int>,
                         path: seq<int>, steps: seq<PathStep<W>>, w: W, state: int, st: PathStep<W>)
    requires Valid(ag)
    requires Rolled(ag, env, reset, start, target, path, steps, w, state)
    requires |steps| > 0 ==> !steps[|steps| - 1].done
    requires st.world == w && st.state == state
    requires RowOf(ag, state) == Some(st.row)
    requires st.valid == ValidActions(st.row, Seen(path), env.available(w, state)) && st.valid != []
    requires target.Some? ==> target.value !in Seen(path)
    requires st.action == BestAction(st.row, st.valid)
    requires env.step(w, st.action).done == st.done
    ensures Rolled(ag, env, reset, start, target, path + [st.action], steps + [st],
                   env.step(w, st.action).world, env.step(w, st.action).next)
  {
    var path', steps' := path + [st.action], steps + [st];
    AppendKeepsRule(ag, env, path, steps, st);
    assert path'[..|steps'|] == path;
    assert st.action !in path;
    assert NoDuplicates(path') by {
      forall i, j | 0 <= i < j < |path'| ensures path'[i] != path'[j] {
        if j == |path| {
          assert path'[i] == path[i];
        }
      }
    }
  }

  /** Every concept a rollout appends was available from the state it was taken in, not
      yet on the path, an action index, and the greedy choice: no unvisited available
      action has a larger Q-value, and none with a lower index has an equal one. */
  lemma RolledStepsAreGreedy<W>(ag: Agent, env: PathEnv<W>, reset: (W, int), start: int, target: Option<int>,
                                path: seq<int>, steps: seq<PathStep<W>>, w: W, state: int, i: nat)
    requires Valid(ag) && Rolled(ag, env, reset, start, target, path, steps, w, state) && i < |steps|
    ensures path[i + 1] in env.available(steps[i].world, steps[i].state) && path[i + 1] !in path[..i + 1]
    ensures 0 <= path[i + 1] < ag.actionSize == |steps[i].row|
    ensures forall v: nat :: v < ag.actionSize && Eligible(v, Seen(path[..i + 1]), env.available(steps[i].world, steps[i].state)) ==>
      steps[i].row[v] <= steps[i].row[path[i + 1]]
    ensures forall v: nat :: v < path[i + 1] && Eligible(v, Seen(path[..i + 1]), env.available(steps[i].world, steps[i].state)) ==>
      steps[i].row[v] < steps[i].row[path[i + 1]]
  {
    assert StepFollowsRule(ag, env, path, steps, i);
  }

  /** A rollout whose target is its start takes no step. */
  lemma TargetAtStartTakesNoStep<W>(ag: Agent, env: PathEnv<W>, reset: (W, int), start: int,
                                    path: seq<int>, steps: seq<PathStep<W>>, w: W, state: int)
    requires Valid(ag) && Rolled(ag, env, reset, start, Some(start), path, steps, w, state)
    ensures steps == [] && path == [start]
  {
  }

  /** Appending a step that follows the rule keeps every earlier step's rule. */
  lemma AppendKeepsRule<W>(ag: Agent, env: PathEnv<W>, path: seq<int>, steps: seq<PathStep<W>>, st: PathStep<W>)
    requires Valid(ag) && |path| == |steps| + 1
    requires forall i :: 0 <= i < |steps| ==> StepFollowsRule(ag, env, path, steps, i)
    requires RowOf(ag, st.state) == Some(st.row)
    requires st.valid == ValidActions(st.row, Seen(path), env.available(st.world, st.state)) && st.valid != []
    requires st.action == BestAction(st.row, st.valid)
    requires env.step(st.world, st.action).done == st.done
    ensures forall i :: 0 <= i <= |steps| ==> StepFollowsRule(ag, env, path + [st.action], steps + [st], i)
  {
    var path', steps' := path + [st.action], steps + [st];
    forall i | 0 <= i <= |steps| ensures StepFollowsRule(ag, env, path', steps', i) {
      assert path'[..i + 1] == path[..i + 1];
      if i == |steps| {
        assert path[..i + 1] == path;
      } else {
        assert StepFollowsRule(ag, env, path, steps, i);
      }
    }
  }
}

=== FILE: pytext.dfy ===
/** The Python `str` operations the modelled code relies on, defined on `seq<char>`.
    Case mapping covers the ASCII letters only; whitespace is the set that Python's
    `str.isspace` accepts among ASCII, Latin-1 and the general-punctuation spaces. */
module PyText {
  import opened Wrappers

  // ---------------------------------------------------------------------------
  // Characters

  /** `c.isspace()`. */
  predicate IsSpace(c: char) {
    || c == ' ' || c == '\t' || c == '\n' || c == '\r' || c == '\U{B}' || c == '\U{C}'
    || ('\U{1C}' <= c <= '\U{1F}') || c == '\U{85}' || c == '\U{A0}' || c == '\U{1680}'
    || ('\U{2000}' <= c <= '\U{200A}') || c == '\U{2028}' || c == '\U{2029}'
    || c == '\U{202F}' || c == '\U{205F}' || c == '\U{3000}'
  }

  predicate IsUpper(c: char) { 'A' <= c <= 'Z' }

  predicate IsLowerLetter(c: char) { 'a' <= c <= 'z' }

  /** A cased character, in the sense `str.title` uses. */
  predicate IsLetter(c: char) { IsUpper(c) || IsLowerLetter(c) }

  function LowerChar(c: char): char {
    if IsUpper(c) then (c as int + 32) as char else c
  }

  function UpperChar(c: char): char {
    if IsLowerLetter(c) then (c as int - 32) as char else c
  }

  predicate IsDigit(c: char) { '0' <= c <= '9' }

  // ---------------------------------------------------------------------------
  // lower()

  /** `s.lower()`. */
  function Lower(s: string): (r: string)
    ensures |r| == |s|
    ensures forall i :: 0 <= i < |s| ==> r[i] == LowerChar(s[i])
  {
    seq(|s|, i requires 0 <= i < |s| => LowerChar(s[i]))
  }

  lemma LowerIdempotent(s: string)
    ensures Lower(Lower(s)) == Lower(s)
  {
  }

  lemma LowerConcat(a: string, b: string)
    ensures Lower(a + b) == Lower(a) + Lower(b)
  {
  }

  // ---------------------------------------------------------------------------
  // strip()

  function StripLeft(s: string): (r: string)
    ensures |r| <= |s| && r == s[|s| - |r|..]
    ensures forall i :: 0 <= i < |s| - |r| ==> IsSpace(s[i])
    ensures r == [] || !IsSpace(r[0])
    decreases |s|
  {
    if |s| > 0 && IsSpace(s[0]) then StripLeft(s[1..]) else s
  }

  function StripRight(s: string): (r: string)
    ensures |r| <= |s| && r == s[..|r|]
    ensures forall i :: |r| <= i < |s| ==> IsSpace(s[i])
    ensures r == [] || !IsSpace(r[|r| - 1])
    decreases |s|
  {
    if |s| > 0 && IsSpace(s[|s| - 1]) then StripRight(s[..|s| - 1]) else s
  }

  /** `s.strip()`: the text between the leading and the trailing whitespace. */
  function Strip(s: string): (r: string)
    ensures |r| <= |s|
    ensures r == [] || (!IsSpace(r[0]) && !IsSpace(r[|r| - 1]))
  {
    StripRight(StripLeft(s))
  }

  /** A string without whitespace at either end is its own strip. */
  lemma StripUnchanged(s: string)
    requires s == [] || (!IsSpace(s[0]) && !IsSpace(s[|s| - 1]))
    ensures Strip(s) == s
  {
  }

  lemma StripIdempotent(s: string)
    ensures Strip(Strip(s)) == Strip(s)
  {
    StripUnchanged(Strip(s));
  }

  lemma {:induction false} LowerStripLeft(s: string)
    ensures Lower(StripLeft(s)) == StripLeft(Lower(s))
    decreases |s|
  {
    if |s| > 0 && IsSpace(s[0]) {
      assert Lower(s)[1..] == Lower(s[1..]);
      LowerStripLeft(s[1..]);
    }
  }

  lemma {:induction false} LowerStripRight(s: string)
    ensures Lower(StripRight(s)) == StripRight(Lower(s))
    decreases |s|
  {
    if |s| > 0 && IsSpace(s[|s| - 1]) {
      assert Lower(s)[..|s| - 1] == Lower(s[..|s| - 1]);
      LowerStripRight(s[..|s| - 1]);
    }
  }

  /** Lowering never creates or removes whitespace, so it commutes with `strip()`. */
  lemma LowerStrip(s: string)
    ensures Lower(Strip(s)) == Strip(Lower(s))
  {
    LowerStripLeft(s);
    LowerStripRight(StripLeft(s));
  }

  // ---------------------------------------------------------------------------
  // split() with no argument

  /** The end of the run of non-whitespace characters starting at `i`. */
  function WordEnd(s: string, i: nat): (j: nat)
    requires i <= |s|
    ensures i <= j <= |s|
    ensures j < |s| ==> IsSpace(s[j])
    ensures forall k :: i <= k < j ==> !IsSpace(s[k])
    decreases |s| - i
  {
    if i == |s| || IsSpace(s[i]) then i else WordEnd(s, i + 1)
  }

  /** A non-empty string without whitespace. */
  predicate IsWord(w: string) {
    w != [] && forall k :: 0 <= k < |w| ==> !IsSpace(w[k])
  }

  /** `s.split()`: the maximal runs of non-whitespace characters, in order. */
  function Words(s: string): (r: seq<string>)
    ensures forall i :: 0 <= i < |r| ==> IsWord(r[i])
    decreases |s|
  {
    var t := StripLeft(s);
    if t == [] then []
    else
      var j := FirstWordEnd(t);
      [t[..j]] + Words(t[j..])
  }

  /** The end of the first word of a string that starts with a non-whitespace character. */
  function FirstWordEnd(t: string): (j: nat)
    requires t != [] && !IsSpace(t[0])
    ensures 1 <= j <= |t| && IsWord(t[..j])
    ensures forall k :: 0 <= k < j ==> !IsSpace(t[k])
  {
    var j := WordEnd(t, 0);
    assert forall k :: 0 <= k < j ==> t[..j][k] == t[k];
    j
  }

  /** The characters of `s` that are not whitespace. */
  function RemoveSpaces(s: string): string
    decreases |s|
  {
    if s == [] then []
    else (if IsSpace(s[0]) then [] else [s[0]]) + RemoveSpaces(s[1..])
  }

  function Concat(parts: seq<string>): string
    decreases |parts|
  {
    if parts == [] then [] else parts[0] + Concat(parts[1..])
  }

  lemma {:induction false} RemoveSpacesAppend(a: string, b: string)
    ensures RemoveSpaces(a + b) == RemoveSpaces(a) + RemoveSpaces(b)
    decreases |a|
  {
    if a != [] {
      assert (a + b)[0] == a[0];
      assert (a + b)[1..] == a[1..] + b;
      RemoveSpacesAppend(a[1..], b);
      var h: string := if IsSpace(a[0]) then [] else [a[0]];
      calc {
        RemoveSpaces(a + b);
        h + RemoveSpaces(a[1..] + b);
        h + (RemoveSpaces(a[1..]) + RemoveSpaces(b));
        (h + RemoveSpaces(a[1..])) + RemoveSpaces(b);
      }
    } else {
      assert a + b == b;
    }
  }

  lemma {:induction false} RemoveSpacesOfWord(w: string)
    requires forall k :: 0 <= k < |w| ==> !IsSpace(w[k])
    ensures RemoveSpaces(w) == w
    decreases |w|
  {
    if w != [] {
      RemoveSpacesOfWord(w[1..]);
    }
  }

  lemma {:induction false} RemoveSpacesOfSpaces(w: string)
    requires forall k :: 0 <= k < |w| ==> IsSpace(w[k])
    ensures RemoveSpaces(w) == []
    decreases |w|
  {
    if w != [] {
      RemoveSpacesOfSpaces(w[1..]);
    }
  }

  lemma ConcatCons(w: string, rest: seq<string>)
    ensures Concat([w] + rest) == w + Concat(rest)
  {
    assert ([w] + rest)[1..] == rest;
  }

  /** Leading whitespace contributes nothing to the non-whitespace text. */
  lemma {:induction false} RemoveSpacesStripLeft(s: string)
    ensures RemoveSpaces(StripLeft(s)) == RemoveSpaces(s)
    decreases |s|
  {
    if |s| > 0 && IsSpace(s[0]) {
      RemoveSpacesStripLeft(s[1..]);
    }
  }

  /** Cutting a string after its first word. */
  lemma RemoveSpacesFirstWord(t: string, j: nat)
    requires j <= |t|
    requires forall k :: 0 <= k < j ==> !IsSpace(t[k])
    ensures RemoveSpaces(t) == t[..j] + RemoveSpaces(t[j..])
  {
    assert t == t[..j] + t[j..];
    RemoveSpacesAppend(t[..j], t[j..]);
    RemoveSpacesOfWord(t[..j]);
  }

  /** The words of `s.split()` are exactly the non-whitespace text of `s`: nothing is
      lost, nothing is added, and the order is kept. */
  lemma {:induction false} WordsCoverText(s: string)
    ensures Concat(Words(s)) == RemoveSpaces(s)
    decreases |s|
  {
    var t := StripLeft(s);
    RemoveSpacesStripLeft(s);
    if t != [] {
      var j := FirstWordEnd(t);
      assert Words(s) == [t[..j]] + Words(t[j..]);
      ConcatCons(t[..j], Words(t[j..]));
      RemoveSpacesFirstWord(t, j);
      WordsCoverText(t[j..]);
    }
  }

  // ---------------------------------------------------------------------------
  // split(sep) and join

  /** `s.split(sep)` for a one-character separator. */
  function Split(s: string, sep: char): (r: seq<string>)
    ensures |r| >= 1
    ensures forall i :: 0 <= i < |r| ==> sep !in r[i]
    decreases |s|
  {
    if |s| == 0 then [""]
    else
      var rest := Split(s[1..], sep);
      if s[0] == sep then [""] + rest
      else [[s[0]] + rest[0]] + rest[1..]
  }

  /** `sep.join(parts)`. */
  function Join(parts: seq<string>, sep: string): string
    decreases |parts|
  {
    if |parts| == 0 then ""
    else if |parts| == 1 then parts[0]
    else parts[0] + sep + Join(parts[1..], sep)
  }

  lemma JoinCons(p: string, rest: seq<string>, sep: string)
    requires |rest| >= 1
    ensures Join([p] + rest, sep) == p + sep + Join(rest, sep)
  {
    assert ([p] + rest)[1..] == rest;
  }

  /** Joining the pieces of a split with the separator gives the string back. */
  lemma {:induction false} JoinSplit(s: string, sep: char)
    ensures Join(Split(s, sep), [sep]) == s
    decreases |s|
  {
    if |s| > 0 {
      var rest := Split(s[1..], sep);
      JoinSplit(s[1..], sep);
      if s[0] == sep {
        JoinCons("", rest, [sep]);
      } else if |rest| == 1 {
      } else {
        JoinCons([s[0]] + rest[0], rest[1..], [sep]);
        JoinCons(rest[0], rest[1..], [sep]);
        assert [rest[0]] + rest[1..] == rest;
      }
    }
  }

  lemma {:induction false} SplitPrefix(a: string, t: string, sep: char)
    requires sep !in a
    ensures Split(a + t, sep) == [a + Split(t, sep)[0]] + Split(t, sep)[1..]
    decreases |a|
  {
    if a != [] {
      var st := Split(t, sep);
      assert (a + t)[0] == a[0];
      assert (a + t)[1..] == a[1..] + t;
      SplitPrefix(a[1..], t, sep);
      var rest := Split(a[1..] + t, sep);
      assert rest[0] == a[1..] + st[0];
      assert rest[1..] == st[1..];
      assert [a[0]] + (a[1..] + st[0]) == a + st[0];
    } else {
      var st := Split(t, sep);
      assert a + t == t;
      assert a + st[0] == st[0];
      assert [st[0]] + st[1..] == st;
    }
  }

  /** Splitting a join of separator-free pieces gives the pieces back. */
  lemma {:induction false} SplitJoin(parts: seq<string>, sep: char)
    requires |parts| >= 1
    requires forall i :: 0 <= i < |parts| ==> sep !in parts[i]
    ensures Split(Join(parts, [sep]), sep) == parts
    decreases |parts|
  {
    if |parts| == 1 {
      SplitPrefix(parts[0], "", sep);
      assert parts[0] + "" == parts[0];
      assert Split("", sep) == [""];
      assert [parts[0]] == parts;
    } else {
      var tail := Join(parts[1..], [sep]);
      SplitJoin(parts[1..], sep);
      JoinCons(parts[0], parts[1..], [sep]);
      assert [parts[0]] + parts[1..] == parts;
      assert Join(parts, [sep]) == parts[0] + ([sep] + tail);
      SplitPrefix(parts[0], [sep] + tail, sep);
      assert ([sep] + tail)[1..] == tail;
      var st := Split([sep] + tail, sep);
      assert st == [""] + parts[1..];
      assert st[0] == "" && st[1..] == parts[1..];
      assert parts[0] + st[0] == parts[0];
    }
  }

  // ---------------------------------------------------------------------------
  // Membership, prefixes, partition

  predicate IsPrefix(p: string, s: string) {
    |p| <= |s| && s[..|p|] == p
  }

  /** `needle in hay` for strings. */
  predicate Contains(hay: string, needle: string)
    decreases |hay|
  {
    IsPrefix(needle, hay) || (|hay| > 0 && Contains(hay[1..], needle))
  }

  lemma {:induction false} ContainsSpan(hay: string, needle: string, i: nat)
    requires i + |needle| <= |hay| && hay[i..i + |needle|] == needle
    ensures Contains(hay, needle)
    decreases i
  {
    if i > 0 {
      assert hay[1..][i - 1..i - 1 + |needle|] == needle;
      ContainsSpan(hay[1..], needle, i - 1);
    }
  }

  /** Every string is a substring of every longer string that ends with it. */
  lemma ContainsSelf(s: string)
    ensures Contains(s, s)
  {
    ContainsSpan(s, s, 0);
  }

  /** `s.split(c, 1)[1]` when `c in s`: the text after the first `c`. */
  function AfterFirst(s: string, c: char): (r: string)
    requires c in s
    ensures |r| < |s| && r == s[|s| - |r|..]
    ensures s[|s| - |r| - 1] == c && c !in s[..|s| - |r| - 1]
    decreases |s|
  {
    if s[0] == c then s[1..] else AfterFirst(s[1..], c)
  }

  // ---------------------------------------------------------------------------
  // title()

  function TitleFrom(s: string, prevCased: bool): (r: string)
    ensures |r| == |s|
    decreases |s|
  {
    if s == [] then []
    else
      var c := s[0];
      var c' := if !IsLetter(c) then c else if prevCased then LowerChar(c) else UpperChar(c);
      [c'] + TitleFrom(s[1..], IsLetter(c))
  }

  /** `s.title()`: each run of letters starts upper-case and continues lower-case. */
  function Title(s: string): (r: string)
    ensures |r| == |s|
  {
    TitleFrom(s, false)
  }

  lemma {:induction false} LowerTitleFrom(s: string, prevCased: bool)
    ensures Lower(TitleFrom(s, prevCased)) == Lower(s)
    decreases |s|
  {
    if s != [] {
      LowerTitleFrom(s[1..], IsLetter(s[0]));
      LowerConcat([TitleFrom(s, prevCased)[0]], TitleFrom(s[1..], IsLetter(s[0])));
      LowerConcat([s[0]], s[1..]);
      assert s == [s[0]] + s[1..];
    }
  }

  /** `title()` only changes letter case. */
  lemma LowerTitle(s: string)
    ensures Lower(Title(s)) == Lower(s)
  {
    LowerTitleFrom(s, false);
  }

  // ---------------------------------------------------------------------------
  // int() and str() on decimal integers

  predicate AllDigits(s: string) {
    forall i :: 0 <= i < |s| ==> IsDigit(s[i])
  }

  function DigitValue(c: char): nat
    requires IsDigit(c)
  {
    c as int - '0' as int
  }

  function DigitsValue(s: string): nat
    requires AllDigits(s)
    decreases |s|
  {
    if s == [] then 0 else DigitsValue(s[..|s| - 1]) * 10 + DigitValue(s[|s| - 1])
  }

  /** `int(s)` on a decimal literal: surrounding whitespace, an optional sign and at
      least one digit; `None` stands for the `ValueError` Python raises otherwise. */
  function ParseInt(s: string): Option<int> {
    var t := Strip(s);
    if |t| > 0 && (t[0] == '+' || t[0] == '-') then
      var d := t[1..];
      if |d| > 0 && AllDigits(d) then
        Some(if t[0] == '-' then -(DigitsValue(d) as int) else DigitsValue(d))
      else None
    else if |t| > 0 && AllDigits(t) then Some(DigitsValue(t))
    else None
  }

  function DigitChar(d: nat): (c: char)
    requires d < 10
    ensures IsDigit(c) && DigitValue(c) == d
  {
    ('0' as int + d) as char
  }

  /** `str(n)` for a natural number. */
  function NatToString(n: nat): (r: string)
    ensures |r| > 0 && AllDigits(r)
    decreases n
  {
    if n < 10 then [DigitChar(n)] else NatToString(n / 10) + [DigitChar(n % 10)]
  }

  lemma {:induction false} DigitsValueOfNatToString(n: nat)
    ensures DigitsValue(NatToString(n)) == n
    decreases n
  {
    var r := NatToString(n);
    if n >= 10 {
      DigitsValueOfNatToString(n / 10);
      assert r[..|r| - 1] == NatToString(n / 10);
    }
  }

  /** `int(str(n)) == n`. */
  lemma ParseNatToString(n: nat)
    ensures ParseInt(NatToString(n)) == Some(n)
  {
    var r := NatToString(n);
    StripUnchanged(r);
    DigitsValueOfNatToString(n);
  }
}

=== FILE: qtable.dfy ===
/** The numpy operations the agents perform on their Q-tables: a zero matrix, Python's
    index wrap-around, a row maximum and the first index of a row's maximum. */
module QTable {
  import opened Wrappers

  type Table = seq<seq<real>>

  /** `rows` rows of `cols` entries each. */
  predicate HasShape(q: Table, rows: nat, cols: nat) {
    |q| == rows && forall i :: 0 <= i < rows ==> |q[i]| == cols
  }

  /** `np.zeros((rows, cols))`. */
  function Zeros(rows: nat, cols: nat): (q: Table)
    ensures HasShape(q, rows, cols)
    ensures forall i, j :: 0 <= i < rows && 0 <= j < cols ==> q[i][j] == 0.0
  {
    seq(rows, _ => seq(cols, _ => 0.0))
  }

  /** Python indexing of a length-`n` sequence: `-n <= i < n` is accepted and a negative
      index counts from the end; anything else raises `IndexError` (`None`). */
  function PyIndex(n: nat, i: int): (r: Option<nat>)
    ensures r.Some? <==> -(n as int) <= i < n
    ensures r.Some? ==> r.value < n && (r.value == i || r.value == i + n)
    ensures r.Some? && i >= 0 ==> r.value == i
  {
    if 0 <= i < n then Some(i)
    else if -(n as int) <= i < 0 then Some(i + n)
    else None
  }

  /** `np.argmax(row)`: the first index holding the row's maximum. */
  function ArgMax(row: seq<real>): (k: nat)
    requires |row| > 0
    ensures k < |row|
    ensures forall i :: 0 <= i < |row| ==> row[i] <= row[k]
    ensures forall i :: 0 <= i < k ==> row[i] < row[k]
    decreases |row|
  {
    if |row| == 1 then 0
    else
      var k := ArgMax(row[..|row| - 1]);
      if row[|row| - 1] > row[k] then |row| - 1 else k
  }

  /** `np.max(row)`. */
  function MaxOf(row: seq<real>): (m: real)
    requires |row| > 0
    ensures m in row
    ensures forall i :: 0 <= i < |row| ==> row[i] <= m
  {
    row[ArgMax(row)]
  }

  /** A maximum is unique: any element at least as large as every other is the maximum. */
  lemma MaxOfCharacterised(row: seq<real>, m: real)
    requires m in row && forall i :: 0 <= i < |row| ==> row[i] <= m
    ensures MaxOf(row) == m
  {
    var j :| 0 <= j < |row| && row[j] == m;
    assert row[ArgMax(row)] >= row[j];
  }

  /** `q[s][a] = v`. */
  function Set(q: Table, s: nat, a: nat, v: real): (r: Table)
    requires s < |q| && a < |q[s]|
    ensures |r| == |q| && |r[s]| == |q[s]|
    ensures forall i :: 0 <= i < |q| && i != s ==> r[i] == q[i]
    ensures forall j :: 0 <= j < |q[s]| && j != a ==> r[s][j] == q[s][j]
    ensures r[s][a] == v
  {
    q[s := q[s][a := v]]
  }

  /** Setting an entry keeps the table's shape. */
  lemma SetKeepsShape(q: Table, rows: nat, cols: nat, s: nat, a: nat, v: real)
    requires HasShape(q, rows, cols) && s < rows && a < cols
    ensures HasShape(Set(q, s, a, v), rows, cols)
  {
  }
}

=== FILE: query_processor.dfy ===
/** Concept recognition in a user question (src/query_processor.py): first a concept name
    that occurs in the cleaned question, then a concept name that contains one of the
    question's non-common words. */
module QueryProcessor {
  import opened Wrappers
  import opened KnowledgeBase
  import KM = KnowledgeManager
  import PyText

  /** The words `_extract_keywords` drops. */
  const CommonWords: seq<string> :=
    ["what", "is", "a", "the", "how", "does", "do", "explain", "tell", "me", "about"]

  /** The words of `ws` that are not in `drop`, in order. */
  function Without(ws: seq<string>, drop: seq<string>): (r: seq<string>)
    ensures |r| <= |ws|
    ensures forall w :: w in r <==> w in ws && w !in drop
    decreases |ws|
  {
    if ws == [] then []
    else (if ws[0] in drop then [] else [ws[0]]) + Without(ws[1..], drop)
  }

  /** Removing words from a concatenation removes them from each part: the kept words
      stay in their order. */
  lemma {:induction false} WithoutAppend(a: seq<string>, b: seq<string>, drop: seq<string>)
    ensures Without(a + b, drop) == Without(a, drop) + Without(b, drop)
    decreases |a|
  {
    if a == [] {
      assert a + b == b;
    } else {
      assert (a + b)[0] == a[0];
      assert (a + b)[1..] == a[1..] + b;
      WithoutAppend(a[1..], b, drop);
    }
  }

  /** `r` is `ws` with some of its elements left out, the rest kept in order. */
  predicate SubsequenceOf(r: seq<string>, ws: seq<string>)
    decreases |ws|
  {
    if r == [] then true
    else if ws == [] then false
    else (r[0] == ws[0] && SubsequenceOf(r[1..], ws[1..])) || SubsequenceOf(r, ws[1..])
  }

  /** Removing words keeps the other words in their order and with their repetitions:
      every word not dropped occurs as often as in `ws`, and a dropped word not at all. */
  lemma {:induction false} WithoutKeepsOrder(ws: seq<string>, drop: seq<string>)
    ensures SubsequenceOf(Without(ws, drop), ws)
    ensures forall w :: multiset(Without(ws, drop))[w] == if w in drop then 0 else multiset(ws)[w]
    decreases |ws|
  {
    if ws != [] {
      WithoutKeepsOrder(ws[1..], drop);
      var rest := Without(ws[1..], drop);
      assert ws == [ws[0]] + ws[1..];
      assert multiset(ws) == multiset{ws[0]} + multiset(ws[1..]);
      if ws[0] in drop {
        assert Without(ws, drop) == rest;
        if rest != [] {
          assert SubsequenceOf(rest, ws[1..]);
        }
      } else {
        assert Without(ws, drop) == [ws[0]] + rest;
        assert ([ws[0]] + rest)[1..] == rest;
        assert multiset([ws[0]] + rest) == multiset{ws[0]} + multiset(rest);
      }
    }
  }

  /** `_extract_keywords`: the whitespace-separated words of the query that are not common
      words. */
  function ExtractKeywords(query: string): (r: seq<string>)
    ensures forall w :: w in r <==> w in PyText.Words(query) && w !in CommonWords
    ensures forall w :: w in r ==> PyText.IsWord(w)
  {
    var ws := PyText.Words(query);
    assert forall w :: w in ws ==> PyText.IsWord(w);
    Without(ws, CommonWords)
  }

  /** The keywords are the query's words in their order, with their repetitions, less the
      common words. */
  lemma ExtractKeywordsKeepsOrder(query: string)
    ensures SubsequenceOf(ExtractKeywords(query), PyText.Words(query))
    ensures forall w :: multiset(ExtractKeywords(query))[w] == (if w in CommonWords then 0 else multiset(PyText.Words(query))[w])
  {
    WithoutKeepsOrder(PyText.Words(query), CommonWords);
  }

  /** The cleaning step: `query.lower().strip()`. */
  function Clean(query: string): (r: string)
    ensures |r| <= |query|
    ensures PyText.Lower(r) == r
    ensures PyText.Strip(r) == r
  {
    PyText.LowerStrip(PyText.Lower(query));
    PyText.LowerIdempotent(query);
    PyText.StripIdempotent(PyText.Lower(query));
    PyText.Strip(PyText.Lower(query))
  }

  /** `concept in query`. */
  predicate InQuery(q: string, concept: string) {
    PyText.Contains(q, concept)
  }

  /** `any(keyword in concept for keyword in keywords)`. */
  predicate HasKeyword(keywords: seq<string>, concept: string) {
    exists i :: 0 <= i < |keywords| && PyText.Contains(concept, keywords[i])
  }

  /** The index of the first element of `s` satisfying `p`. */
  function FirstWhere(s: seq<string>, p: string -> bool): (r: Option<nat>)
    ensures r.Some? ==> r.value < |s| && p(s[r.value])
    ensures r.Some? ==> forall j :: 0 <= j < r.value ==> !p(s[j])
    ensures r.None? ==> forall j :: 0 <= j < |s| ==> !p(s[j])
    decreases |s|
  {
    if s == [] then None
    else if p(s[0]) then Some(0)
    else
      match FirstWhere(s[1..], p)
      case None => None
      case Some(i) => Some(i + 1)
  }

  /** The search of `process_query` on a cleaned query. When some concept occurs in the
      query, the first such concept in key order is the answer; only when none does, the
      first concept containing a keyword of the query is the answer, and `None` when
      there is none. */
  function Recognise(kb: KB, q: string): (r: Option<string>)
    ensures r.Some? ==> r.value in KM.GetAllConcepts(kb)
    ensures var keys := KM.GetAllConcepts(kb);
      && ((exists i :: 0 <= i < |keys| && InQuery(q, keys[i])) ==>
            exists i :: 0 <= i < |keys| && r == Some(keys[i]) && InQuery(q, keys[i])
                        && forall j :: 0 <= j < i ==> !InQuery(q, keys[j]))
      && ((forall i :: 0 <= i < |keys| ==> !InQuery(q, keys[i])) ==>
            && (r.None? <==> forall i :: 0 <= i < |keys| ==> !HasKeyword(ExtractKeywords(q), keys[i]))
            && (r.Some? ==> exists i :: 0 <= i < |keys| && r == Some(keys[i])
                                        && HasKeyword(ExtractKeywords(q), keys[i])
                                        && forall j :: 0 <= j < i ==> !HasKeyword(ExtractKeywords(q), keys[j])))
  {
    var keys := KM.GetAllConcepts(kb);
    match FirstWhere(keys, c => InQuery(q, c))
    case Some(i) => Some(keys[i])
    case None =>
      var keywords := ExtractKeywords(q);
      match FirstWhere(keys, c => HasKeyword(keywords, c))
      case Some(i) => Some(keys[i])
      case None => None
  }

  /** `process_query`: an empty or missing query gives `None`; any other is cleaned and
      searched. */
  function ProcessQuery(kb: KB, query: Option<string>): (r: Option<string>)
    ensures query.None? || query == Some("") ==> r.None?
    ensures query.Some? && query.value != "" ==> r == Recognise(kb, Clean(query.value))
    ensures r.Some? ==> r.value in KM.GetAllConcepts(kb)
  {
    if query.None? || query.value == "" then None
    else Recognise(kb, Clean(query.value))
  }

  /** Cleaning lowercases, so lowercasing first changes nothing. */
  lemma CleanIgnoresLower(q: string)
    ensures Clean(PyText.Lower(q)) == Clean(q)
  {
    PyText.LowerIdempotent(q);
  }

  /** Title case differs from the original only in letter case, which cleaning removes. */
  lemma CleanIgnoresTitle(q: string)
    ensures Clean(PyText.Title(q)) == Clean(q)
  {
    PyText.LowerTitle(q);
  }

  /** Cleaning strips, so stripping first changes nothing. */
  lemma CleanIgnoresStrip(q: string)
    ensures Clean(PyText.Strip(q)) == Clean(q)
  {
    PyText.LowerStrip(q);
    PyText.StripIdempotent(PyText.Lower(q));
  }

  /** Two non-empty questions that clean to the same text find the same concept. */
  lemma SameCleanSameConcept(kb: KB, q: string, q': string)
    requires q != "" && q' != "" && Clean(q) == Clean(q')
    ensures ProcessQuery(kb, Some(q)) == ProcessQuery(kb, Some(q'))
  {
  }

  /** Neither the case of the question nor whitespace around it changes the concept found. */
  lemma ProcessQueryNormalises(kb: KB, query: string)
    ensures ProcessQuery(kb, Some(PyText.Lower(query))) == ProcessQuery(kb, Some(query))
    ensures ProcessQuery(kb, Some(PyText.Title(query))) == ProcessQuery(kb, Some(query))
    ensures PyText.Strip(query) != "" ==> ProcessQuery(kb, Some(PyText.Strip(query))) == ProcessQuery(kb, Some(query))
  {
    if query != "" {
      CleanIgnoresLower(query);
      SameCleanSameConcept(kb, PyText.Lower(query), query);
      CleanIgnoresTitle(query);
      SameCleanSameConcept(kb, PyText.Title(query), query);
      if PyText.Strip(query) != "" {
        CleanIgnoresStrip(query);
        SameCleanSameConcept(kb, PyText.Strip(query), query);
      }
    } else {
      assert PyText.Lower(query) == "" && PyText.Title(query) == "";
    }
  }
}

=== FILE: replay_buffer.dfy ===
/** The bounded replay buffer of replay_buffer.py: a `deque` with a maximum length, so an
    append to a full buffer drops the oldest experience, and a sample of at most the
    buffer's length drawn without replacement. */
module ReplayBuffer {
  import opened Wrappers
  import Sampling

  /** `items` is the deque from oldest to newest; `capacity` is its `maxlen`. */
  datatype Buffer<E> = Buffer(items: seq<E>, capacity: nat)

  /** `deque(maxlen=...)` rejects a negative length and `random.sample` a negative
      count; both raise `ValueError`. */
  datatype BufferError = ValueError

  const DefaultCapacity: nat := 10000

  predicate Valid<E>(b: Buffer<E>) {
    |b.items| <= b.capacity
  }

  /** The newest `n` elements of `s` (all of them when there are fewer). */
  function Last<E>(s: seq<E>, n: nat): (r: seq<E>)
    ensures |r| == if |s| < n then |s| else n
    ensures forall i :: 0 <= i < |r| ==> r[i] == s[|s| - |r| + i]
  {
    if |s| <= n then s else s[|s| - n..]
  }

  /** `ReplayBuffer(capacity)`. */
  function New<E>(capacity: int): (r: Result<Buffer<E>, BufferError>)
    ensures r.Err? <==> capacity < 0
    ensures r.Ok? ==> Valid(r.value) && Len(r.value) == 0 && r.value.capacity == capacity
  {
    if capacity < 0 then Err(ValueError) else Ok(Buffer([], capacity))
  }

  /** `__len__`. */
  function Len<E>(b: Buffer<E>): nat {
    |b.items|
  }

  /** `push`: append, dropping the oldest experience when the buffer is full. */
  function Push<E>(b: Buffer<E>, e: E): (r: Buffer<E>)
    requires Valid(b)
    ensures Valid(r) && r.capacity == b.capacity
    ensures Len(r) == if Len(b) < b.capacity then Len(b) + 1 else b.capacity
  {
    Buffer(Last(b.items + [e], b.capacity), b.capacity)
  }

  /** Below capacity a push appends; at capacity it drops the oldest and appends; with
      capacity 0 nothing is ever kept. */
  lemma PushAppendsOrRotates<E>(b: Buffer<E>, e: E)
    requires Valid(b)
    ensures Len(b) < b.capacity ==> Push(b, e).items == b.items + [e]
    ensures 0 < Len(b) == b.capacity ==> Push(b, e).items == b.items[1..] + [e]
    ensures b.capacity == 0 ==> Push(b, e).items == []
  {
  }

  /** Pushing every element of `es` in order. */
  function PushAll<E>(b: Buffer<E>, es: seq<E>): (r: Buffer<E>)
    requires Valid(b)
    ensures Valid(r) && r.capacity == b.capacity
    decreases |es|
  {
    if es == [] then b else PushAll(Push(b, es[0]), es[1..])
  }

  /** A suffix of `s` at least as long as the newest `n` elements has the same newest
      `n` elements. */
  lemma LastOfSuffix<E>(s: seq<E>, t: seq<E>, n: nat)
    requires |t| <= |s| && t == s[|s| - |t|..]
    requires |t| >= n || |t| == |s|
    ensures Last(t, n) == Last(s, n)
  {
  }

  /** Trimming to the newest `n` before appending more does not change the newest `n`
      after the append. */
  lemma LastThenAppend<E>(s: seq<E>, more: seq<E>, n: nat)
    ensures Last(Last(s, n) + more, n) == Last(s + more, n)
  {
    var whole := s + more;
    var t := Last(s, n) + more;
    assert t == whole[|whole| - |t|..];
    LastOfSuffix(whole, t, n);
  }

  /** However many experiences are pushed, the buffer holds exactly the newest ones that
      fit, oldest first. */
  lemma {:induction false} PushAllKeepsNewest<E>(b: Buffer<E>, es: seq<E>)
    requires Valid(b)
    ensures PushAll(b, es).items == Last(b.items + es, b.capacity)
    decreases |es|
  {
    if es == [] {
      assert b.items + es == b.items;
    } else {
      var b' := Push(b, es[0]);
      calc {
        PushAll(b, es).items;
        PushAll(b', es[1..]).items;
        { PushAllKeepsNewest(b', es[1..]); }
        Last(b'.items + es[1..], b.capacity);
        Last(Last(b.items + [es[0]], b.capacity) + es[1..], b.capacity);
        { LastThenAppend(b.items + [es[0]], es[1..], b.capacity); }
        Last(b.items + [es[0]] + es[1..], b.capacity);
        { assert b.items + [es[0]] + es[1..] == b.items + es; }
        Last(b.items + es, b.capacity);
      }
    }
  }

  /** The `k` elements of `sample` were taken from distinct positions of `items`. */
  ghost predicate DrawnWithoutReplacement<E>(sample: seq<E>, items: seq<E>) {
    exists idx: seq<nat> ::
      && |idx| == |sample| && Sampling.Distinct(idx)
      && (forall i :: 0 <= i < |idx| ==> idx[i] < |items| && sample[i] == items[idx[i]])
  }

  /** `sample`: a negative size raises; a size above the length is lowered to it; the
      result is that many experiences from distinct positions. The buffer itself is a
      value and is unchanged. */
  function Sample<E>(b: Buffer<E>, batchSize: int, draws: seq<nat>): (r: Result<seq<E>, BufferError>)
    ensures r.Err? <==> batchSize < 0
    ensures r.Ok? ==> |r.value| == if batchSize > Len(b) then Len(b) else batchSize
    ensures r.Ok? ==> DrawnWithoutReplacement(r.value, b.items)
  {
    if batchSize < 0 then Err(ValueError)
    else
      var k := if batchSize > Len(b) then Len(b) else batchSize;
      var idx := Sampling.SampleIndices(Len(b), k, draws);
      var sample := Sampling.Pick(b.items, idx);
      assert |idx| == |sample| && Sampling.Distinct(idx)
        && (forall i :: 0 <= i < |idx| ==> idx[i] < |b.items| && sample[i] == b.items[idx[i]]);
      Ok(sample)
  }

  /** Every choice of distinct positions is a possible sample. */
  lemma SampleCanReturnAny<E>(b: Buffer<E>, idx: seq<nat>)
    requires Sampling.Distinct(idx)
    requires forall i :: 0 <= i < |idx| ==> idx[i] < |b.items|
    ensures exists draws :: Sample(b, |idx|, draws) == Ok(Sampling.Pick(b.items, idx))
  {
    var pool := Sampling.Range(Len(b));
    assert forall i :: 0 <= i < |idx| ==> idx[i] in pool by {
      forall i | 0 <= i < |idx| ensures idx[i] in pool { assert pool[idx[i]] == idx[i]; }
    }
    Sampling.ChooseReachesEverySelection(pool, idx);
    var draws := Sampling.DrawsFor(pool, idx);
    assert Sample(b, |idx|, draws) == Ok(Sampling.Pick(b.items, idx));
  }
}

=== FILE: response_formatter.dfy ===
/** The Markdown explanation of a concept (src/response_formatter.py): a bold name and the
    definition, the explanation for the requested level with two fallbacks, and the
    related concepts when there are any. */
module ResponseFormatter {
  import opened Wrappers
  import opened KnowledgeBase
  import KM = KnowledgeManager
  import PyText

  /** `TypeError` is what Python raises when a non-string is appended to the response or
      joined; `Unrendered` marks the printed form of a nested object or of a list of
      examples, which the model does not spell out. */
  datatype FormatError = TypeError | Unrendered

  const DefaultLevel: string := "intermediate"
  const NoExplanation: string := "No explanation available."
  const RelatedHeading: string := "\n\n**Related concepts:** "

  /** `repr` of a list of strings, without Python's escaping of quotes inside items. */
  function ListRepr(items: seq<string>): string {
    "[" + PyText.Join(seq(|items|, i requires 0 <= i < |items| => "'" + items[i] + "'"), ", ") + "]"
  }

  /** `f"{v}"`. */
  function Render(v: Value): (r: Result<string, FormatError>)
    ensures v.Text? ==> r == Ok(v.s)
    ensures r.Err? <==> v.Levels? || v.ExampleList?
  {
    match v
    case Text(s) => Ok(s)
    case Scalar(repr, _) => Ok(repr)
    case Names(items) => Ok(ListRepr(items))
    case Levels(_) => Err(Unrendered)
    case ExampleList(_) => Err(Unrendered)
  }

  /** `f"{concept_name}"`, where a missing name prints as `None`. */
  function ShowName(name: Option<string>): string {
    match name
    case None => "None"
    case Some(n) => n
  }

  /** The answer for a concept that is missing or has an empty object. */
  function NotFound(name: Option<string>): string {
    "I don't have information about " + ShowName(name) + " in my knowledge base."
  }

  /** The key the explanation is read from: the requested level's, else the intermediate
      one, else the definition. */
  function ExplanationKey(c: Entry, level: string): (k: string)
    ensures k in c || k == "definition"
    ensures k == level + "_explanation" <==> level + "_explanation" in c
    ensures level + "_explanation" !in c && "intermediate_explanation" in c ==> k == "intermediate_explanation"
    ensures level + "_explanation" !in c && "intermediate_explanation" !in c ==> k == "definition"
  {
    var key := level + "_explanation";
    if key in c then key
    else if "intermediate_explanation" in c then "intermediate_explanation"
    else "definition"
  }

  /** `concept.get(explanation_key, "No explanation available.")`, which must be a string
      to be appended. */
  function ExplanationOf(c: Entry, level: string): (r: Result<string, FormatError>)
    ensures var k := ExplanationKey(c, level);
      && (k !in c ==> r == Ok(NoExplanation))
      && (k in c ==> (r.Ok? <==> c[k].Text?) && (r.Ok? ==> r.value == c[k].s))
    ensures r.Ok? && r.value != NoExplanation ==>
      exists k :: k in c && c[k] == Text(r.value) &&
        (k == level + "_explanation" || k == "intermediate_explanation" || k == "definition")
  {
    var k := ExplanationKey(c, level);
    if k !in c then Ok(NoExplanation)
    else match c[k]
      case Text(s) => Ok(s)
      case _ => Err(TypeError)
  }

  /** `concept.get("name", concept_name.title())`, printed. */
  function NameOf(c: Entry, name: string): (r: Result<string, FormatError>)
    ensures "name" !in c ==> r == Ok(PyText.Title(name))
    ensures "name" in c ==> r == Render(c["name"])
  {
    if "name" in c then Render(c["name"]) else Ok(PyText.Title(name))
  }

  /** Without a stored name, the header shows the asked-for name with only its letter case
      changed. */
  lemma DefaultNameDiffersOnlyInCase(c: Entry, name: string)
    requires "name" !in c
    ensures NameOf(c, name).Ok?
    ensures |NameOf(c, name).value| == |name|
    ensures PyText.Lower(NameOf(c, name).value) == PyText.Lower(name)
  {
    PyText.LowerTitle(name);
  }

  /** `concept.get('definition', '')`, printed. */
  function DefinitionOf(c: Entry): (r: Result<string, FormatError>)
    ensures "definition" !in c ==> r == Ok("")
    ensures "definition" in c ==> r == Render(c["definition"])
  {
    if "definition" in c then Render(c["definition"]) else Ok("")
  }

  /** The related-concepts paragraph: nothing when the stored value is missing or empty;
      otherwise the heading and `", ".join(related)`, which joins the characters of a
      string and rejects a list of examples or a scalar. */
  function RelatedSuffix(c: Entry): (r: Result<string, FormatError>)
    ensures "related_concepts" !in c || !Truthy(c["related_concepts"]) ==> r == Ok("")
    ensures "related_concepts" in c && c["related_concepts"].Names? && c["related_concepts"].items != [] ==>
      r == Ok(RelatedHeading + PyText.Join(c["related_concepts"].items, ", "))
    ensures r.Ok? && r.value != "" ==> "related_concepts" in c && Truthy(c["related_concepts"])
    ensures r.Ok? && r.value != "" ==> PyText.IsPrefix(RelatedHeading, r.value)
  {
    var related := if "related_concepts" in c then c["related_concepts"] else Names([]);
    if !Truthy(related) then Ok("")
    else
      match related
      case Names(items) => Ok(RelatedHeading + PyText.Join(items, ", "))
      case Text(s) => Ok(RelatedHeading + PyText.Join(seq(|s|, i requires 0 <= i < |s| => [s[i]]), ", "))
      case Levels(_) => Err(Unrendered)
      case ExampleList(_) => Err(TypeError)
      case Scalar(_, _) => Err(TypeError)
  }

  /** `format_explanation`. A concept that is missing or has an empty object gives exactly
      the not-found sentence. Otherwise the answer is the bold name, the definition, a
      blank line, the explanation, and the related-concepts paragraph. */
  function FormatExplanation(kb: KB, name: Option<string>, level: string): (r: Result<string, FormatError>)
    ensures var c := KM.GetConcept(kb, name);
      c.None? || c.value == map[] ==> r == Ok(NotFound(name))
    ensures var c := KM.GetConcept(kb, name);
      c.Some? && c.value != map[] ==>
        var n, d, e, s := NameOf(c.value, name.value), DefinitionOf(c.value), ExplanationOf(c.value, level), RelatedSuffix(c.value);
        && (r.Ok? <==> n.Ok? && d.Ok? && e.Ok? && s.Ok?)
        && (r.Ok? ==> r.value == "**" + n.value + ":** " + d.value + "\n\n" + e.value + s.value)
  {
    match KM.GetConcept(kb, name)
    case None => Ok(NotFound(name))
    case Some(c) =>
      if c == map[] then Ok(NotFound(name))
      else
        var n :- NameOf(c, name.value);
        var d :- DefinitionOf(c);
        var e :- ExplanationOf(c, level);
        var s :- RelatedSuffix(c);
        Ok("**" + n + ":** " + d + "\n\n" + e + s)
  }

  /** A found concept's answer opens with the bold marker and a missing one's with the
      not-found sentence, so the two kinds of answer cannot be confused. */
  lemma AnswersAreDistinguishable(kb: KB, name: Option<string>, level: string)
    requires FormatExplanation(kb, name, level).Ok?
    ensures var c := KM.GetConcept(kb, name);
      var r := FormatExplanation(kb, name, level).value;
      if c.Some? && c.value != map[] then PyText.IsPrefix("**", r) else PyText.IsPrefix("I don't", r)
  {
  }

  /** A stored concept with a textual name and definition, explained at a level it has no
      text for, falls back to its intermediate explanation; with no related concepts that
      is the whole answer. */
  lemma MissingLevelFallsBackToIntermediate(kb: KB, i: nat, level: string, n: string, d: string, e: string)
    requires DistinctKeys(kb) && i < |kb|
    requires kb[i].0 != "" && PyText.Lower(kb[i].0) == kb[i].0
    requires var c := kb[i].1;
      && c.Keys == {"name", "definition", "intermediate_explanation"}
      && c["name"] == Text(n) && c["definition"] == Text(d) && c["intermediate_explanation"] == Text(e)
    requires level + "_explanation" != "intermediate_explanation"
    ensures FormatExplanation(kb, Some(kb[i].0), level) == Ok("**" + n + ":** " + d + "\n\n" + e)
  {
    KM.StoredConceptIsFound(kb, i);
    var c := kb[i].1;
    assert "name" in c;
    assert level + "_explanation" !in c;
    assert "related_concepts" !in c;
    assert NameOf(c, kb[i].0) == Ok(n);
    assert DefinitionOf(c) == Ok(d);
    assert ExplanationKey(c, level) == "intermediate_explanation";
    assert ExplanationOf(c, level) == Ok(e);
    assert RelatedSuffix(c) == Ok("");
    var body := "**" + n + ":** " + d + "\n\n" + e;
    assert body + "" == body;
    assert c != map[];
  }
}

=== FILE: reward_function.dfy ===
/** The reward of the curriculum environment (reward_function.py): a base term that
    falls with the difficulty of the chosen concept, a penalty that short-circuits
    everything when a prerequisite is not mastered, a learning-style bonus, an
    efficiency term counting the concepts the choice unlocks, and a completion bonus. */
module RewardFunction {
  import opened Wrappers

  /** The profile fields the reward reads: `learning_style` and `visual_concepts`
      (default empty). */
  datatype Profile = Profile(learningStyle: Option<string>, visualConcepts: seq<int>)

  /** `difficulties` and `prerequisites` are keyed by concept id. */
  datatype RewardFunction = RewardFunction(
    difficulties: map<int, real>,
    prerequisites: map<int, seq<int>>,
    profile: Profile)

  /** `1.0 / (difficulty + 0.1)` raises when the difficulty is exactly -0.1. */
  datatype RewardError = DivisionByZero

  const CompletionReward: real := 10.0
  const PrerequisitePenalty: real := -5.0
  /** Declared by the source and never read. */
  const DifficultyFactor: real := 0.5
  const LearningStyleMatchBonus: real := 2.0

  /** The base term: the inverse of the shifted difficulty, 1 for a concept without one. */
  function BaseReward(rf: RewardFunction, action: int): (r: Result<real, RewardError>)
    ensures r.Err? <==> action in rf.difficulties && rf.difficulties[action] == -0.1
    ensures r.Ok? && action in rf.difficulties ==> r.value * (rf.difficulties[action] + 0.1) == 1.0
    ensures action !in rf.difficulties ==> r == Ok(1.0)
  {
    if action in rf.difficulties then
      var d := rf.difficulties[action];
      if d + 0.1 == 0.0 then Err(DivisionByZero) else Ok(1.0 / (d + 0.1))
    else Ok(1.0)
  }

  /** The prerequisites listed for the action; none when it has no entry. */
  function ListedPrerequisites(rf: RewardFunction, action: int): seq<int> {
    if action in rf.prerequisites then rf.prerequisites[action] else []
  }

  predicate PrerequisitesMet(rf: RewardFunction, mastered: seq<int>, action: int) {
    forall p :: p in ListedPrerequisites(rf, action) ==> p in mastered
  }

  /** The learning-style bonus. */
  function StyleBonus(rf: RewardFunction, action: int): (r: real)
    ensures r == LearningStyleMatchBonus <==>
      rf.profile.learningStyle == Some("visual") && action in rf.profile.visualConcepts
    ensures r == 0.0 || r == LearningStyleMatchBonus
  {
    if rf.profile.learningStyle == Some("visual") && action in rf.profile.visualConcepts
    then LearningStyleMatchBonus else 0.0
  }

  /** The concepts whose prerequisite list names the action. */
  function Dependents(rf: RewardFunction, action: int): (r: set<int>)
    ensures forall c :: c in r <==> c in rf.prerequisites && action in rf.prerequisites[c]
  {
    set c | c in rf.prerequisites && action in rf.prerequisites[c]
  }

  /** `calculate_reward`. The base term is computed first, so a zero denominator raises
      even when the penalty would have applied. `nextIsTerminal` is the answer of
      `next_state.is_terminal()`. */
  function CalculateReward(rf: RewardFunction, mastered: seq<int>, action: int, nextIsTerminal: bool)
    : (r: Result<real, RewardError>)
    ensures r.Err? <==> BaseReward(rf, action).Err?
    ensures r.Ok? && !PrerequisitesMet(rf, mastered, action) ==> r.value == PrerequisitePenalty
  {
    var base :- BaseReward(rf, action);
    if !PrerequisitesMet(rf, mastered, action) then Ok(PrerequisitePenalty)
    else
      var reward := base + StyleBonus(rf, action) + 0.2 * (|Dependents(rf, action)| as real);
      Ok(if nextIsTerminal then reward + CompletionReward else reward)
  }

  /** A missing prerequisite gives exactly the penalty, whatever the difficulty, the
      profile, the efficiency term and the terminal flag are. */
  lemma PenaltyIgnoresOtherTerms(rf: RewardFunction, rf': RewardFunction, mastered: seq<int>,
                                 action: int, t: bool, t': bool)
    requires rf'.prerequisites == rf.prerequisites
    requires BaseReward(rf, action).Ok? && BaseReward(rf', action).Ok?
    requires exists p :: p in ListedPrerequisites(rf, action) && p !in mastered
    ensures CalculateReward(rf, mastered, action, t) == Ok(PrerequisitePenalty)
    ensures CalculateReward(rf', mastered, action, t') == CalculateReward(rf, mastered, action, t)
  {
  }

  /** With the prerequisites met, the reward is the base term plus the style bonus plus
      0.2 per dependent concept. */
  lemma RewardTerms(rf: RewardFunction, mastered: seq<int>, action: int)
    requires PrerequisitesMet(rf, mastered, action)
    requires BaseReward(rf, action).Ok?
    ensures CalculateReward(rf, mastered, action, false).value
         == BaseReward(rf, action).value + StyleBonus(rf, action)
            + 0.2 * (|Dependents(rf, action)| as real)
  {
  }

  /** A terminal next state adds exactly the completion reward to the same sum. */
  lemma TerminalAddsCompletion(rf: RewardFunction, mastered: seq<int>, action: int)
    requires PrerequisitesMet(rf, mastered, action)
    requires BaseReward(rf, action).Ok?
    ensures CalculateReward(rf, mastered, action, true).value
         == CalculateReward(rf, mastered, action, false).value + 10.0
  {
  }

  /** Each concept that lists the action adds 0.2: registering one more dependent raises
      the reward by exactly that much. */
  lemma EfficiencyPerDependent(rf: RewardFunction, mastered: seq<int>, action: int, c: int, ps: seq<int>)
    requires c !in rf.prerequisites && action in ps && c != action
    requires PrerequisitesMet(rf, mastered, action)
    requires BaseReward(rf, action).Ok?
    ensures var rf' := rf.(prerequisites := rf.prerequisites[c := ps]);
      CalculateReward(rf', mastered, action, false).value
      == CalculateReward(rf, mastered, action, false).value + 0.2
  {
    var rf' := rf.(prerequisites := rf.prerequisites[c := ps]);
    assert ListedPrerequisites(rf', action) == ListedPrerequisites(rf, action);
    DependentsOfNewEntry(rf, action, c, ps);
  }

  lemma DependentsOfNewEntry(rf: RewardFunction, action: int, c: int, ps: seq<int>)
    requires c !in rf.prerequisites && action in ps
    ensures |Dependents(rf.(prerequisites := rf.prerequisites[c := ps]), action)| == |Dependents(rf, action)| + 1
  {
    var before := Dependents(rf, action);
    var after := Dependents(rf.(prerequisites := rf.prerequisites[c := ps]), action);
    assert c !in before;
    assert after == before + {c};
  }

  /** With the prerequisites met and a difficulty above -0.1 (or none), the reward is
      strictly positive and so strictly above the penalty. */
  lemma RewardPositiveWhenMet(rf: RewardFunction, mastered: seq<int>, action: int, t: bool)
    requires PrerequisitesMet(rf, mastered, action)
    requires action in rf.difficulties ==> rf.difficulties[action] > -0.1
    ensures CalculateReward(rf, mastered, action, t).Ok?
    ensures CalculateReward(rf, mastered, action, t).value > 0.0 > PrerequisitePenalty
  {
    if action in rf.difficulties {
      var d := rf.difficulties[action];
      assert 1.0 / (d + 0.1) > 0.0;
    }
  }

  /** Below -0.1 the base term turns negative: a concept whose prerequisites are met can
      score below the penalty for one whose prerequisites are not. */
  lemma NegativeDifficultyBelowPenalty()
    ensures var rf := RewardFunction(map[7 := -0.2], map[], Profile(None, []));
      CalculateReward(rf, [], 7, false) == Ok(-10.0)
      && CalculateReward(rf, [], 7, false).value < PrerequisitePenalty
  {
    var rf := RewardFunction(map[7 := -0.2], map[], Profile(None, []));
    assert Dependents(rf, 7) == {};
  }
}

=== FILE: rl_agent.dfy ===
/** The tabular Q-learning agent (rl_agent.py): a state-by-action Q-table, an
    epsilon-greedy choice, the one-step Q-learning update with its epsilon decay, and the
    prerequisite matrix read from the parsed knowledge file. */
module RlAgent {
  import opened Wrappers
  import opened QTable
  import PyText

  /** `IndexError` for an index outside `[-n, n)`, `ValueError` for `int()` of a
      non-numeral, for `randint(0, -1)` and for the maximum of an empty row. */
  datatype AgentError = IndexError | ValueError

  datatype Agent = Agent(
    stateSize: nat,
    actionSize: nat,
    alpha: real,
    gamma: real,
    epsilon: real,
    epsilonDecay: real,
    epsilonMin: real,
    q: Table,
    prerequisites: Table)

  /** The keyword defaults of `RLAgent.__init__`. */
  const DefaultAlpha: real := 0.1
  const DefaultGamma: real := 0.99
  const DefaultEpsilon: real := 1.0
  const DefaultEpsilonDecay: real := 0.995
  const DefaultEpsilonMin: real := 0.01

  /** The Q-table has one row per state and one column per action. */
  predicate Valid(ag: Agent) {
    HasShape(ag.q, ag.stateSize, ag.actionSize)
  }

  /** One `(state, action, reward, next_state, done)` experience. */
  datatype Transition = Transition(state: int, action: int, reward: real, nextState: int, done: bool)

  // ---------------------------------------------------------------------------
  // The prerequisite matrix

  /** One key of the knowledge file and its list of prerequisite ids, as text. */
  type Entry = (string, seq<string>)

  /** An entry after `int()` of its key and of each listed id; `None` where `int()`
      raises `ValueError`. */
  type ParsedEntry = (Option<int>, seq<Option<int>>)

  function ParseEntry(e: Entry): (r: ParsedEntry)
    ensures r.0 == PyText.ParseInt(e.0)
    ensures |r.1| == |e.1| && forall m :: 0 <= m < |e.1| ==> r.1[m] == PyText.ParseInt(e.1[m])
  {
    (PyText.ParseInt(e.0), seq(|e.1|, m requires 0 <= m < |e.1| => PyText.ParseInt(e.1[m])))
  }

  /** Every entry of the file, converted. */
  function ParseEntries(data: seq<Entry>): (r: seq<ParsedEntry>)
    ensures |r| == |data|
    decreases |data|
  {
    if data == [] then [] else ParseEntries(data[..|data| - 1]) + [ParseEntry(data[|data| - 1])]
  }

  lemma {:induction false} ParseEntriesPointwise(data: seq<Entry>, k: nat)
    requires k < |data|
    ensures ParseEntries(data)[k] == ParseEntry(data[k])
    decreases |data|
  {
    if k < |data| - 1 {
      assert data[..|data| - 1][k] == data[k];
      ParseEntriesPointwise(data[..|data| - 1], k);
    }
  }

  /** A converted id used as an index into `n` rows or columns. */
  function Resolve(n: nat, v: Option<int>): (r: Option<nat>)
    ensures r.Some? <==> v.Some? && PyIndex(n, v.value).Some?
    ensures r.Some? ==> r.value < n
  {
    match v
    case None => None
    case Some(x) => PyIndex(n, x)
  }

  /** An entry fills its cells without raising: the key is a numeral and, if it lists
      any prerequisite, the key and every listed id are numerals indexing into `n`. An
      entry with an empty list never indexes the matrix, so its key's range is not
      checked. */
  predicate EntryOk(n: nat, e: ParsedEntry) {
    && e.0.Some?
    && (|e.1| > 0 ==> Resolve(n, e.0).Some?)
    && forall m :: 0 <= m < |e.1| ==> Resolve(n, e.1[m]).Some?
  }

  predicate AllEntriesOk(n: nat, entries: seq<ParsedEntry>) {
    forall k :: 0 <= k < |entries| ==> EntryOk(n, entries[k])
  }

  /** Cell `(i, j)` is named by a key resolving to `i` with a listed id resolving to `j`. */
  predicate Names(n: nat, c: Option<int>, ps: seq<Option<int>>, i: nat, j: nat) {
    Resolve(n, c) == Some(i) && exists m :: 0 <= m < |ps| && Resolve(n, ps[m]) == Some(j)
  }

  predicate Listed(n: nat, data: seq<ParsedEntry>, i: nat, j: nat)
    decreases |data|
  {
    && data != []
    && (Listed(n, data[..|data| - 1], i, j) || Names(n, data[|data| - 1].0, data[|data| - 1].1, i, j))
  }

  /** `_load_knowledge_relationships` on the parsed file, `None` when the file is
      missing: a 1 at `[concept][prereq]` for every listed pair, 0 elsewhere. Each key
      and listed id goes through `int()` before it is used. The constructor calls it
      only after its own `np.zeros` accepted the sizes, so `n` is never negative. */
  method LoadKnowledgeRelationships(n: nat, data: Option<seq<Entry>>) returns (r: Result<Table, AgentError>)
    ensures data.None? ==> r == Ok(Zeros(n, n))
    ensures data.Some? ==> (r.Ok? <==> AllEntriesOk(n, ParseEntries(data.value)))
    ensures r.Ok? ==> HasShape(r.value, n, n)
    ensures r.Ok? && data.Some? ==> forall i, j :: 0 <= i < n && 0 <= j < n ==>
      r.value[i][j] == if Listed(n, ParseEntries(data.value), i, j) then 1.0 else 0.0
  {
    if data.None? {
      return Ok(Zeros(n, n));
    }
    r := FillMatrix(n, ParseEntries(data.value));
  }

  /** The loops of `_load_knowledge_relationships` over the converted entries, in file
      order. */
  method FillMatrix(n: nat, entries: seq<ParsedEntry>) returns (r: Result<Table, AgentError>)
    ensures r.Ok? <==> AllEntriesOk(n, entries)
    ensures r.Ok? ==> HasShape(r.value, n, n)
    ensures r.Ok? ==> forall i, j :: 0 <= i < n && 0 <= j < n ==>
      r.value[i][j] == if Listed(n, entries, i, j) then 1.0 else 0.0
  {
    var mat := Zeros(n, n);
    var k := 0;
    while k < |entries|
      invariant 0 <= k <= |entries|
      invariant HasShape(mat, n, n)
      invariant forall k' :: 0 <= k' < k ==> EntryOk(n, entries[k'])
      invariant forall i, j :: 0 <= i < n && 0 <= j < n ==>
        mat[i][j] == if Listed(n, entries[..k], i, j) then 1.0 else 0.0
    {
      var c, ps := entries[k].0, entries[k].1;
      if c.None? {
        assert !EntryOk(n, entries[k]);
        return Err(ValueError);
      }
      var filled := FillEntry(n, mat, c, ps);
      if filled.Err? {
        assert !EntryOk(n, entries[k]);
        return Err(filled.error);
      }
      assert entries[..k + 1][..k] == entries[..k];
      assert entries[..k + 1][k] == (c, ps);
      mat := filled.value;
      k := k + 1;
    }
    assert entries[..k] == entries;
    return Ok(mat);
  }

  /** The inner loop of `_load_knowledge_relationships`: the cells one entry names
      become 1, all others keep their value. */
  method FillEntry(n: nat, mat: Table, c: Option<int>, ps: seq<Option<int>>) returns (r: Result<Table, AgentError>)
    requires HasShape(mat, n, n) && c.Some?
    ensures r.Ok? <==> (|ps| > 0 ==> Resolve(n, c).Some?) && forall m :: 0 <= m < |ps| ==> Resolve(n, ps[m]).Some?
    ensures r.Ok? ==> HasShape(r.value, n, n)
    ensures r.Ok? ==> forall i, j :: 0 <= i < n && 0 <= j < n ==>
      r.value[i][j] == if Names(n, c, ps, i, j) then 1.0 else mat[i][j]
  {
    var out := mat;
    var m := 0;
    while m < |ps|
      invariant 0 <= m <= |ps|
      invariant HasShape(out, n, n)
      invariant m > 0 ==> Resolve(n, c).Some?
      invariant forall m' :: 0 <= m' < m ==> Resolve(n, ps[m']).Some?
      invariant forall i, j :: 0 <= i < n && 0 <= j < n ==>
        out[i][j] == if Names(n, c, ps[..m], i, j) then 1.0 else mat[i][j]
    {
      if ps[m].None? {
        return Err(ValueError);
      }
      var ci, pj := Resolve(n, c), Resolve(n, ps[m]);
      if ci.None? || pj.None? {
        return Err(IndexError);
      }
      FillStep(n, mat, out, c, ps, m);
      out := Set(out, ci.value, pj.value, 1.0);
      m := m + 1;
    }
    assert ps[..m] == ps;
    return Ok(out);
  }

  /** One iteration of the inner loop keeps its invariant. */
  lemma FillStep(n: nat, mat: Table, out: Table, c: Option<int>, ps: seq<Option<int>>, m: nat)
    requires HasShape(mat, n, n) && HasShape(out, n, n)
    requires m < |ps| && Resolve(n, c).Some? && Resolve(n, ps[m]).Some?
    requires forall i, j :: 0 <= i < n && 0 <= j < n ==>
      out[i][j] == if Names(n, c, ps[..m], i, j) then 1.0 else mat[i][j]
    ensures var next := Set(out, Resolve(n, c).value, Resolve(n, ps[m]).value, 1.0);
      && HasShape(next, n, n)
      && forall i, j :: 0 <= i < n && 0 <= j < n ==>
        next[i][j] == if Names(n, c, ps[..m + 1], i, j) then 1.0 else mat[i][j]
  {
    var ci, pj := Resolve(n, c).value, Resolve(n, ps[m]).value;
    var next := Set(out, ci, pj, 1.0);
    NamesExtend(n, c, ps, m);
    forall i, j | 0 <= i < n && 0 <= j < n
      ensures next[i][j] == if Names(n, c, ps[..m + 1], i, j) then 1.0 else mat[i][j]
    {
      if (i, j) != (ci, pj) {
        assert next[i][j] == out[i][j];
      }
    }
  }

  /** Taking one more listed id into account adds exactly the cell it names. */
  lemma NamesExtend(n: nat, c: Option<int>, ps: seq<Option<int>>, m: nat)
    requires m < |ps| && Resolve(n, c).Some? && Resolve(n, ps[m]).Some?
    ensures forall i, j :: Names(n, c, ps[..m + 1], i, j) <==>
      Names(n, c, ps[..m], i, j) || (i == Resolve(n, c).value && j == Resolve(n, ps[m]).value)
  {
    forall i, j
      ensures Names(n, c, ps[..m + 1], i, j) <==>
        Names(n, c, ps[..m], i, j) || (i == Resolve(n, c).value && j == Resolve(n, ps[m]).value)
    {
      if Names(n, c, ps[..m + 1], i, j) {
        var m' :| 0 <= m' < m + 1 && Resolve(n, ps[..m + 1][m']) == Some(j);
        if m' < m {
          assert ps[..m][m'] == ps[..m + 1][m'];
        }
      }
      if Names(n, c, ps[..m], i, j) {
        var m' :| 0 <= m' < m && Resolve(n, ps[..m][m']) == Some(j);
        assert ps[..m + 1][m'] == ps[..m][m'];
      }
      if i == Resolve(n, c).value && j == Resolve(n, ps[m]).value {
        assert ps[..m + 1][m] == ps[m];
      }
    }
  }

  /** A file whose entries list nothing gives the same all-zero matrix as a missing file. */
  lemma {:induction false} EmptyListsGiveZeros(n: nat, data: seq<ParsedEntry>, i: nat, j: nat)
    requires forall k :: 0 <= k < |data| ==> data[k].1 == []
    ensures !Listed(n, data, i, j)
    decreases |data|
  {
    if data != [] {
      EmptyListsGiveZeros(n, data[..|data| - 1], i, j);
    }
  }

  /** A numeric key with an empty list is accepted even when it is out of range, while
      the same key with a listed id raises. */
  lemma OutOfRangeKeyNeedsAPrerequisite()
    ensures EntryOk(2, (Some(99), []))
    ensures !EntryOk(2, (Some(99), [Some(0)]))
  {
  }

  // ---------------------------------------------------------------------------
  // Construction, action choice and update

  /** `RLAgent.__init__`: a zero Q-table and the prerequisite matrix. `np.zeros` raises
      `ValueError` for a negative size, before the knowledge file is read. */
  method NewAgent(stateSize: int, actionSize: int, alpha: real, gamma: real, epsilon: real,
                  epsilonDecay: real, epsilonMin: real, data: Option<seq<Entry>>)
    returns (r: Result<Agent, AgentError>)
    ensures stateSize < 0 || actionSize < 0 ==> r == Err(ValueError)
    ensures data.None? ==> (r.Ok? <==> stateSize >= 0 && actionSize >= 0)
    ensures r.Ok? ==> Valid(r.value) && r.value.q == Zeros(stateSize, actionSize)
    ensures r.Ok? ==> HasShape(r.value.prerequisites, stateSize, stateSize)
    ensures r.Ok? ==> r.value.epsilon == epsilon && r.value.epsilonDecay == epsilonDecay
                      && r.value.epsilonMin == epsilonMin && r.value.alpha == alpha && r.value.gamma == gamma
  {
    if stateSize < 0 || actionSize < 0 {
      return Err(ValueError);
    }
    var prerequisites := LoadKnowledgeRelationships(stateSize, data);
    if prerequisites.Err? {
      return Err(prerequisites.error);
    }
    return Ok(Agent(stateSize, actionSize, alpha, gamma, epsilon, epsilonDecay, epsilonMin,
                    Zeros(stateSize, actionSize), prerequisites.value));
  }

  /** `select_action`. `coin` is the draw of `random.random()` and `pick` the draw
      behind `random.randint(0, action_size - 1)`, reduced into that range. Exploring
      never reads the Q-table, so it succeeds even for a state index out of range. */
  function SelectAction(ag: Agent, state: int, coin: real, pick: nat): (r: Result<nat, AgentError>)
    requires Valid(ag)
    ensures coin < ag.epsilon ==> (r.Ok? <==> ag.actionSize > 0)
    ensures coin >= ag.epsilon ==> (r.Ok? <==> PyIndex(ag.stateSize, state).Some? && ag.actionSize > 0)
    ensures r.Ok? ==> r.value < ag.actionSize
    ensures r.Ok? && coin >= ag.epsilon ==>
      var row := ag.q[PyIndex(ag.stateSize, state).value];
      && (forall a :: 0 <= a < ag.actionSize ==> row[a] <= row[r.value])
      && (forall a :: 0 <= a < r.value ==> row[a] < row[r.value])
  {
    if coin < ag.epsilon then
      if ag.actionSize == 0 then Err(ValueError) else Ok(pick % ag.actionSize)
    else
      match PyIndex(ag.stateSize, state)
      case None => Err(IndexError)
      case Some(s) => if ag.actionSize == 0 then Err(ValueError) else Ok(ArgMax(ag.q[s]))
  }

  /** Every action can be explored: the oracle can always name it. */
  lemma ExploreReachesEveryAction(ag: Agent, state: int, coin: real, a: nat)
    requires Valid(ag) && coin < ag.epsilon && a < ag.actionSize
    ensures SelectAction(ag, state, coin, a) == Ok(a)
  {
  }

  /** The bootstrapped target of `update`; `None` when `next_state` cannot be read. */
  function Target(ag: Agent, reward: real, nextState: int, done: bool): (r: Option<real>)
    requires Valid(ag)
    ensures done ==> r == Some(reward)
    ensures !done ==> (r.Some? <==> PyIndex(ag.stateSize, nextState).Some? && ag.actionSize > 0)
    ensures !done && r.Some? ==>
      r.value == reward + ag.gamma * MaxOf(ag.q[PyIndex(ag.stateSize, nextState).value])
  {
    if done then Some(reward)
    else
      match PyIndex(ag.stateSize, nextState)
      case None => None
      case Some(ns) =>
        if ag.actionSize == 0 then None
        else
          Some(reward + ag.gamma * MaxOf(ag.q[ns]))
  }

  /** The Q-learning step: `x` moved the fraction `alpha` of the way toward `y`. */
  function Toward(x: real, alpha: real, y: real): real {
    x + alpha * (y - x)
  }

  /** `update`: one Q-learning step on entry `[state][action]`, then epsilon is multiplied
      by the decay if it is still above the minimum. There is no clamp at the minimum. */
  function Update(ag: Agent, t: Transition): (r: Result<Agent, AgentError>)
    requires Valid(ag)
    ensures r.Ok? <==> Target(ag, t.reward, t.nextState, t.done).Some?
                       && PyIndex(ag.stateSize, t.state).Some? && PyIndex(ag.actionSize, t.action).Some?
    ensures r.Ok? ==> Valid(r.value)
    ensures r.Ok? ==>
      && PyIndex(ag.stateSize, t.state).Some? && PyIndex(ag.actionSize, t.action).Some?
      && Target(ag, t.reward, t.nextState, t.done).Some? && HasShape(r.value.q, ag.stateSize, ag.actionSize)
      && var s, a := PyIndex(ag.stateSize, t.state).value, PyIndex(ag.actionSize, t.action).value;
      var old_ := ag.q[s][a];
      && r.value.q[s][a] == Toward(old_, ag.alpha, Target(ag, t.reward, t.nextState, t.done).value)
      && (forall i, j :: 0 <= i < ag.stateSize && 0 <= j < ag.actionSize && (i, j) != (s, a) ==>
            r.value.q[i][j] == ag.q[i][j])
    ensures r.Ok? && ag.epsilon > ag.epsilonMin ==> r.value.epsilon == ag.epsilon * ag.epsilonDecay
    ensures r.Ok? && ag.epsilon <= ag.epsilonMin ==> r.value.epsilon == ag.epsilon
    ensures r.Ok? ==> r.value.(q := ag.q, epsilon := ag.epsilon) == ag
  {
    var target :- match Target(ag, t.reward, t.nextState, t.done)
                  case None => Err(if t.done || PyIndex(ag.stateSize, t.nextState).Some? then ValueError else IndexError)
                  case Some(v) => Ok(v);
    var s :- match PyIndex(ag.stateSize, t.state) case None => Err(IndexError) case Some(s) => Ok(s);
    var a :- match PyIndex(ag.actionSize, t.action) case None => Err(IndexError) case Some(a) => Ok(a);
    var q := Set(ag.q, s, a, Toward(ag.q[s][a], ag.alpha, target));
    SetKeepsShape(ag.q, ag.stateSize, ag.actionSize, s, a, Toward(ag.q[s][a], ag.alpha, target));
    Ok(ag.(q := q, epsilon := if ag.epsilon > ag.epsilonMin then ag.epsilon * ag.epsilonDecay else ag.epsilon))
  }

  predicate Between(lo: real, x: real, hi: real) {
    (lo <= x <= hi) || (hi <= x <= lo)
  }

  /** With a learning rate in [0, 1] the new value lies between the old value and the
      target. */
  lemma UpdateBetweenOldAndTarget(ag: Agent, t: Transition, s: nat, a: nat)
    requires Valid(ag) && Update(ag, t).Ok? && 0.0 <= ag.alpha <= 1.0
    requires PyIndex(ag.stateSize, t.state) == Some(s) && PyIndex(ag.actionSize, t.action) == Some(a)
    ensures Between(ag.q[s][a], Update(ag, t).value.q[s][a], Target(ag, t.reward, t.nextState, t.done).value)
  {
    StepBetween(ag.alpha, ag.q[s][a], Target(ag, t.reward, t.nextState, t.done).value);
  }

  /** Moving a fraction in [0, 1] of the way from `x` to `y` stays between them. */
  lemma StepBetween(alpha: real, x: real, y: real)
    requires 0.0 <= alpha <= 1.0
    ensures Between(x, Toward(x, alpha, y), y)
  {
    if x <= y {
      StepUp(alpha, x, y);
    } else {
      StepUp(1.0 - alpha, y, x);
      assert Toward(x, alpha, y) == Toward(y, 1.0 - alpha, x);
    }
  }

  /** The same step when `x <= y`. */
  lemma StepUp(alpha: real, x: real, y: real)
    requires 0.0 <= alpha <= 1.0 && x <= y
    ensures x <= Toward(x, alpha, y) <= y
  {
    var d := y - x;
    var p := alpha * d;
    FractionOf(alpha, d);
    assert Toward(x, alpha, y) == x + p;
  }

  /** A fraction in [0, 1] of a non-negative amount lies between 0 and the amount. */
  lemma FractionOf(alpha: real, d: real)
    requires 0.0 <= alpha <= 1.0 && d >= 0.0
    ensures 0.0 <= alpha * d <= d
  {
    ScaleNonNegative(alpha, d);
    ScaleNonNegative(1.0 - alpha, d);
    assert d - alpha * d == (1.0 - alpha) * d;
  }

  lemma ScaleNonNegative(x: real, y: real)
    requires x >= 0.0 && y >= 0.0
    ensures x * y >= 0.0
  {
  }

  /** A run of updates, stopping at the first that raises. */
  function UpdateAll(ag: Agent, ts: seq<Transition>): (r: Result<Agent, AgentError>)
    requires Valid(ag)
    ensures r.Ok? ==> Valid(r.value)
    decreases |ts|
  {
    if ts == [] then Ok(ag)
    else
      var next :- Update(ag, ts[0]);
      UpdateAll(next, ts[1..])
  }

  /** With a non-negative minimum and a decay of at most 1, epsilon never grows over any
      run of updates, and once it is at or below the minimum it stays exactly where it is. */
  lemma {:induction false} EpsilonNonIncreasing(ag: Agent, ts: seq<Transition>)
    requires Valid(ag) && ag.epsilonDecay <= 1.0 && ag.epsilonMin >= 0.0
    requires UpdateAll(ag, ts).Ok?
    ensures UpdateAll(ag, ts).value.epsilon <= ag.epsilon
    ensures ag.epsilon <= ag.epsilonMin ==> UpdateAll(ag, ts).value.epsilon == ag.epsilon
    ensures UpdateAll(ag, ts).value.epsilonMin == ag.epsilonMin
    ensures UpdateAll(ag, ts).value.epsilonDecay == ag.epsilonDecay
    decreases |ts|
  {
    if ts != [] {
      UpdateAllCons(ag, ts);
      var next := Update(ag, ts[0]).value;
      UpdateEpsilonStep(ag, ts[0]);
      EpsilonNonIncreasing(next, ts[1..]);
    }
  }

  /** A run of updates that succeeds starts with a successful update and continues from
      its agent. */
  lemma UpdateAllCons(ag: Agent, ts: seq<Transition>)
    requires Valid(ag) && ts != [] && UpdateAll(ag, ts).Ok?
    ensures Update(ag, ts[0]).Ok?
    ensures UpdateAll(ag, ts) == UpdateAll(Update(ag, ts[0]).value, ts[1..])
  {
  }

  /** One update keeps the schedule's parameters and does not raise epsilon. */
  lemma UpdateEpsilonStep(ag: Agent, t: Transition)
    requires Valid(ag) && ag.epsilonDecay <= 1.0 && ag.epsilonMin >= 0.0
    requires Update(ag, t).Ok?
    ensures Update(ag, t).value.epsilon <= ag.epsilon
    ensures ag.epsilon <= ag.epsilonMin ==> Update(ag, t).value.epsilon == ag.epsilon
    ensures Update(ag, t).value.epsilonMin == ag.epsilonMin
    ensures Update(ag, t).value.epsilonDecay == ag.epsilonDecay
  {
    var next := Update(ag, t).value;
    assert next.(q := ag.q, epsilon := ag.epsilon) == ag;
    if ag.epsilon > ag.epsilonMin {
      ScaleAtMostOne(ag.epsilon, ag.epsilonDecay);
    }
  }

  lemma ScaleAtMostOne(x: real, d: real)
    requires x >= 0.0 && d <= 1.0
    ensures x * d <= x
  {
    assert x * (1.0 - d) >= 0.0;
  }

  /** Without a clamp, one decay step can take epsilon below the minimum, where it then
      stays: 0.015 decays to 0.0075 < 0.01. */
  lemma EpsilonOvershootsMinimum()
    ensures var ag := Agent(1, 1, 0.1, 0.99, 0.015, 0.5, 0.01, [[0.0]], [[0.0]]);
      var t := Transition(0, 0, 0.0, 0, true);
      && Update(ag, t).Ok?
      && Update(ag, t).value.epsilon == 0.0075 < ag.epsilonMin
      && Update(Update(ag, t).value, t).Ok?
      && Update(Update(ag, t).value, t).value.epsilon == 0.0075
  {
  }
}

=== FILE: sampling.dfy ===
/** Selection without replacement, as `random.sample` and
    `np.random.choice(..., replace=False)` perform it. The random source is a sequence of
    draws: each draw, reduced modulo the number of positions still available, picks the
    next one. Missing draws count as 0. */
module Sampling {

  predicate Distinct<T(==)>(s: seq<T>) {
    forall i, j :: 0 <= i < j < |s| ==> s[i] != s[j]
  }

  /** The positions 0 .. n-1 in order. */
  function Range(n: nat): (r: seq<nat>)
    ensures |r| == n && forall i :: 0 <= i < n ==> r[i] == i
  {
    seq(n, i => i)
  }

  /** `s` without its element at `j`. */
  function RemoveAt(s: seq<nat>, j: nat): (r: seq<nat>)
    requires j < |s|
    ensures |r| == |s| - 1
    ensures forall x :: x in r ==> x in s
    ensures Distinct(s) ==> Distinct(r) && s[j] !in r
  {
    var r := s[..j] + s[j + 1..];
    assert forall i :: 0 <= i < |r| ==> r[i] == if i < j then s[i] else s[i + 1];
    r
  }

  function FirstDraw(draws: seq<nat>): nat {
    if draws == [] then 0 else draws[0]
  }

  function LaterDraws(draws: seq<nat>): seq<nat> {
    if draws == [] then [] else draws[1..]
  }

  /** `k` elements of `pool`, one per draw. */
  function Choose(pool: seq<nat>, k: nat, draws: seq<nat>): (r: seq<nat>)
    requires k <= |pool|
    ensures |r| == k
    ensures forall i :: 0 <= i < k ==> r[i] in pool
    ensures Distinct(pool) ==> Distinct(r)
    decreases k
  {
    if k == 0 then []
    else
      var j := FirstDraw(draws) % |pool|;
      var rest := Choose(RemoveAt(pool, j), k - 1, LaterDraws(draws));
      [pool[j]] + rest
  }

  /** `k` distinct positions of a length-`n` sequence. */
  function SampleIndices(n: nat, k: nat, draws: seq<nat>): (r: seq<nat>)
    requires k <= n
    ensures |r| == k && Distinct(r)
    ensures forall i :: 0 <= i < k ==> r[i] < n
  {
    Choose(Range(n), k, draws)
  }

  /** The elements of `items` at the given positions. */
  function Pick<E>(items: seq<E>, idx: seq<nat>): (r: seq<E>)
    requires forall i :: 0 <= i < |idx| ==> idx[i] < |items|
    ensures |r| == |idx| && forall i :: 0 <= i < |idx| ==> r[i] == items[idx[i]]
  {
    seq(|idx|, i requires 0 <= i < |idx| => items[idx[i]])
  }

  /** The position of `x` in `s`. */
  function IndexOf(s: seq<nat>, x: nat): (j: nat)
    requires x in s
    ensures j < |s| && s[j] == x
  {
    if s[0] == x then 0 else 1 + IndexOf(s[1..], x)
  }

  /** The draws under which `Choose` returns `want`. */
  function DrawsFor(pool: seq<nat>, want: seq<nat>): seq<nat>
    requires Distinct(pool) && Distinct(want)
    requires forall i :: 0 <= i < |want| ==> want[i] in pool
    decreases |want|
  {
    if want == [] then []
    else
      var j := IndexOf(pool, want[0]);
      var pool' := RemoveAt(pool, j);
      RestStillAvailable(pool, want);
      [j] + DrawsFor(pool', want[1..])
  }

  /** After the first wanted element leaves the pool, the other wanted elements remain. */
  lemma RestStillAvailable(pool: seq<nat>, want: seq<nat>)
    requires Distinct(pool) && Distinct(want) && want != []
    requires forall i :: 0 <= i < |want| ==> want[i] in pool
    ensures forall i :: 1 <= i < |want| ==> want[i] in RemoveAt(pool, IndexOf(pool, want[0]))
  {
    var j := IndexOf(pool, want[0]);
    var pool' := RemoveAt(pool, j);
    forall i | 1 <= i < |want| ensures want[i] in pool' {
      var m := IndexOf(pool, want[i]);
      assert m != j;
      if m < j { assert pool'[m] == pool[m]; } else { assert pool'[m - 1] == pool[m]; }
    }
  }

  /** The recursion of `ChooseReachesEverySelection`, stated on the tail of `want`. */
  lemma TailStillAvailable(pool: seq<nat>, want: seq<nat>)
    requires Distinct(pool) && Distinct(want) && want != []
    requires forall i :: 0 <= i < |want| ==> want[i] in pool
    ensures var pool' := RemoveAt(pool, IndexOf(pool, want[0]));
      && Distinct(pool') && Distinct(want[1..])
      && (forall i :: 0 <= i < |want[1..]| ==> want[1..][i] in pool')
      && DrawsFor(pool, want) == [IndexOf(pool, want[0])] + DrawsFor(pool', want[1..])
  {
    RestStillAvailable(pool, want);
  }

  /** A first draw that is already a valid position picks exactly that position. */
  lemma ChooseWithFirstDraw(pool: seq<nat>, k: nat, j: nat, draws: seq<nat>)
    requires k < |pool| && j < |pool|
    ensures Choose(pool, k + 1, [j] + draws) == [pool[j]] + Choose(RemoveAt(pool, j), k, draws)
  {
    assert FirstDraw([j] + draws) == j;
    assert LaterDraws([j] + draws) == draws;
    SmallModulus(j, |pool|);
  }

  lemma SmallModulus(j: nat, n: nat)
    requires j < n
    ensures j % n == j
  {
  }

  /** Every ordered selection of distinct elements can be drawn: the model of the random
      source leaves out none of the outcomes the library can produce. */
  lemma {:induction false} ChooseReachesEverySelection(pool: seq<nat>, want: seq<nat>)
    requires Distinct(pool) && Distinct(want)
    requires forall i :: 0 <= i < |want| ==> want[i] in pool
    ensures |want| <= |pool|
    ensures Choose(pool, |want|, DrawsFor(pool, want)) == want
    decreases |want|
  {
    if want != [] {
      var j := IndexOf(pool, want[0]);
      var pool' := RemoveAt(pool, j);
      var rest := want[1..];
      TailStillAvailable(pool, want);
      ChooseReachesEverySelection(pool', rest);
      var later := DrawsFor(pool', rest);
      var k := |rest|;
      assert Choose(pool', k, later) == rest;
      assert pool[j] == want[0];
      ChooseWithFirstDraw(pool, k, j, later);
      assert |want| == k + 1 && want == [want[0]] + rest;
    }
  }
}

=== FILE: set_iteration.dfy ===
/** Iteration over a Python `set`: the elements come in an order the model does not
    fix, so each step takes an arbitrary remaining element. */
module SetIteration {

  method Pick<T>(s: set<T>) returns (x: T)
    requires s != {}
    ensures x in s
  {
    assert |s| > 0;
    x :| x in s;
  }
}

=== FILE: state_representation.dfy ===
/** The learner state of the curriculum environment (state_representation.py): a set of
    mastered concept ids, a 0/1 vector over the curriculum that mirrors it, and an
    optional learning goal. Concept ids are integers; the prerequisite map is keyed by
    the id itself (the source's `str(id)` key is treated as the id), and the listed
    prerequisites stay text until `int()` reads them. */
module StateRepresentation {
  import opened Wrappers
  import SetIteration
  import PyText

  /** `int(prereq)` of a listed prerequisite that is not a numeral. */
  datatype StateError = ValueError

  /** The profile fields the state reads: `mastered_concepts` (default empty) and
      `learning_goal` (default `None`). */
  datatype LearnerProfile = LearnerProfile(mastered: seq<int>, learningGoal: Option<int>)

  datatype State = State(
    conceptCount: nat,
    prerequisites: map<int, seq<string>>,
    mastered: set<int>,
    vector: seq<real>,
    learningGoal: Option<int>)

  /** The entry the vector must hold for id `i`. */
  function MasteryBit(mastered: set<int>, i: int): real {
    if i in mastered then 1.0 else 0.0
  }

  /** The vector has one entry per concept and agrees with the mastered set. Ids in
      the set that are out of range have no entry. */
  ghost predicate Valid(s: State) {
    && |s.vector| == s.conceptCount
    && forall i :: 0 <= i < |s.vector| ==> s.vector[i] == MasteryBit(s.mastered, i)
  }

  /** `_build_state_vector`: zeros, then a 1 at every in-range mastered id. */
  method BuildStateVector(n: nat, mastered: set<int>) returns (v: seq<real>)
    ensures |v| == n
    ensures forall i :: 0 <= i < n ==> v[i] == MasteryBit(mastered, i)
  {
    v := seq(n, _ => 0.0);
    var todo := mastered;
    while todo != {}
      invariant todo <= mastered
      invariant |v| == n
      invariant forall i :: 0 <= i < n ==> v[i] == MasteryBit(mastered - todo, i)
      decreases todo
    {
      var c := SetIteration.Pick(todo);
      if 0 <= c < n {
        v := v[c := 1.0];
      }
      todo := todo - {c};
    }
  }

  /** `State.__init__`. */
  method Init(conceptCount: nat, prerequisites: map<int, seq<string>>, profile: LearnerProfile)
    returns (s: State)
    ensures Valid(s)
    ensures s.conceptCount == conceptCount && s.prerequisites == prerequisites
    ensures forall c :: c in s.mastered <==> c in profile.mastered
    ensures s.learningGoal == profile.learningGoal
  {
    var mastered := set c | c in profile.mastered;
    var v := BuildStateVector(conceptCount, mastered);
    s := State(conceptCount, prerequisites, mastered, v, profile.learningGoal);
  }

  /** `update`: an in-range id becomes mastered and its vector entry becomes 1; any
      other id leaves the state as it is. */
  function Update(s: State, c: int): (r: State)
    requires Valid(s)
    ensures Valid(r)
    ensures r.conceptCount == s.conceptCount && r.prerequisites == s.prerequisites
    ensures r.learningGoal == s.learningGoal
    ensures 0 <= c < s.conceptCount ==> r.mastered == s.mastered + {c} && r.vector[c] == 1.0
    ensures forall i :: 0 <= i < |r.vector| && i != c ==> r.vector[i] == s.vector[i]
    ensures !(0 <= c < s.conceptCount) ==> r == s
  {
    if 0 <= c < s.conceptCount then
      s.(mastered := s.mastered + {c}, vector := s.vector[c := 1.0])
    else s
  }

  lemma UpdateIdempotent(s: State, c: int)
    requires Valid(s)
    ensures Update(Update(s, c), c) == Update(s, c)
  {
  }

  /** The prerequisites listed for an id, as text; none when the id has no entry. */
  function ListedPrerequisites(s: State, id: int): seq<string> {
    if id in s.prerequisites then s.prerequisites[id] else []
  }

  /** `int()` of each text, in order; `None` where it raises. */
  function ParseAll(ps: seq<string>): (r: seq<Option<int>>)
    ensures |r| == |ps|
    decreases |ps|
  {
    if ps == [] then [] else ParseAll(ps[..|ps| - 1]) + [PyText.ParseInt(ps[|ps| - 1])]
  }

  lemma {:induction false} ParseAllPointwise(ps: seq<string>, k: nat)
    requires k < |ps|
    ensures ParseAll(ps)[k] == PyText.ParseInt(ps[k])
    decreases |ps|
  {
    if k < |ps| - 1 {
      assert ps[..|ps| - 1][k] == ps[k];
      ParseAllPointwise(ps[..|ps| - 1], k);
    }
  }

  /** `int(prereq)` of each listed prerequisite, in order; `None` where it raises. */
  function ParsedPrerequisites(s: State, id: int): (r: seq<Option<int>>)
    ensures |r| == |ListedPrerequisites(s, id)|
  {
    ParseAll(ListedPrerequisites(s, id))
  }

  /** Every entry of `q` is an id in `m`. */
  predicate AllIn(q: seq<Option<int>>, m: set<int>) {
    forall p :: p in q ==> p.Some? && p.value in m
  }

  /** Every listed prerequisite is a numeral naming a mastered id. */
  predicate PrerequisitesMastered(s: State, id: int) {
    AllIn(ParsedPrerequisites(s, id), s.mastered)
  }

  /** Scanning `q` in order, `int()` meets a non-numeral before any numeral that is not
      in `m`, so the check raises instead of breaking out. */
  predicate RaisesIn(q: seq<Option<int>>, m: set<int>)
    decreases |q|
  {
    && |q| > 0
    && (q[0].None? || (q[0].value in m && RaisesIn(q[1..], m)))
  }

  /** The check for `id` raises `ValueError`. */
  predicate RaisesAt(s: State, id: int) {
    RaisesIn(ParsedPrerequisites(s, id), s.mastered)
  }

  /** The scan raises exactly when some entry is a non-numeral and every entry before it
      is a mastered id. */
  lemma {:induction false} RaisesInMeans(q: seq<Option<int>>, m: set<int>)
    ensures RaisesIn(q, m) <==>
      exists k :: 0 <= k < |q| && q[k].None? && forall j :: 0 <= j < k ==> q[j].Some? && q[j].value in m
    decreases |q|
  {
    if |q| > 0 {
      RaisesInMeans(q[1..], m);
      if RaisesIn(q, m) && q[0].Some? {
        var k :| 0 <= k < |q| - 1 && q[1..][k].None? && forall j :: 0 <= j < k ==> q[1..][j].Some? && q[1..][j].value in m;
        assert q[k + 1].None? && forall j :: 0 <= j < k + 1 ==> q[j].Some? && q[j].value in m by {
          forall j | 0 <= j < k + 1 ensures q[j].Some? && q[j].value in m {
            if j > 0 {
              assert q[j] == q[1..][j - 1];
            }
          }
        }
      }
      if !RaisesIn(q, m) && q[0].Some? && q[0].value in m {
        forall k | 0 <= k < |q| && q[k].None?
          ensures exists j :: 0 <= j < k && !(q[j].Some? && q[j].value in m)
        {
          assert k > 0 && q[1..][k - 1].None?;
          var j :| 0 <= j < k - 1 && !(q[1..][j].Some? && q[1..][j].value in m);
          assert q[j + 1] == q[1..][j];
        }
      }
    }
  }

  /** A scan that stops at a numeral outside `m`, with only ids of `m` before it, does
      not raise. */
  lemma NoRaiseUnlessAllNumerals(q: seq<Option<int>>, m: set<int>, k: nat)
    requires k <= |q|
    requires forall j :: 0 <= j < k ==> q[j].Some? && q[j].value in m
    requires k < |q| ==> q[k].Some? && q[k].value !in m
    ensures !RaisesIn(q, m)
  {
    RaisesInMeans(q, m);
  }

  /** The inner loop of `get_available_concepts` over the parsed prerequisites `q`:
      `None` when `int()` raises, otherwise whether every entry is an id in `m`. */
  method ScanPrerequisites(q: seq<Option<int>>, m: set<int>) returns (r: Option<bool>)
    ensures r.None? <==> RaisesIn(q, m)
    ensures r.Some? ==> (r.value <==> AllIn(q, m))
  {
    var k := 0;
    while k < |q| && q[k].Some? && q[k].value in m
      invariant 0 <= k <= |q|
      invariant forall j :: 0 <= j < k ==> q[j].Some? && q[j].value in m
    {
      k := k + 1;
    }
    RaisesInMeans(q, m);
    if k < |q| && q[k].None? {
      return None;
    }
    NoRaiseUnlessAllNumerals(q, m, k);
    if k == |q| {
      forall p | p in q
        ensures p.Some? && p.value in m
      {
        var j :| 0 <= j < |q| && q[j] == p;
      }
      return Some(true);
    }
    assert q[k] in q && !(q[k].Some? && q[k].value in m);
    return Some(false);
  }

  /** The inner loop of `get_available_concepts` (lines 62-66) for one id: `None` when
      `int()` raises, otherwise whether every prerequisite is mastered. */
  method CheckPrerequisites(s: State, id: int) returns (r: Option<bool>)
    ensures r.None? <==> RaisesAt(s, id)
    ensures r.Some? ==> (r.value <==> PrerequisitesMastered(s, id))
  {
    r := ScanPrerequisites(ParsedPrerequisites(s, id), s.mastered);
  }

  /** The outer loop of `get_available_concepts` over the ids `0 .. n-1`, with `parsed`
      giving each id's parsed prerequisites and `m` the mastered ids. */
  method ScanIds(n: nat, m: set<int>, parsed: int -> seq<Option<int>>)
    returns (r: Result<seq<int>, StateError>)
    ensures r.Err? <==> exists c :: 0 <= c < n && c !in m && RaisesIn(parsed(c), m)
    ensures r.Ok? ==> forall i, j :: 0 <= i < j < |r.value| ==> r.value[i] < r.value[j]
    ensures r.Ok? ==> forall c :: c in r.value <==> 0 <= c < n && c !in m && AllIn(parsed(c), m)
  {
    var available: seq<int> := [];
    var id := 0;
    while id < n
      invariant 0 <= id <= n
      invariant forall i, j :: 0 <= i < j < |available| ==> available[i] < available[j]
      invariant forall k :: 0 <= k < |available| ==> available[k] < id
      invariant forall c :: c in available <==> 0 <= c < id && c !in m && AllIn(parsed(c), m)
      invariant forall c :: 0 <= c < id && c !in m ==> !RaisesIn(parsed(c), m)
    {
      if id !in m {
        var check := ScanPrerequisites(parsed(id), m);
        if check.None? {
          return Err(ValueError);
        }
        if check.value {
          available := available + [id];
        }
      }
      id := id + 1;
    }
    return Ok(available);
  }

  /** `get_available_concepts`: in increasing order, every unmastered id whose listed
      prerequisites are all mastered. It raises `ValueError` exactly when some unmastered
      id's check reaches a non-numeral before it can break. */
  method GetAvailableConcepts(s: State) returns (r: Result<seq<int>, StateError>)
    ensures r.Err? <==> exists c :: 0 <= c < s.conceptCount && c !in s.mastered && RaisesAt(s, c)
    ensures r.Ok? ==> forall i, j :: 0 <= i < j < |r.value| ==> r.value[i] < r.value[j]
    ensures r.Ok? ==> forall c :: c in r.value <==> 0 <= c < s.conceptCount && c !in s.mastered && PrerequisitesMastered(s, c)
  {
    r := ScanIds(s.conceptCount, s.mastered, id => ParsedPrerequisites(s, id));
  }

  lemma ParseZero()
    ensures PyText.ParseInt("0") == Some(0)
  {
    PyText.ParseNatToString(0);
    assert PyText.NatToString(0) == "0";
  }

  lemma ParseLetter()
    ensures PyText.ParseInt("x") == None
  {
    PyText.StripUnchanged("x");
  }

  /** The list `["0", "x"]` reads as the id 0 followed by a non-numeral. */
  lemma ZeroThenNonNumeral(s: State)
    requires s.prerequisites == map[1 := ["0", "x"]]
    ensures ParsedPrerequisites(s, 1) == [Some(0), None]
  {
    var ps: seq<string> := ["0", "x"];
    assert ListedPrerequisites(s, 1) == ps;
    ParseAllPointwise(ps, 0);
    ParseAllPointwise(ps, 1);
    ParseZero();
    ParseLetter();
  }

  /** The check breaks at the first unmastered prerequisite, so a non-numeral after it
      is never read; the same list raises once the first prerequisite is mastered. */
  lemma BreakSkipsLaterPrerequisites()
    ensures var s := State(2, map[1 := ["0", "x"]], {}, [0.0, 0.0], None);
      !RaisesAt(s, 1) && !PrerequisitesMastered(s, 1)
    ensures var s := State(2, map[1 := ["0", "x"]], {0}, [1.0, 0.0], None);
      RaisesAt(s, 1) && Valid(s)
  {
    var s := State(2, map[1 := ["0", "x"]], {}, [0.0, 0.0], None);
    ZeroThenNonNumeral(s);
    var q := ParsedPrerequisites(s, 1);
    NoRaiseUnlessAllNumerals(q, s.mastered, 0);
    assert q[0] in q;
    var s' := State(2, map[1 := ["0", "x"]], {0}, [1.0, 0.0], None);
    ZeroThenNonNumeral(s');
    var q' := ParsedPrerequisites(s', 1);
    assert q'[1..] == [None];
  }

  /** `is_terminal`: the goal is mastered or, without a goal, the mastered set has as
      many ids as the curriculum has concepts. Without a goal, and when every mastered id
      is in range, that count test means exactly "every concept is mastered". */
  predicate IsTerminal(s: State): (b: bool)
    ensures s.learningGoal.None? && (forall c :: c in s.mastered ==> 0 <= c < s.conceptCount) ==>
      (b <==> forall i :: 0 <= i < s.conceptCount ==> i in s.mastered)
  {
    CountIffAllInRange(s.mastered, s.conceptCount);
    match s.learningGoal
    case None => |s.mastered| == s.conceptCount
    case Some(goal) => goal in s.mastered
  }

  /** The ids 0 .. n-1. */
  function IdRange(n: nat): (r: set<int>)
    ensures forall i :: i in r <==> 0 <= i < n
    ensures |r| == n
    decreases n
  {
    if n == 0 then {} else IdRange(n - 1) + {n - 1}
  }

  /** A set of ids in `[0, n)` has `n` elements exactly when it holds all of them. */
  lemma CountIffAllInRange(m: set<int>, n: nat)
    ensures (forall c :: c in m ==> 0 <= c < n) ==> (|m| == n <==> forall i :: 0 <= i < n ==> i in m)
  {
    if forall c :: c in m ==> 0 <= c < n {
      var all := IdRange(n);
      assert m <= all;
      if |m| == n {
        assert |all - m| == |all| - |m| == 0;
        forall i | 0 <= i < n
          ensures i in m
        {
          assert i in all;
        }
      } else {
        assert |m| < |all|;
        assert |all - m| > 0;
        var i :| i in all - m;
        assert 0 <= i < n && i !in m;
      }
    }
  }

  /** Without a goal, and when every mastered id is in range, the terminal test means
      exactly "every concept is mastered". */
  lemma TerminalIffAllMastered(s: State)
    requires s.learningGoal.None?
    requires forall c :: c in s.mastered ==> 0 <= c < s.conceptCount
    ensures IsTerminal(s) <==> forall i :: 0 <= i < s.conceptCount ==> i in s.mastered
  {
    CountIffAllInRange(s.mastered, s.conceptCount);
  }

  /** The count-based test is fooled by out-of-range ids in the profile: two concepts,
      mastered ids {0, 5}, and concept 1 still unmastered, yet the state is terminal. */
  lemma TerminalCountsStrayIds()
    ensures var s := State(2, map[], {0, 5}, [1.0, 0.0], None);
      Valid(s) && IsTerminal(s) && 1 !in s.mastered
  {
    var m: set<int> := {0, 5};
    assert m == {0} + {5};
    assert |m| == 2;
  }

  /** Mastering the goal ends the episode. */
  lemma UpdateGoalIsTerminal(s: State)
    requires Valid(s) && s.learningGoal.Some?
    requires 0 <= s.learningGoal.value < s.conceptCount
    ensures IsTerminal(Update(s, s.learningGoal.value))
  {
  }
}

=== FILE: text_generator.dfy ===
/** Template-based scene descriptions (src/nlg/generation/text_generator.py): one sentence
    per person, a sentence when a person and an umbrella are both present, and one
    sentence per holding or using relationship, joined into a paragraph. */
module TextGenerator {
  import opened Wrappers
  import PyText
  import QTable

  const PersonSentence: string := "There is a person in the scene."
  const UmbrellaSentence: string := "There is a person using an umbrella."
  const UnknownObject: string := "unknown object"

  /** A detected object; only its class is read. */
  datatype SceneObject = SceneObject(cls: string)

  /** The scene data: the detected objects, and the functional relationships as a list of
      relationship types, each with its pairs of object identifiers, in key order. */
  datatype Scene = Scene(objects: seq<SceneObject>, functional: seq<(string, seq<(string, string)>)>)

  // ---------------------------------------------------------------------------
  // _get_class_name

  /** The class named by an identifier such as `obj_3`: the integer after the first `_`
      indexes the object list, Python style, and anything that fails to give an object
      gives "unknown object". */
  function GetClassName(objId: string, objs: seq<SceneObject>): (r: string)
    ensures r == UnknownObject || exists k :: 0 <= k < |objs| && r == objs[k].cls
    ensures '_' !in objId ==> r == UnknownObject
  {
    var parts := PyText.Split(objId, '_');
    if '_' !in objId then
      SplitWithoutSeparator(objId, '_');
      UnknownObject
    else if |parts| < 2 then UnknownObject
    else match PyText.ParseInt(parts[1])
      case None => UnknownObject
      case Some(i) =>
        match QTable.PyIndex(|objs|, i)
        case None => UnknownObject
        case Some(k) => objs[k].cls
  }

  lemma SplitWithoutSeparator(s: string, sep: char)
    requires sep !in s
    ensures PyText.Split(s, sep) == [s]
  {
    PyText.SplitJoin([s], sep);
  }

  /** `str(i)` for any integer. */
  function IntToString(i: int): (r: string)
    ensures r != [] && '_' !in r
  {
    if i < 0 then "-" + PyText.NatToString(-i) else PyText.NatToString(i)
  }

  lemma ParseIntToString(i: int)
    ensures PyText.ParseInt(IntToString(i)) == Some(i)
  {
    if i < 0 {
      var d := PyText.NatToString(-i);
      var t := "-" + d;
      PyText.StripUnchanged(t);
      PyText.DigitsValueOfNatToString(-i);
      assert t[1..] == d;
    } else {
      PyText.ParseNatToString(i);
    }
  }

  /** The identifier `prefix_i`. */
  function ObjectId(prefix: string, i: int): string {
    prefix + "_" + IntToString(i)
  }

  /** The identifier `prefix_i` names the object at Python index `i`: the `i`-th object
      when `0 <= i`, the `-i`-th from the end when `i < 0`, and "unknown object" when `i`
      is outside the list either way. */
  lemma ClassOfObjectId(prefix: string, i: int, objs: seq<SceneObject>)
    requires '_' !in prefix
    ensures 0 <= i < |objs| ==> GetClassName(ObjectId(prefix, i), objs) == objs[i].cls
    ensures -|objs| <= i < 0 ==> GetClassName(ObjectId(prefix, i), objs) == objs[|objs| + i].cls
    ensures !(-|objs| <= i < |objs|) ==> GetClassName(ObjectId(prefix, i), objs) == UnknownObject
  {
    SplitOfObjectId(prefix, i);
    ParseIntToString(i);
  }

  /** `prefix_i` splits at its one underscore into the prefix and the digits of `i`. */
  lemma SplitOfObjectId(prefix: string, i: int)
    requires '_' !in prefix
    ensures '_' in ObjectId(prefix, i)
    ensures PyText.Split(ObjectId(prefix, i), '_') == [prefix, IntToString(i)]
  {
    var digits := IntToString(i);
    SplitWithoutSeparator(digits, '_');
    assert PyText.Split("_" + digits, '_') == [""] + [digits];
    PyText.SplitPrefix(prefix, "_" + digits, '_');
    assert prefix + "_" + digits == prefix + ("_" + digits);
    assert prefix + "" == prefix;
    assert ObjectId(prefix, i)[|prefix|] == '_';
  }

  // ---------------------------------------------------------------------------
  // _describe_objects

  /** One person sentence per person object, in order. */
  function DescribeObjects(objs: seq<SceneObject>): (r: seq<string>)
    ensures |r| <= |objs|
    ensures forall k :: 0 <= k < |r| ==> r[k] == PersonSentence
    decreases |objs|
  {
    if objs == [] then []
    else (if objs[0].cls == "person" then [PersonSentence] else []) + DescribeObjects(objs[1..])
  }

  /** Describing two object lists one after the other describes their concatenation. */
  lemma {:induction false} DescribeObjectsAppend(a: seq<SceneObject>, b: seq<SceneObject>)
    ensures DescribeObjects(a + b) == DescribeObjects(a) + DescribeObjects(b)
    decreases |a|
  {
    if a == [] {
      assert a + b == b;
    } else {
      assert (a + b)[0] == a[0];
      assert (a + b)[1..] == a[1..] + b;
      DescribeObjectsAppend(a[1..], b);
    }
  }

  /** The classes of the objects, in order. */
  function Classes(objs: seq<SceneObject>): (r: seq<string>)
    ensures |r| == |objs| && forall k :: 0 <= k < |objs| ==> r[k] == objs[k].cls
  {
    seq(|objs|, k requires 0 <= k < |objs| => objs[k].cls)
  }

  /** The number of objects of a class. */
  function CountClass(objs: seq<SceneObject>, c: string): nat {
    multiset(Classes(objs))[c]
  }

  /** There are exactly as many person sentences as person objects. */
  lemma {:induction false} DescribeObjectsCountsPersons(objs: seq<SceneObject>)
    ensures |DescribeObjects(objs)| == CountClass(objs, "person")
    decreases |objs|
  {
    if objs != [] {
      DescribeObjectsCountsPersons(objs[1..]);
      assert Classes(objs) == [objs[0].cls] + Classes(objs[1..]);
    }
  }

  // ---------------------------------------------------------------------------
  // _describe_relationships

  /** Whether some object has the class. */
  predicate HasClass(objs: seq<SceneObject>, c: string) {
    exists k :: 0 <= k < |objs| && objs[k].cls == c
  }

  /** The verb of the functional templates: only holding and using have one. */
  function Verb(relType: string): (r: Option<string>)
    ensures r.Some? <==> relType == "is_holding" || relType == "is_using"
  {
    if relType == "is_holding" then Some("holding")
    else if relType == "is_using" then Some("using")
    else None
  }

  /** `"{obj1} is <verb> {obj2}."`. */
  function Sentence(verb: string, o1: string, o2: string): string {
    o1 + " is " + verb + " " + o2 + "."
  }

  /** The sentences of one relationship type's pairs. */
  function PairSentences(objs: seq<SceneObject>, verb: string, pairs: seq<(string, string)>): (r: seq<string>)
    ensures |r| == |pairs|
    ensures forall k :: 0 <= k < |pairs| ==>
      r[k] == Sentence(verb, GetClassName(pairs[k].0, objs), GetClassName(pairs[k].1, objs))
  {
    seq(|pairs|, k requires 0 <= k < |pairs| =>
      Sentence(verb, GetClassName(pairs[k].0, objs), GetClassName(pairs[k].1, objs)))
  }

  /** The sentences of the functional relationships, type by type in key order. */
  function RelationSentences(objs: seq<SceneObject>, functional: seq<(string, seq<(string, string)>)>): (r: seq<string>)
    decreases |functional|
  {
    if functional == [] then []
    else
      var (relType, pairs) := functional[0];
      var here := match Verb(relType) case None => [] case Some(v) => PairSentences(objs, v, pairs);
      here + RelationSentences(objs, functional[1..])
  }

  /** The relationship sentences of a list of types are those of each type in turn: a
      holding or using type gives one sentence per pair, in order, and any other type
      gives none. */
  lemma {:induction false} RelationSentencesAppend(objs: seq<SceneObject>, f: seq<(string, seq<(string, string)>)>, g: seq<(string, seq<(string, string)>)>)
    ensures RelationSentences(objs, f + g) == RelationSentences(objs, f) + RelationSentences(objs, g)
    decreases |f|
  {
    if f == [] {
      assert f + g == g;
    } else {
      assert (f + g)[0] == f[0];
      assert (f + g)[1..] == f[1..] + g;
      RelationSentencesAppend(objs, f[1..], g);
    }
  }

  lemma RelationSentencesOfOneType(objs: seq<SceneObject>, relType: string, pairs: seq<(string, string)>)
    ensures Verb(relType).None? ==> RelationSentences(objs, [(relType, pairs)]) == []
    ensures Verb(relType).Some? ==> RelationSentences(objs, [(relType, pairs)]) == PairSentences(objs, Verb(relType).value, pairs)
  {
    assert [(relType, pairs)][1..] == [];
  }

  /** The umbrella sentence has `" i"` only after its first word. */
  lemma OnlyOneIs(j: int)
    requires 0 <= j < |UmbrellaSentence| - 1 && UmbrellaSentence[j] == ' ' && UmbrellaSentence[j + 1] == 'i'
    ensures j == 5
  {
  }

  /** No relationship sentence is the umbrella sentence: that one has no `" is holding "`
      or `" is using "` in it. */
  lemma UmbrellaIsNoRelation(verb: string, o1: string, o2: string)
    requires verb == "holding" || verb == "using"
    ensures Sentence(verb, o1, o2) != UmbrellaSentence
  {
    var s := Sentence(verb, o1, o2);
    var j := |o1|;
    assert s[j] == ' ' && s[j + 1] == 'i';
    if |s| == |UmbrellaSentence| && UmbrellaSentence[j] == ' ' && UmbrellaSentence[j + 1] == 'i' {
      OnlyOneIs(j);
      assert s[9] != UmbrellaSentence[9];
    }
  }

  /** `_describe_relationships`: the umbrella sentence first when a person and an umbrella
      are both present, then the relationship sentences. */
  function DescribeRelationships(scene: Scene): (r: seq<string>)
    ensures var both := HasClass(scene.objects, "person") && HasClass(scene.objects, "umbrella");
      var rels := RelationSentences(scene.objects, scene.functional);
      && (both ==> r == [UmbrellaSentence] + rels)
      && (!both ==> r == rels)
  {
    var objs := scene.objects;
    (if HasClass(objs, "person") && HasClass(objs, "umbrella") then [UmbrellaSentence] else [])
      + RelationSentences(objs, scene.functional)
  }

  /** The umbrella sentence appears among the relationship descriptions exactly when a
      person and an umbrella are both present, and then only once, in first place. */
  lemma UmbrellaSentenceOnce(scene: Scene)
    ensures var r := DescribeRelationships(scene);
      var both := HasClass(scene.objects, "person") && HasClass(scene.objects, "umbrella");
      && (UmbrellaSentence in r <==> both)
      && (both ==> r[0] == UmbrellaSentence && UmbrellaSentence !in r[1..])
  {
    NoUmbrellaInRelations(scene.objects, scene.functional);
    var r := DescribeRelationships(scene);
    if HasClass(scene.objects, "person") && HasClass(scene.objects, "umbrella") {
      assert r[1..] == RelationSentences(scene.objects, scene.functional);
    }
  }

  lemma {:induction false} NoUmbrellaInRelations(objs: seq<SceneObject>, f: seq<(string, seq<(string, string)>)>)
    ensures UmbrellaSentence !in RelationSentences(objs, f)
    decreases |f|
  {
    if f != [] {
      NoUmbrellaInRelations(objs, f[1..]);
      var (relType, pairs) := f[0];
      match Verb(relType)
      case None =>
      case Some(v) =>
        var ps := PairSentences(objs, v, pairs);
        forall k | 0 <= k < |ps| ensures ps[k] != UmbrellaSentence {
          UmbrellaIsNoRelation(v, GetClassName(pairs[k].0, objs), GetClassName(pairs[k].1, objs));
        }
    }
  }

  // ---------------------------------------------------------------------------
  // generate

  /** All the sentences of a scene: the object sentences, then the relationship ones. */
  function Sentences(scene: Scene): seq<string> {
    DescribeObjects(scene.objects) + DescribeRelationships(scene)
  }

  /** `generate` (and `generate_description`, which builds a fresh generator and calls it):
      the sentences joined by single spaces. */
  function Generate(scene: Scene): (r: string)
    ensures r == [] <==> Sentences(scene) == []
    ensures Sentences(scene) != [] ==> PyText.IsPrefix(Sentences(scene)[0], r)
  {
    var s := Sentences(scene);
    SentencesNonEmpty(scene);
    JoinEmpty(s, " ");
    JoinStartsWithFirst(s, " ");
    PyText.Join(s, " ")
  }

  /** A joined list starts with its first part. */
  lemma JoinStartsWithFirst(parts: seq<string>, sep: string)
    ensures parts != [] ==> PyText.IsPrefix(parts[0], PyText.Join(parts, sep))
  {
    if |parts| >= 2 {
      PyText.JoinCons(parts[0], parts[1..], sep);
      assert [parts[0]] + parts[1..] == parts;
    }
  }

  lemma {:induction false} SentencesNonEmpty(scene: Scene)
    ensures forall k :: 0 <= k < |Sentences(scene)| ==> Sentences(scene)[k] != []
  {
    var objs := DescribeObjects(scene.objects);
    var rels := RelationSentences(scene.objects, scene.functional);
    assert forall k :: 0 <= k < |rels| ==> rels[k] != [] by {
      RelationSentencesNonEmpty(scene.objects, scene.functional);
    }
  }

  lemma {:induction false} RelationSentencesNonEmpty(objs: seq<SceneObject>, f: seq<(string, seq<(string, string)>)>)
    ensures forall k :: 0 <= k < |RelationSentences(objs, f)| ==> RelationSentences(objs, f)[k] != []
    decreases |f|
  {
    if f != [] {
      RelationSentencesNonEmpty(objs, f[1..]);
    }
  }

  lemma {:induction false} JoinEmpty(parts: seq<string>, sep: string)
    requires forall k :: 0 <= k < |parts| ==> parts[k] != []
    ensures PyText.Join(parts, sep) == [] <==> parts == []
  {
    if |parts| >= 2 {
      PyText.JoinCons(parts[0], parts[1..], sep);
      assert [parts[0]] + parts[1..] == parts;
    }
  }

  /** The description is empty exactly when there is nothing to say: no person, no
      person-and-umbrella pair, and no holding or using pair. */
  lemma GenerateEmptyExactly(scene: Scene)
    ensures Generate(scene) == [] <==>
      CountClass(scene.objects, "person") == 0 && RelationSentences(scene.objects, scene.functional) == []
  {
    SentencesNonEmpty(scene);
    JoinEmpty(Sentences(scene), " ");
    DescribeObjectsCountsPersons(scene.objects);
    if HasClass(scene.objects, "person") {
      var k :| 0 <= k < |scene.objects| && scene.objects[k].cls == "person";
      assert Classes(scene.objects)[k] == "person";
    }
  }

  /** A scene whose first object is a person opens with the person sentence. */
  lemma PersonFirst(scene: Scene)
    requires scene.objects != [] && scene.objects[0].cls == "person"
    ensures PyText.IsPrefix(PersonSentence, Generate(scene))
  {
    var s := Sentences(scene);
    assert s[0] == PersonSentence;
    if |s| >= 2 {
      PyText.JoinCons(s[0], s[1..], " ");
      assert [s[0]] + s[1..] == s;
    }
  }
}

=== FILE: train.dfy ===
/** The replay-based training loop of train.py: episodes of at most 100 epsilon-greedy
    steps; every experience goes into a bounded replay buffer, and once the buffer holds
    more than a batch, a sampled batch is replayed through an inline Q-learning update. */
module Train {
  import opened Wrappers
  import opened QTable
  import opened RlAgent
  import RB = ReplayBuffer
  import opened Environment

  const MaxEpisodeSteps: nat := 100
  const ReplayCapacity: nat := 10000
  const DefaultEpisodes: int := 1000
  const DefaultBatchSize: int := 32

  /** An exception escaping `train`: from the agent or from `random.sample`. */
  datatype TrainError = AgentFailed(agentError: AgentError) | SampleFailed(bufferError: RB.BufferError)

  /** The random draws, indexed by the number of steps taken so far over all episodes:
      `random.random()` and `random.randint` for the action, then the draws of
      `random.sample` for the replayed batch. */
  datatype Oracle = Oracle(coin: nat -> real, pick: nat -> nat, draws: nat -> seq<nat>)

  /** What one step did: where it started, what it chose, what the environment answered,
      the buffer length after the push, and whether a batch was replayed. */
  datatype StepRecord = StepRecord(
    state: int, action: nat, reward: real, next: int, done: bool, bufferLen: nat, replayed: bool)

  /** `total_rewards`, the agent after training, the steps of every episode, and the
      stages every episode went through. */
  datatype Training<W> = Training(rewards: seq<real>, agent: Agent, episodes: seq<seq<StepRecord>>,
                                  stages: seq<seq<Stage<W>>>)

  function Min(a: int, b: int): int {
    if a < b then a else b
  }

  /** The replay target of train.py (lines 38-41) bootstraps from `next_state` only when not done. It
      is the target of `RLAgent.update`, and raises exactly when that has none. */
  function ReplayTarget(ag: Agent, t: Transition): (r: Result<real, AgentError>)
    requires Valid(ag)
    ensures r.Ok? <==> Target(ag, t.reward, t.nextState, t.done).Some?
    ensures r.Ok? ==> r.value == Target(ag, t.reward, t.nextState, t.done).value
  {
    var bootstrap :-
      if t.done then Ok(0.0)
      else match PyIndex(ag.stateSize, t.nextState)
        case None => Err(IndexError)
        case Some(ns) => if ag.actionSize == 0 then Err(ValueError) else Ok(ag.gamma * MaxOf(ag.q[ns]));
    Ok(t.reward + bootstrap)
  }

  /** The inline update of train.py (lines 38-42): entry `[s][a]` moves by `alpha` toward the replay target. Epsilon is
      not touched. */
  function ReplayUpdate(ag: Agent, t: Transition): (r: Result<Agent, AgentError>)
    requires Valid(ag)
    ensures r.Ok? ==> Valid(r.value) && r.value.(q := ag.q) == ag
  {
    var target :- ReplayTarget(ag, t);
    var s :- match PyIndex(ag.stateSize, t.state) case None => Err(IndexError) case Some(s) => Ok(s);
    var a :- match PyIndex(ag.actionSize, t.action) case None => Err(IndexError) case Some(a) => Ok(a);
    var v := Toward(ag.q[s][a], ag.alpha, target);
    SetKeepsShape(ag.q, ag.stateSize, ag.actionSize, s, a, v);
    Ok(ag.(q := Set(ag.q, s, a, v)))
  }

  /** The inline replay update is `RLAgent.update` without the epsilon decay: it raises
      exactly when `update` does and otherwise leaves the same Q-table. */
  lemma ReplayUpdateIsUpdateWithoutDecay(ag: Agent, t: Transition)
    requires Valid(ag)
    ensures ReplayUpdate(ag, t).Ok? <==> Update(ag, t).Ok?
    ensures ReplayUpdate(ag, t).Ok? ==> ReplayUpdate(ag, t).value == Update(ag, t).value.(epsilon := ag.epsilon)
  {
    var tg := Target(ag, t.reward, t.nextState, t.done);
    var si, ai := PyIndex(ag.stateSize, t.state), PyIndex(ag.actionSize, t.action);
    if tg.Some? && si.Some? && ai.Some? {
      var s, a := si.value, ai.value;
      var v := Toward(ag.q[s][a], ag.alpha, tg.value);
      ReplayUpdateWrites(ag, t, s, a, tg.value, v);
      UpdateWrites(ag, t, s, a, tg.value, v);
    } else {
      ReplayUpdateFails(ag, t);
    }
  }

  /** When the target and both indices exist, the replay update writes the stepped value
      `v` into the entry. */
  lemma ReplayUpdateWrites(ag: Agent, t: Transition, s: nat, a: nat, tg: real, v: real)
    requires Valid(ag)
    requires Target(ag, t.reward, t.nextState, t.done) == Some(tg)
    requires PyIndex(ag.stateSize, t.state) == Some(s) && PyIndex(ag.actionSize, t.action) == Some(a)
    requires v == Toward(ag.q[s][a], ag.alpha, tg)
    ensures ReplayUpdate(ag, t).Ok?
    ensures ReplayUpdate(ag, t).value == ag.(q := Set(ag.q, s, a, v))
  {
    assert ReplayTarget(ag, t) == Ok(tg);
    assert ReplayUpdate(ag, t).value.q[s][a] == v;
  }

  /** The same for `RLAgent.update`, which also moves epsilon. */
  lemma UpdateWrites(ag: Agent, t: Transition, s: nat, a: nat, tg: real, v: real)
    requires Valid(ag)
    requires Target(ag, t.reward, t.nextState, t.done) == Some(tg)
    requires PyIndex(ag.stateSize, t.state) == Some(s) && PyIndex(ag.actionSize, t.action) == Some(a)
    requires v == Toward(ag.q[s][a], ag.alpha, tg)
    ensures Update(ag, t).Ok?
    ensures Update(ag, t).value == ag.(q := Set(ag.q, s, a, v), epsilon := Update(ag, t).value.epsilon)
  {
  }

  /** Without a target or an index the replay update raises. */
  lemma ReplayUpdateFails(ag: Agent, t: Transition)
    requires Valid(ag)
    requires Target(ag, t.reward, t.nextState, t.done).None?
      || PyIndex(ag.stateSize, t.state).None? || PyIndex(ag.actionSize, t.action).None?
    ensures ReplayUpdate(ag, t).Err?
  {
  }

  /** Replaying a sampled batch in order, stopping at the first error. */
  function ReplayAll(ag: Agent, batch: seq<Transition>): (r: Result<Agent, AgentError>)
    requires Valid(ag)
    ensures r.Ok? ==> Valid(r.value) && r.value.(q := ag.q) == ag
    decreases |batch|
  {
    if batch == [] then Ok(ag)
    else
      var next :- ReplayUpdate(ag, batch[0]);
      ReplayAll(next, batch[1..])
  }

  /** The state of the loop after one step. */
  datatype StepOut<W> = StepOut(world: W, agent: Agent, buffer: RB.Buffer<Transition>, record: StepRecord)

  /** One iteration of the inner loop of train.py (lines 21-42), `t` being the number of steps taken
      before it. */
  function TrainStep<W>(ag: Agent, env: TrainingEnv<W>, world: W, buffer: RB.Buffer<Transition>,
                        state: int, batchSize: int, oracle: Oracle, t: nat): (r: Result<StepOut<W>, TrainError>)
    requires Valid(ag) && RB.Valid(buffer)
    ensures r.Ok? ==> Valid(r.value.agent) && r.value.agent.(q := ag.q) == ag
    ensures r.Ok? ==> RB.Valid(r.value.buffer) && r.value.buffer.capacity == buffer.capacity
    ensures r.Ok? ==> RB.Len(r.value.buffer) == Min(RB.Len(buffer) + 1, buffer.capacity)
    ensures r.Ok? ==>
      var rec := r.value.record;
      && rec.state == state && rec.action < ag.actionSize
      && SelectAction(ag, state, oracle.coin(t), oracle.pick(t)) == Ok(rec.action)
      && env.step(world, rec.action) == Outcome(r.value.world, rec.next, rec.reward, rec.done)
      && rec.bufferLen == RB.Len(r.value.buffer)
      && (rec.replayed <==> rec.bufferLen > batchSize)
      && (!rec.replayed ==> r.value.agent == ag)
      && r.value.buffer == RB.Push(buffer, Transition(state, rec.action, rec.reward, rec.next, rec.done))
      && (rec.replayed ==>
            && RB.Sample(r.value.buffer, batchSize, oracle.draws(t)).Ok?
            && ReplayAll(ag, RB.Sample(r.value.buffer, batchSize, oracle.draws(t)).value) == Ok(r.value.agent))
  {
    var action :- match SelectAction(ag, state, oracle.coin(t), oracle.pick(t))
                  case Err(e) => Err(AgentFailed(e))
                  case Ok(a) => Ok(a);
    var out := env.step(world, action);
    var buffer' := RB.Push(buffer, Transition(state, action, out.reward, out.next, out.done));
    var replayed := RB.Len(buffer') > batchSize;
    var record := StepRecord(state, action, out.reward, out.next, out.done, RB.Len(buffer'), replayed);
    if replayed then
      var batch :- match RB.Sample(buffer', batchSize, oracle.draws(t))
                   case Err(e) => Err(SampleFailed(e))
                   case Ok(b) => Ok(b);
      var agent' :- match ReplayAll(ag, batch)
                    case Err(e) => Err(AgentFailed(e))
                    case Ok(a) => Ok(a);
      Ok(StepOut(out.world, agent', buffer', record))
    else
      Ok(StepOut(out.world, ag, buffer', record))
  }

  /** The sum of an episode's step rewards, `episode_reward`. */
  function SumRewards(ep: seq<StepRecord>): real
    decreases |ep|
  {
    if ep == [] then 0.0 else SumRewards(ep[..|ep| - 1]) + ep[|ep| - 1].reward
  }

  /** The shape of one episode of `train`: it has between 1 and 100 steps, each step starts
      where the previous one ended, only the last step may be done, and an episode shorter
      than 100 steps ended because its last step was done. */
  predicate WellFormedEpisode(ep: seq<StepRecord>, actionSize: nat) {
    && 1 <= |ep| <= MaxEpisodeSteps
    && (forall j :: 0 <= j < |ep| ==> ep[j].action < actionSize)
    && (forall j :: 0 <= j < |ep| - 1 ==> !ep[j].done && ep[j + 1].state == ep[j].next)
    && (|ep| < MaxEpisodeSteps ==> ep[|ep| - 1].done)
  }

  /** All the steps of all episodes, in order. */
  function Flatten(eps: seq<seq<StepRecord>>): seq<StepRecord>
    decreases |eps|
  {
    if eps == [] then [] else Flatten(eps[..|eps| - 1]) + eps[|eps| - 1]
  }

  /** Over the whole run, the buffer after step `k` holds `min(k + 1, 10000)` experiences
      and a batch is replayed exactly when that is more than the batch size. */
  predicate ReplayLog(log: seq<StepRecord>, batchSize: int) {
    forall k :: 0 <= k < |log| ==>
      log[k].bufferLen == Min(k + 1, ReplayCapacity) && (log[k].replayed <==> log[k].bufferLen > batchSize)
  }

  /** What the loop carries from step to step: the environment, the agent and the buffer. */
  datatype Stage<W> = Stage(world: W, agent: Agent, buffer: RB.Buffer<Transition>)

  /** The steps `ep` were taken one after the other by `TrainStep`, the `j`-th from stage
      `j` to stage `j + 1` as the `t + j`-th step of the run. */
  ghost predicate Chained<W>(env: TrainingEnv<W>, batchSize: int, oracle: Oracle, t: nat,
                             stages: seq<Stage<W>>, ep: seq<StepRecord>) {
    && |stages| == |ep| + 1
    && forall j: nat :: j < |ep| ==> StepAt(env, batchSize, oracle, t, stages, ep, j)
  }

  /** Stage `j + 1` and record `j` are what `TrainStep` gives from stage `j`. */
  ghost predicate StepAt<W>(env: TrainingEnv<W>, batchSize: int, oracle: Oracle, t: nat,
                            stages: seq<Stage<W>>, ep: seq<StepRecord>, j: nat) {
    && j < |ep| && j + 1 < |stages|
    && Valid(stages[j].agent) && RB.Valid(stages[j].buffer)
    && TrainStep(stages[j].agent, env, stages[j].world, stages[j].buffer, ep[j].state, batchSize, oracle, t + j)
       == Ok(StepOut(stages[j + 1].world, stages[j + 1].agent, stages[j + 1].buffer, ep[j]))
  }

  /** One episode as `train` runs it from stage `from`: the environment is reset, and the
      steps are chained from there with the same agent and buffer. */
  ghost predicate EpisodeFrom<W>(env: TrainingEnv<W>, batchSize: int, oracle: Oracle, t: nat,
                           from: Stage<W>, stages: seq<Stage<W>>, ep: seq<StepRecord>) {
    && |stages| >= 1
    && stages[0] == Stage(env.reset(from.world).0, from.agent, from.buffer)
    && (|ep| > 0 ==> ep[0].state == env.reset(from.world).1)
    && Chained(env, batchSize, oracle, t, stages, ep)
  }

  /** The state a step of the episode starts from: the reset state for the first step,
      the previous step's next state after that. */
  function StateBefore(resetState: int, ep: seq<StepRecord>): int {
    if ep == [] then resetState else ep[|ep| - 1].next
  }

  /** An episode run from stage `from` chained the steps `ep` without reaching done or the
      step cap, and the next `TrainStep`, from the last stage, raised `e`. */
  ghost predicate FailsAfter<W>(env: TrainingEnv<W>, batchSize: int, oracle: Oracle, t: nat,
                                from: Stage<W>, stages: seq<Stage<W>>, ep: seq<StepRecord>, e: TrainError) {
    && EpisodeFrom(env, batchSize, oracle, t, from, stages, ep)
    && |ep| < MaxEpisodeSteps
    && (ep == [] || !ep[|ep| - 1].done)
    && Valid(stages[|ep|].agent) && RB.Valid(stages[|ep|].buffer)
    && TrainStep(stages[|ep|].agent, env, stages[|ep|].world, stages[|ep|].buffer,
                 StateBefore(env.reset(from.world).1, ep), batchSize, oracle, t + |ep|) == Err(e)
  }

  /** Every step of a chained episode was chosen by the agent of its stage from the
      oracle's draws for that step, was answered by the environment of its stage, and
      changed the agent only through the replay of the batch sampled from the buffer
      after the push. */
  lemma ChainedStep<W>(env: TrainingEnv<W>, batchSize: int, oracle: Oracle, t: nat,
                       stages: seq<Stage<W>>, ep: seq<StepRecord>, j: nat)
    requires Chained(env, batchSize, oracle, t, stages, ep) && j < |ep|
    ensures Valid(stages[j].agent) && RB.Valid(stages[j].buffer)
    ensures SelectAction(stages[j].agent, ep[j].state, oracle.coin(t + j), oracle.pick(t + j)) == Ok(ep[j].action)
    ensures env.step(stages[j].world, ep[j].action) == Outcome(stages[j + 1].world, ep[j].next, ep[j].reward, ep[j].done)
    ensures stages[j + 1].buffer == RB.Push(stages[j].buffer, Transition(ep[j].state, ep[j].action, ep[j].reward, ep[j].next, ep[j].done))
    ensures !ep[j].replayed ==> stages[j + 1].agent == stages[j].agent
    ensures ep[j].replayed ==>
      var batch := RB.Sample(stages[j + 1].buffer, batchSize, oracle.draws(t + j));
      batch.Ok? && ReplayAll(stages[j].agent, batch.value) == Ok(stages[j + 1].agent)
  {
    assert StepAt(env, batchSize, oracle, t, stages, ep, j);
  }

  /** A step taken from the last stage extends the chain. */
  lemma ExtendChain<W>(env: TrainingEnv<W>, batchSize: int, oracle: Oracle, t: nat,
                       stages: seq<Stage<W>>, ep: seq<StepRecord>, next: Stage<W>, rec: StepRecord)
    requires Chained(env, batchSize, oracle, t, stages, ep)
    requires Valid(stages[|ep|].agent) && RB.Valid(stages[|ep|].buffer)
    requires TrainStep(stages[|ep|].agent, env, stages[|ep|].world, stages[|ep|].buffer, rec.state, batchSize, oracle, t + |ep|)
             == Ok(StepOut(next.world, next.agent, next.buffer, rec))
    ensures Chained(env, batchSize, oracle, t, stages + [next], ep + [rec])
  {
    var stages', ep' := stages + [next], ep + [rec];
    forall j: nat | j < |ep'|
      ensures StepAt(env, batchSize, oracle, t, stages', ep', j)
    {
      assert stages'[j] == stages[j] && ep'[j] == (if j < |ep| then ep[j] else rec);
      if j < |ep| {
        assert StepAt(env, batchSize, oracle, t, stages, ep, j);
        assert stages'[j + 1] == stages[j + 1];
      }
    }
  }

  /** The loop state at the end of an episode, with the stage before every step and after
      the last. */
  datatype EpisodeOut<W> = EpisodeOut(
    world: W, agent: Agent, buffer: RB.Buffer<Transition>, steps: seq<StepRecord>, total: real,
    stages: seq<Stage<W>>)

  /** One episode of `train` in train.py (lines 14-42), `t` being the number of steps taken
      before it and `log` the records of those steps. The steps are exactly those
      `TrainStep` takes from the reset environment, the given agent and buffer, and the
      episode ends in the last stage. */
  method RunEpisode<W>(ag: Agent, env: TrainingEnv<W>, world: W, buffer: RB.Buffer<Transition>,
                       batchSize: int, oracle: Oracle, t: nat, log: seq<StepRecord>)
    returns (r: Result<EpisodeOut<W>, TrainError>)
    requires Valid(ag) && RB.Valid(buffer) && buffer.capacity == ReplayCapacity
    requires t == |log| && RB.Len(buffer) == Min(t, ReplayCapacity) && ReplayLog(log, batchSize)
    ensures r.Ok? ==> Valid(r.value.agent) && r.value.agent.(q := ag.q) == ag
    ensures r.Ok? ==> RB.Valid(r.value.buffer) && r.value.buffer.capacity == ReplayCapacity
    ensures r.Ok? ==> RB.Len(r.value.buffer) == Min(t + |r.value.steps|, ReplayCapacity)
    ensures r.Ok? ==> WellFormedEpisode(r.value.steps, ag.actionSize)
    ensures r.Ok? ==> r.value.total == SumRewards(r.value.steps)
    ensures r.Ok? ==> ReplayLog(log + r.value.steps, batchSize)
    ensures r.Ok? ==> EpisodeFrom(env, batchSize, oracle, t, Stage(world, ag, buffer), r.value.stages, r.value.steps)
    ensures r.Ok? ==> r.value.stages[|r.value.stages| - 1] == Stage(r.value.world, r.value.agent, r.value.buffer)
    ensures r.Err? ==> exists stages, ep :: FailsAfter(env, batchSize, oracle, t, Stage(world, ag, buffer), stages, ep, r.error)
  {
    var agent := ag;
    var b := buffer;
    var reset := env.reset(world);
    var w := reset.0;
    var state := reset.1;
    var total := 0.0;
    var done := false;
    var ep: seq<StepRecord> := [];
    var stages := [Stage(w, agent, b)];
    while !done && |ep| < MaxEpisodeSteps
      invariant |ep| <= MaxEpisodeSteps
      invariant Valid(agent) && agent.(q := ag.q) == ag
      invariant RB.Valid(b) && b.capacity == ReplayCapacity
      invariant RB.Len(b) == Min(t + |ep|, ReplayCapacity)
      invariant total == SumRewards(ep)
      invariant EpisodeSoFar(ep, reset.1, ag.actionSize)
      invariant |ep| > 0 ==> state == ep[|ep| - 1].next && done == ep[|ep| - 1].done
      invariant |ep| == 0 ==> !done && state == reset.1
      invariant ReplayLog(log + ep, batchSize)
      invariant |stages| == |ep| + 1 && stages[0] == Stage(reset.0, ag, buffer) && stages[|ep|] == Stage(w, agent, b)
      invariant Chained(env, batchSize, oracle, t, stages, ep)
      decreases MaxEpisodeSteps - |ep|
    {
      var step := TrainStep(agent, env, w, b, state, batchSize, oracle, t + |ep|);
      if step.Err? {
        assert state == StateBefore(reset.1, ep);
        assert FailsAfter(env, batchSize, oracle, t, Stage(world, ag, buffer), stages, ep, step.error);
        return Err(step.error);
      }
      var out := step.value;
      ExtendLog(log, ep, out.record, batchSize);
      ExtendEpisode(ep, out.record, reset.1, ag.actionSize);
      ExtendChain(env, batchSize, oracle, t, stages, ep, Stage(out.world, out.agent, out.buffer), out.record);
      ep := ep + [out.record];
      stages := stages + [Stage(out.world, out.agent, out.buffer)];
      total := total + out.record.reward;
      agent, b, w := out.agent, out.buffer, out.world;
      state, done := out.record.next, out.record.done;
    }
    EpisodeEnds(ep, reset.1, ag.actionSize);
    return Ok(EpisodeOut(w, agent, b, ep, total, stages));
  }

  /** The steps taken so far in an episode: the first starts at the reset state, each
      chose a valid action, and each but the last was not done and handed its next state
      to the following step. */
  predicate EpisodeSoFar(ep: seq<StepRecord>, start: int, actionSize: nat) {
    && (|ep| > 0 ==> ep[0].state == start)
    && (forall j :: 0 <= j < |ep| ==> ep[j].action < actionSize)
    && (forall j :: 0 <= j < |ep| - 1 ==> !ep[j].done && ep[j + 1].state == ep[j].next)
  }

  /** A step that starts where the episode stands extends it, and adds its reward. */
  lemma ExtendEpisode(ep: seq<StepRecord>, rec: StepRecord, start: int, actionSize: nat)
    requires EpisodeSoFar(ep, start, actionSize) && rec.action < actionSize
    requires |ep| == 0 ==> rec.state == start
    requires |ep| > 0 ==> !ep[|ep| - 1].done && rec.state == ep[|ep| - 1].next
    ensures EpisodeSoFar(ep + [rec], start, actionSize)
    ensures SumRewards(ep + [rec]) == SumRewards(ep) + rec.reward
  {
    assert (ep + [rec])[..|ep|] == ep;
  }

  /** The loop leaves a well-formed episode: it stops after 100 steps or at a done step. */
  lemma EpisodeEnds(ep: seq<StepRecord>, start: int, actionSize: nat)
    requires EpisodeSoFar(ep, start, actionSize) && 1 <= |ep| <= MaxEpisodeSteps
    requires |ep| < MaxEpisodeSteps ==> ep[|ep| - 1].done
    ensures WellFormedEpisode(ep, actionSize) && ep[0].state == start
  {
  }

  /** A step whose buffer length follows the pattern keeps the replay log well formed. */
  lemma ExtendLog(log: seq<StepRecord>, ep: seq<StepRecord>, rec: StepRecord, batchSize: int)
    requires ReplayLog(log + ep, batchSize)
    requires rec.bufferLen == Min(|log| + |ep| + 1, ReplayCapacity)
    requires rec.replayed <==> rec.bufferLen > batchSize
    ensures ReplayLog(log + (ep + [rec]), batchSize)
  {
    assert log + (ep + [rec]) == (log + ep) + [rec];
  }

  /** The stage a run stands at after the episodes whose stages are `stagess`. */
  function EndStage<W>(start: Stage<W>, stagess: seq<seq<Stage<W>>>): Stage<W> {
    if |stagess| == 0 || |stagess[|stagess| - 1]| == 0 then start
    else stagess[|stagess| - 1][|stagess[|stagess| - 1]| - 1]
  }

  /** The episodes `eps` were run one after the other from `start`, each from the stage
      the one before it ended in, each numbering its steps after those of the earlier
      episodes. */
  ghost predicate RunChained<W>(env: TrainingEnv<W>, batchSize: int, oracle: Oracle, start: Stage<W>,
                          stagess: seq<seq<Stage<W>>>, eps: seq<seq<StepRecord>>)
    decreases |eps|
  {
    && |stagess| == |eps|
    && (|eps| > 0 ==>
          var k := |eps| - 1;
          && RunChained(env, batchSize, oracle, start, stagess[..k], eps[..k])
          && EpisodeFrom(env, batchSize, oracle, |Flatten(eps[..k])|, EndStage(start, stagess[..k]), stagess[k], eps[k]))
  }

  /** An episode run from where the run stands extends it. */
  lemma ExtendRun<W>(env: TrainingEnv<W>, batchSize: int, oracle: Oracle, start: Stage<W>,
                     stagess: seq<seq<Stage<W>>>, eps: seq<seq<StepRecord>>, stages: seq<Stage<W>>, ep: seq<StepRecord>)
    requires RunChained(env, batchSize, oracle, start, stagess, eps)
    requires EpisodeFrom(env, batchSize, oracle, |Flatten(eps)|, EndStage(start, stagess), stages, ep)
    ensures RunChained(env, batchSize, oracle, start, stagess + [stages], eps + [ep])
    ensures EndStage(start, stagess + [stages]) == stages[|stages| - 1]
  {
    assert (stagess + [stages])[..|eps|] == stagess;
    assert (eps + [ep])[..|eps|] == eps;
  }

  /** `train` in train.py. `total_rewards` has one entry per episode, each the sum of the
      rewards the environment gave in that episode's steps; each episode is run from the
      environment, agent and buffer the previous one left, starting with an empty buffer;
      the trained agent is the one the last episode left, and since only its Q-table
      changes, epsilon stays where it was. */
  method Run<W>(ag: Agent, env: TrainingEnv<W>, world: W, episodes: int, batchSize: int, oracle: Oracle)
    returns (r: Result<Training<W>, TrainError>)
    requires Valid(ag)
    ensures r.Ok? ==> |r.value.rewards| == |r.value.episodes| == if episodes > 0 then episodes else 0
    ensures r.Ok? ==> forall i :: 0 <= i < |r.value.rewards| ==>
      r.value.rewards[i] == SumRewards(r.value.episodes[i]) && WellFormedEpisode(r.value.episodes[i], ag.actionSize)
    ensures r.Ok? ==> ReplayLog(Flatten(r.value.episodes), batchSize)
    ensures r.Ok? ==> Valid(r.value.agent) && r.value.agent.(q := ag.q) == ag
    ensures r.Ok? ==>
      var start := Stage(world, ag, RB.Buffer([], ReplayCapacity));
      && RunChained(env, batchSize, oracle, start, r.value.stages, r.value.episodes)
      && EndStage(start, r.value.stages).agent == r.value.agent
    ensures r.Err? ==>
      var start := Stage(world, ag, RB.Buffer([], ReplayCapacity));
      exists stagess, eps, stages, ep ::
        && RunChained(env, batchSize, oracle, start, stagess, eps)
        && |eps| < episodes
        && FailsAfter(env, batchSize, oracle, |Flatten(eps)|, EndStage(start, stagess), stages, ep, r.error)
  {
    var agent := ag;
    var buffer: RB.Buffer<Transition> := RB.Buffer([], ReplayCapacity);
    var w := world;
    var start := Stage(w, agent, buffer);
    var rewards: seq<real> := [];
    var eps: seq<seq<StepRecord>> := [];
    var stagess: seq<seq<Stage<W>>> := [];
    var n := if episodes > 0 then episodes else 0;
    while |rewards| < n
      invariant |rewards| == |eps| <= n
      invariant Valid(agent) && agent.(q := ag.q) == ag
      invariant RB.Valid(buffer) && buffer.capacity == ReplayCapacity
      invariant RB.Len(buffer) == Min(|Flatten(eps)|, ReplayCapacity)
      invariant forall i :: 0 <= i < |rewards| ==>
        rewards[i] == SumRewards(eps[i]) && WellFormedEpisode(eps[i], ag.actionSize)
      invariant ReplayLog(Flatten(eps), batchSize)
      invariant RunChained(env, batchSize, oracle, start, stagess, eps)
      invariant EndStage(start, stagess) == Stage(w, agent, buffer)
      decreases n - |rewards|
    {
      var episode := RunEpisode(agent, env, w, buffer, batchSize, oracle, |Flatten(eps)|, Flatten(eps));
      if episode.Err? {
        ghost var stages, ep :| FailsAfter(env, batchSize, oracle, |Flatten(eps)|, Stage(w, agent, buffer), stages, ep, episode.error);
        assert FailsAfter(env, batchSize, oracle, |Flatten(eps)|, EndStage(start, stagess), stages, ep, episode.error);
        return Err(episode.error);
      }
      var out := episode.value;
      FlattenSnoc(eps, out.steps);
      ExtendRun(env, batchSize, oracle, start, stagess, eps, out.stages, out.steps);
      rewards := rewards + [out.total];
      eps := eps + [out.steps];
      stagess := stagess + [out.stages];
      agent, buffer, w := out.agent, out.buffer, out.world;
    }
    return Ok(Training(rewards, agent, eps, stagess));
  }

  lemma FlattenSnoc(eps: seq<seq<StepRecord>>, ep: seq<StepRecord>)
    ensures Flatten(eps + [ep]) == Flatten(eps) + ep
  {
    assert (eps + [ep])[..|eps|] == eps;
  }
}

=== FILE: wrappers.dfy ===
/** Failure-compatible wrappers used for Python's `None` and for the exceptions the
    modelled code raises. */
module Wrappers {

  /** Python's "value or None". */
  datatype Option<+T> = None | Some(value: T) {

    predicate IsFailure() {
      None?
    }

    function PropagateFailure<U>(): Option<U>
      requires None?
    {
      None
    }

    function Extract(): T
      requires Some?
    {
      value
    }

    /** Python's `d.get(k, default)` once the lookup has been done. */
    function GetOr(default: T): T {
      match this
      case Some(v) => v
      case None => default
    }
  }

  /** A value, or the exception the Python code would raise instead. */
  datatype Result<+T, +E> = Ok(value: T) | Err(error: E) {

    predicate IsFailure() {
      Err?
    }

    function PropagateFailure<U>(): Result<U, E>
      requires Err?
    {
      Err(error)
    }

    function Extract(): T
      requires Ok?
    {
      value
    }
  }
}
